=== FILE: README.md ===
# Billing-document engine, modelled in Dafny

This project models the core of a small invoicing application (an Express/Mongoose back end with
a Next.js front end). Its centre is the **billing-document engine**:

- the money and tax computation on invoices and quotes (`calculateAmounts`, `calculateTotals`),
  including the credit-note sign and the absolute values an invoice stores;
- the number series (`InvoiceGroup`): `generateNumber` with its first-occurrence placeholder
  substitution and zero padding, `incrementNextId`, and the one-default-per-company save hook;
- the payment ledger: the post-save and post-delete hooks that re-sum an invoice's payments and
  rewrite its paid amount, balance and status;
- the document lifecycle: the invoice, quote, payment and client request handlers, and the guest
  routes that view, approve and reject documents.

Around it sit the smaller rules: the single-default tables for tax rates and payment methods,
the setting store, the product price validators, company slugs, client display names, the overdue
rule for tasks, the company middleware, the dashboard's period ranges and zero-filled series, the
e-mail placeholder substitution, and the front-end string helpers.

Persistence is the class `Database.Db`. It holds one map per collection (invoices, quotes,
series, clients) and the payment collection as a sequence in insertion order, plus a counter
that hands out fresh keys. Each request handler is a method on it. Each handler's `ensures` gives
the whole new state for every outcome (404, 400, 403, validation error, success). Money is
`real`, since the source never rounds. Time is a number of milliseconds. "Now", the current year
and month, the settings a handler reads, the tax-rate table and generated URL keys are all
parameters.

Where the code and the repository's own description differ, the model follows the code. A
handler allocates the document number and advances the series counter *before* the document's
validators run. So a create that then fails validation has still used up a number.

Two quirks are modelled as written:
- the payment save hook never moves `paid` back to `sent`; only the delete hook does;
- a credit note negates every quantity, although the item schema requires at least 0.01.

`CreditNoteWithItemsIsRejected` proves that such a credit note can never be saved.

## Model

| member | source | states |
|---|---|---|
| LineItems.ItemTotalIsGrossedUp | backend/src/models/Invoice.js:189-203 | an item's total is its discounted subtotal scaled by one plus its tax rate; with no discount and no tax it is quantity times price |
| LineItems.ItemAmountsBounds | backend/src/models/Invoice.js:189-203 | when the discount does not exceed the subtotal and the rate is not negative, the tax is non-negative and the total is at least the taxable amount |
| LineItems.ValidItemSubtotalPositive | backend/src/models/Invoice.js:13-23 | the 0.01 minimums on quantity and price keep every item subtotal at least 0.0001 |
| LineItems.Priced | backend/src/models/Invoice.js:211-226 | pricing keeps the item count and order and gives each item exactly the amounts `calculateAmounts` computes |
| LineItems.ItemSumsAppend | backend/src/models/Invoice.js:211-226 | the subtotal and item-tax sums are additive over concatenated item lists |
| LineItems.PricedIdempotent | backend/src/models/Invoice.js:189-226 | pricing twice is pricing once, and the sums do not depend on previously stored amounts |
| LineItems.StoredSubtotalsMatch | backend/src/models/Invoice.js:211-226 | after pricing, the items' own stored subtotals add up to the document subtotal |
| LineItems.ApplyDiscount | backend/src/models/Invoice.js:229-235 | the imperative discount step equals the specification: percent first, then the fixed amount, each only when positive |
| LineItems.DiscountedSubtotalFormula | backend/src/models/Invoice.js:229-235 | the two discounts in closed form, a non-positive percent or amount counting as zero |
| LineItems.DiscountNeverRaises | backend/src/models/Invoice.js:229-235 | a discount never raises a non-negative subtotal, and a percent of at most 100 with no fixed amount keeps it non-negative |
| LineItems.PriceItems | backend/src/models/Invoice.js:211-226 | the accumulator loop writes every item's amounts and returns exactly the subtotal and item-tax sums |
| LineItems.SumTaxRates | backend/src/models/Invoice.js:238-242 | the tax-rate loop returns the sum of the document-level tax amounts |
| InvoiceModel.Abs | backend/src/models/Invoice.js:250-251 | `Math.abs`: non-negative and equal to the argument or its negation |
| InvoiceModel.CalculateTotals | backend/src/models/Invoice.js:206-254 | the imperative `calculateTotals` computes exactly the invoice that the totals specification describes |
| InvoiceModel.TotalsItems | backend/src/models/Invoice.js:189-226 | each item carries its own amounts: subtotal quantity times price, its discount, tax at its rate on the taxable amount, total taxable plus tax |
| InvoiceModel.TotalsDocument | backend/src/models/Invoice.js:206-254 | the subtotal sums the items, the tax total sums the tax-rate entries, the total is the absolute signed gross, and the balance is the absolute difference from what was paid |
| InvoiceModel.TotalsKeepsValid | backend/src/models/Invoice.js:206-254 | recalculating neither makes an invoice valid nor invalid |
| InvoiceModel.SignedTotalOfOrdinary | backend/src/models/Invoice.js:244 | sign 1 keeps the gross figure and sign -1 negates it |
| InvoiceModel.TotalsFrame | backend/src/models/Invoice.js:206-254 | only the item amounts and the computed document amounts change; paid, the discounts and every other field stay |
| InvoiceModel.SignedTotalOfSameInputs | backend/src/models/Invoice.js:206-254 | the signed total depends only on the prices, tax entries, discounts and sign |
| InvoiceModel.TotalsIdempotent | backend/src/models/Invoice.js:206-254 | recalculating a calculated invoice changes nothing |
| InvoiceModel.SignDoesNotChangeTotal | backend/src/models/Invoice.js:244-251 | a credit note and its positive twin store the same absolute total |
| InvoiceModel.DaysOverdue | backend/src/models/Invoice.js:171-181 | zero when not overdue (paid, draft or not yet due), otherwise the whole days elapsed since the due date |
| QuoteModel.CalculateTotals | backend/src/models/Quote.js:148-193 | the imperative quote `calculateTotals` equals its specification |
| QuoteModel.TotalsSpec | backend/src/models/Quote.js:148-193 | the quote total is discounted subtotal plus item taxes plus tax-rate amounts, with no sign and no absolute value, and nothing else is written |
| QuoteModel.TotalCanBeNegative | backend/src/models/Quote.js:171-190 | a fixed discount larger than the subtotal yields a negative quote total, unlike an invoice |
| QuoteModel.TotalsIdempotent | backend/src/models/Quote.js:148-193 | recalculating a calculated quote changes nothing |
| QuoteModel.ExpiryRules | backend/src/models/Quote.js:137-145 | a converted quote never expires; an unconverted, unapproved one expires exactly when now passes its expiry date |
| ItemRequests.LookupPercent | backend/src/controllers/invoice.controller.js:131-136 | the rate's percent for a known referenced rate, and 0 without a rate or for an unknown one |
| ItemRequests.ProcessItems | backend/src/controllers/invoice.controller.js:131-142 | one processed item per input |
| ItemRequests.ProcessItemsSpec | backend/src/controllers/invoice.controller.js:131-142 | the processed items are in input order with consecutive fresh keys, the order defaulting to the index, the looked-up percent, and the other fields as sent |
| ItemRequests.PricedProcessedItems | backend/src/controllers/invoice.controller.js:131-160 | processed then priced items have the snapshot percent, the default order and the amounts `calculateAmounts` gives |
| ItemRequests.AddedItem | backend/src/controllers/invoice.controller.js:490-499 | the pushed item's order is the current item count; a referenced rate sets its percent, otherwise the sent percent is kept |
| ItemRequests.MergeItem | backend/src/controllers/invoice.controller.js:545-553 | sent fields override stored ones, a referenced rate refreshes the percent, the key is kept, and an empty update changes nothing |
| ItemRequests.Reidentified | backend/src/controllers/invoice.controller.js:369-372 | the copied items are the source items with fresh consecutive keys and nothing else changed |
| Text.Decimal | backend/src/models/InvoiceGroup.js:56-59 | `toString` of a natural number is a non-empty digit string |
| Text.DecimalRoundTrip | backend/src/models/InvoiceGroup.js:56-59 | reading the decimal digits back gives the number |
| Text.DecimalNoLeadingZero | backend/src/models/InvoiceGroup.js:56-59 | the decimal text starts with '0' exactly for zero |
| Text.DecimalLength | backend/src/models/InvoiceGroup.js:56-59 | a number in [10^(k-1), 10^k) has exactly k digits |
| Text.Repeat | backend/src/models/InvoiceGroup.js:56-59 | n copies of the padding character |
| Text.PadStart | backend/src/models/InvoiceGroup.js:56-59 | `padStart`: the width or the original length, whichever is larger, with the original as suffix and only padding in front |
| Text.IntText | backend/src/models/InvoiceGroup.js:61-64 | for a non-negative integer, its decimal text |
| Text.LeadingZerosKeepValue | backend/src/models/InvoiceGroup.js:56-59 | zeros in front of a digit string do not change its value |
| Text.TwoDigitsSpec | backend/src/services/email.service.js:296 | `padStart(2, '0')` of a number below 100 is two digits reading back as the number |
| Text.IndexOfFrom | backend/src/models/InvoiceGroup.js:61-64 | the first index at or after `from` where the pattern occurs, or none when it never occurs there |
| Text.ReplaceFirst | backend/src/models/InvoiceGroup.js:61-64 | `replace` with a string pattern: unchanged without an occurrence, otherwise the first occurrence swapped for the replacement |
| Text.ReplaceFirstKeepsLaterOccurrence | backend/src/models/InvoiceGroup.js:61-64 | a later repeat of the pattern survives, shifted by the change in length |
| Text.ReplaceAllNoOccurrence | backend/src/services/email.service.js:99-102 | a global replace of a pattern that never occurs changes nothing |
| Text.ReplaceAllFirstOccurrence | backend/src/services/email.service.js:99-102 | a global replace keeps the text before the first occurrence, replaces it, and continues after it |
| Text.TrimStartSpec | backend/src/models/Invoice.js:6-11 | trimming the start leaves a suffix not starting with whitespace, and only whitespace is cut |
| Text.TrimEndSpec | backend/src/models/Invoice.js:6-11 | trimming the end leaves a prefix not ending with whitespace, and only whitespace is cut |
| Text.TrimSpec | backend/src/models/Invoice.js:6-11 | the trimmed text is a slice that neither starts nor ends with whitespace, and it is empty exactly when the text is all whitespace; whitespace is JavaScript's: ECMA-262 white space and line terminators, vertical tab, form feed and the Unicode space separators included |
| Text.TrimIdempotent | backend/src/models/Invoice.js:6-11 | trimming twice is trimming once |
| Text.ToLower | backend/src/models/Company.js:92 | `toLowerCase` keeps the length and maps every character on its own |
| Text.CaseMappingRoundTrip | frontend/src/lib/utils.ts:48-50 | lower-casing undoes upper-casing on lower-case ASCII letters and the other way round, and neither mapping touches digits |
| SeriesModel.IdTextSpec | backend/src/models/InvoiceGroup.js:56-59 | the id text is at least leftPad long, ends with the decimal nextId, has only zeros in front, and reads back as nextId |
| SeriesModel.MonthTextSpec | backend/src/models/InvoiceGroup.js:54 | the month text is two digits from 01 to 12 and reads back as the month |
| SeriesModel.YearTextSpec | backend/src/models/InvoiceGroup.js:61-64 | a four-digit year is written with four digits that read back as the year |
| SeriesModel.GenerateNumberExample | backend/src/models/InvoiceGroup.js:51-67 | 'INV-{{{year}}}-{{{id}}}' with padding 4 and nextId 7 in 2025 gives 'INV-2025-0007' |
| SeriesModel.GenerateNumberFirstOccurrenceOnly | backend/src/models/InvoiceGroup.js:61-64 | a repeated `{{{id}}}` is replaced only once; the second stays literal |
| SeriesModel.Incremented | backend/src/models/InvoiceGroup.js:70-74 | the counter rises by exactly one and nothing else changes |
| SeriesModel.ClearOtherDefaults | backend/src/models/InvoiceGroup.js:77-85 | when the saved series is a default, the other defaults of its company and document type are cleared and nothing else changes |
| SeriesModel.SaveKeepsValid | backend/src/models/InvoiceGroup.js:77-85 | saving a valid series keeps every series of the table valid |
| SeriesModel.SaveKeepsOneDefault | backend/src/models/InvoiceGroup.js:77-85 | a save keeps at most one default per company and document type |
| SeriesModel.SaveDefaultIsSoleDefault | backend/src/models/InvoiceGroup.js:77-85 | a saved default becomes the only default of its group; other groups are untouched |
| SeriesModel.SaveNonDefaultChangesNothingElse | backend/src/models/InvoiceGroup.js:77-85 | saving a non-default series changes no other series |
| SeriesModel.ResaveChangesNothingElse | backend/src/models/InvoiceGroup.js:70-85 | re-saving a series without changing its group or default flag (as after `incrementNextId`) clears no other default |
| Database.Db.SaveInvoice | backend/src/controllers/invoice.controller.js:171 | validation first: a valid invoice is written under its key, an invalid one is refused with nothing written |
| Database.Db.SaveQuote | backend/src/controllers/quote.controller.js:145 | the same for quotes |
| Database.Db.ClearSeriesDefaults | backend/src/models/InvoiceGroup.js:77-85 | the record-by-record loop of the hook's `updateMany` ends in the table the specification function describes |
| Database.Db.SaveSeries | backend/src/models/InvoiceGroup.js:77-85 | validation first, then the hook, then the record; the store stays valid |
| Database.Db.IncrementNextId | backend/src/models/InvoiceGroup.js:70-74 | the counter of that series rises by one, is returned, and no other series changes |
| Database.Db.TakeNumber | backend/src/controllers/invoice.controller.js:124-128 | the number generated from the counter's current value, then the counter one further on |
| Database.Db.TakeNumberIf | backend/src/controllers/invoice.controller.js:124-128 | the number and the increment only when the document is to be numbered, otherwise the empty number and no change |
| Database.Db.SumPaid | backend/src/models/Payment.js:48-49 | the reduce loop returns the sum of the invoice's payment amounts |
| Database.Db.PaymentSaved | backend/src/models/Payment.js:43-64 | the invoice's paid amount becomes the sum of its payments, and balance and status follow the save hook |
| Database.Db.PaymentDeleted | backend/src/models/Payment.js:67-88 | the same sums, and the status follows the delete hook |
| PaymentModel.PaidToAppend | backend/src/models/Payment.js:48-49 | the payment sum is additive over concatenated collections |
| PaymentModel.PaidToBounds | backend/src/models/Payment.js:19-23 | valid (non-negative) payments never sum below 0, and an invoice no payment refers to has paid 0 |
| PaymentModel.PaidToRemove | backend/src/models/Payment.js:72-73 | deleting a payment takes exactly its share out of the sum |
| PaymentModel.PaidToReplace | backend/src/models/Payment.js:48-49 | replacing a payment swaps its share for the new one |
| PaymentModel.PaidToPush | backend/src/models/Payment.js:48-49 | appending a payment adds exactly its share |
| PaymentModel.LedgerAmounts | backend/src/models/Payment.js:53-55 | both hooks set paid to the sum and balance to total less paid, with no absolute value |
| PaymentModel.AfterSaveStatus | backend/src/models/Payment.js:57-60 | a non-draft invoice paid in full becomes paid, a draft stays a draft, a paid invoice stays paid, and the only change ever made is to paid |
| PaymentModel.AfterDeleteStatus | backend/src/models/Payment.js:80-83 | the delete hook only moves paid back to sent when money is owed again, and never sets paid |
| PaymentModel.LedgerIdempotent | backend/src/models/Payment.js:43-88 | applying either hook again with the same sum changes nothing |
| PaymentModel.LedgerKeepsValid | backend/src/models/Payment.js:43-88 | the hooks keep an invoice valid |
| PaymentModel.LedgerScenario | backend/src/models/Payment.js:43-88 | invoice of 1000: paying 400 leaves it sent, paying 600 more marks it paid, deleting the 600 returns it to sent owing 600 |
| PaymentController.NewPayment | backend/src/controllers/payment.controller.js:100-106 | the stored payment references the invoice, its date defaults to now, and it is accepted exactly when an amount is given and not negative |
| PaymentController.AppendPayment | backend/src/controllers/payment.controller.js:100-108 | the payment is appended and the save hook re-sums with the old sum plus the new amount |
| PaymentController.CreatePayment | backend/src/controllers/payment.controller.js:87-129 | 404 for an unknown invoice and a validation error for a missing or negative amount, each with nothing written; otherwise the append and the hook |
| PaymentController.PaymentIndex | backend/src/controllers/payment.controller.js:132 | the position of the payment with that key, or none exactly when no payment has it |
| PaymentController.FindPayment | backend/src/controllers/payment.controller.js:132 | the scan finds a position holding the key, or reports none exactly when there is none |
| PaymentController.FindsUniquePayment | backend/src/controllers/payment.controller.js:132 | with distinct keys the lookup finds the one position holding the key |
| PaymentController.UpdatedPayment | backend/src/controllers/payment.controller.js:141-146 | each sent field (amount, date, payment method, note) overwrites the stored one, each unsent one keeps its value, and the key and invoice never change |
| PaymentController.SavePaymentAt | backend/src/controllers/payment.controller.js:148 | an invalid update is refused with nothing written; a valid one replaces the payment in place and runs the save hook |
| PaymentController.UpdatePayment | backend/src/controllers/payment.controller.js:130-169 | 404 for an unknown payment; otherwise the conditional update, saved and re-summed |
| PaymentController.DeletePaymentAt | backend/src/controllers/payment.controller.js:181 | removes that payment, keeps the others in order, and runs the delete hook with the reduced sum |
| PaymentController.DeletePayment | backend/src/controllers/payment.controller.js:170-194 | 404 for an unknown payment; otherwise the removal and the delete hook |
| PaymentController.Listed | backend/src/controllers/payment.controller.js:21-27 | the listed payments are exactly the stored ones matching the query |
| PaymentController.ListedSpec | backend/src/controllers/payment.controller.js:21-27 | an empty query lists everything, and both date bounds are inclusive |
| PaymentController.ListPayments | backend/src/controllers/payment.controller.js:29-48 | at most `limit` matching payments, the total counts all matches, and the page count covers the total |
| InvoiceController.ApplyFields | backend/src/controllers/invoice.controller.js:230-238 | no sent field means no change; items are never written here; a sent URL key, credit parent or quote is written, an unsent one kept |
| InvoiceController.NewInvoiceDates | backend/src/controllers/invoice.controller.js:110-113 | created is as sent or now; due is as sent or created plus the configured days; the URL key is the one sent or else the fresh one |
| InvoiceController.NewInvoiceItems | backend/src/controllers/invoice.controller.js:131-160 | the new invoice's items are the request's items, processed and priced |
| InvoiceController.NewInvoiceDefaultTaxRate | backend/src/controllers/invoice.controller.js:162-169 | the default rate is added exactly when configured and no entry was sent, with amount 0, so the totals are unaffected |
| InvoiceController.AbsentStatusIsNumberedDraft | backend/src/controllers/invoice.controller.js:124-128 | a request without a status is numbered and still stored as a draft |
| InvoiceController.BuildInvoice | backend/src/controllers/invoice.controller.js:144-169 | construction, totals and default rate give the specified new invoice |
| InvoiceController.StoreNewInvoice | backend/src/controllers/invoice.controller.js:124-171 | number taken (when due), keys allocated, the invoice validated and saved; the counter advances even if validation fails |
| InvoiceController.CreateInvoice | backend/src/controllers/invoice.controller.js:101-190 | 400 for an unknown series before anything is written, otherwise the store step |
| InvoiceController.UpdatedKeepsUnsentFields | backend/src/controllers/invoice.controller.js:210-241 | an empty update only recalculates the totals; an unsent status, number, sign or paid amount keeps its value, the item count stays without new items, and an unsent URL key, credit parent or quote keeps its value |
| InvoiceController.UpdateInvoice | backend/src/controllers/invoice.controller.js:191-260 | 404 unknown, 403 read-only, each with nothing written; otherwise the updated invoice is validated and saved |
| InvoiceController.DeleteInvoice | backend/src/controllers/invoice.controller.js:261-294 | 403 while deletion is disabled (before any lookup), 404 unknown, otherwise only that invoice is removed |
| InvoiceController.MarkedSentSpec | backend/src/controllers/invoice.controller.js:306-321 | sending keeps the invoice valid and sent, leaves items and amounts alone, and sets read-only only under toggle 2 |
| InvoiceController.MarkAsSent | backend/src/controllers/invoice.controller.js:295-334 | numbered only when unnumbered (a missing series is an error with nothing written), then sent |
| InvoiceController.CopiedSpec | backend/src/controllers/invoice.controller.js:361-392 | a copy of a valid invoice is a valid, editable draft that owes the source total and has the source's items with fresh keys |
| InvoiceController.StoreCopy | backend/src/controllers/invoice.controller.js:350-392 | number when drafts are numbered, fresh keys, the copy saved |
| InvoiceController.CopyInvoice | backend/src/controllers/invoice.controller.js:335-409 | 404 unknown; a missing series when numbering is an error with nothing written; otherwise the copy |
| InvoiceController.CreditNoteSpec | backend/src/controllers/invoice.controller.js:423-453 | the credit note is a draft with sign -1 pointing at its source, quantities -abs(q) and tax amounts -abs(a), one per source entry |
| InvoiceController.CreditNoteWithItemsIsRejected | backend/src/controllers/invoice.controller.js:435-439 | a credit note of an invoice with items never passes the quantity minimum, so it is never saved |
| InvoiceController.CreditNoteExample | backend/src/controllers/invoice.controller.js:435-453 | crediting 2 at 100 with 10 percent gives an item total of -220 and a stored document total of 220 |
| InvoiceController.SaveCreditNote | backend/src/controllers/invoice.controller.js:453-454 | fresh keys, totals, validation and save of the credit note |
| InvoiceController.StoreCreditNote | backend/src/controllers/invoice.controller.js:422-454 | the number is always taken, and the counter advances even when the note is then refused |
| InvoiceController.CreateCreditInvoice | backend/src/controllers/invoice.controller.js:410-471 | 404 unknown; a missing series is an error with nothing written; otherwise the store step |
| InvoiceController.WithAddedItemSpec | backend/src/controllers/invoice.controller.js:490-500 | exactly one item is appended after the others, its order being the previous count |
| InvoiceController.AddInvoiceItem | backend/src/controllers/invoice.controller.js:472-515 | 404 unknown, 403 read-only, otherwise the item is added, totals are recalculated and the invoice saved |
| InvoiceController.FindItem | backend/src/controllers/invoice.controller.js:534-536 | the first index holding the item key, or none exactly when no item has it |
| InvoiceController.WithUpdatedItemSpec | backend/src/controllers/invoice.controller.js:553-554 | only the item at the index is rewritten; every other item keeps its fields |
| InvoiceController.UpdateInvoiceItem | backend/src/controllers/invoice.controller.js:516-569 | 404 for an unknown invoice or item, 403 read-only, otherwise the merge, recalculation and save |
| InvoiceController.WithoutItemSpec | backend/src/controllers/invoice.controller.js:588-590 | exactly the items with that key go, an unknown key changes nothing, and the recalculated invoice stays valid |
| InvoiceController.DeleteInvoiceItem | backend/src/controllers/invoice.controller.js:570-603 | 404 unknown, 403 read-only, otherwise the filter, recalculation and save |
| QuoteController.ApplyQuoteFields | backend/src/controllers/quote.controller.js:201-209 | no sent field means no change; items are never written here; a sent URL key or invoice reference is written, an unsent one kept |
| QuoteController.NewQuoteDates | backend/src/controllers/quote.controller.js:95-98 | created as sent or now, expiring as sent or the configured days later, numbered as given, the URL key as sent or else the fresh one, and not converted unless an invoice reference was sent |
| QuoteController.NewQuoteItems | backend/src/controllers/quote.controller.js:115-144 | the new quote's items are the request's items, processed and priced |
| QuoteController.BuildQuote | backend/src/controllers/quote.controller.js:129-144 | construction and totals give the specified new quote |
| QuoteController.StoreNewQuote | backend/src/controllers/quote.controller.js:109-145 | number when due, fresh keys, validation, save; the counter advances even if validation fails |
| QuoteController.CreateQuote | backend/src/controllers/quote.controller.js:87-163 | 400 for an unknown series before anything is written, otherwise the store step |
| QuoteController.UpdatedQuoteKeepsUnsentFields | backend/src/controllers/quote.controller.js:183-211 | an empty update only recalculates; an unsent status, number or expiry keeps its value, and an unsent URL key or conversion reference keeps its value |
| QuoteController.UpdateQuote | backend/src/controllers/quote.controller.js:164-229 | 404 unknown, 403 converted, otherwise the update is validated and saved |
| QuoteController.DeleteQuote | backend/src/controllers/quote.controller.js:230-261 | 404 unknown, 400 converted, otherwise only that quote is removed |
| QuoteController.ChosenSeriesSpec | backend/src/controllers/quote.controller.js:280-314 | the fallback fails only with no active series and no existing requested one; a fallback series is always active, a requested one is used as is |
| QuoteController.ChooseInvoiceSeries | backend/src/controllers/quote.controller.js:280-308 | the four lookups in order pick a series the fallback chain allows |
| QuoteController.ConversionSpec | backend/src/controllers/quote.controller.js:316-358 | the invoice is a valid draft carrying the quote total, owing all of it and pointing back at the quote; the quote becomes approved, converted and never expires |
| QuoteController.StoreConversion | backend/src/controllers/quote.controller.js:316-358 | number and increment, fresh keys, invoice saved, quote updated to point at it |
| QuoteController.ConvertToInvoice | backend/src/controllers/quote.controller.js:262-377 | 404 unknown, 400 already converted, 400 with no series, each with nothing written; otherwise the conversion |
| QuoteController.MarkQuoteAsSent | backend/src/controllers/quote.controller.js:378-410 | numbered only when unnumbered (a missing series is an error), then sent whatever the status, even when converted |
| QuoteController.CopiedQuoteSpec | backend/src/controllers/quote.controller.js:435-459 | a copy is a valid unconverted draft with the same amounts and items apart from their keys |
| QuoteController.StoreQuoteCopy | backend/src/controllers/quote.controller.js:425-459 | number when drafts are numbered, fresh keys, copy saved |
| QuoteController.CopyQuote | backend/src/controllers/quote.controller.js:411-473 | 404 unknown; a missing series when numbering is an error with nothing written; otherwise the copy |
| GuestRoutes.PasswordAccepted | backend/src/routes/guest.routes.js:29-38 | a document without a password is open; otherwise the given password must equal it |
| GuestRoutes.ViewTransitions | backend/src/routes/guest.routes.js:40-44 | viewing only moves sent to viewed: visible stays visible, a second view changes nothing, and only the status changes |
| GuestRoutes.ViewInvoice | backend/src/routes/guest.routes.js:10-53 | 404 with no visible invoice for the key, 401 on a wrong password (nothing written), otherwise the invoice is viewed |
| GuestRoutes.ViewQuote | backend/src/routes/guest.routes.js:58-100 | the same for quotes over their visible statuses |
| GuestRoutes.AnswerIsFinal | backend/src/routes/guest.routes.js:105-160 | an answered quote stays visible but can no longer be answered, stays valid, and an approved one never expires |
| GuestRoutes.AnswerQuote | backend/src/routes/guest.routes.js:105-160 | only a sent or viewed quote with the key is answered, with no password check; otherwise 404 with nothing written |
| Common.AddDays | backend/src/controllers/invoice.controller.js:111-113 | adding a non-negative number of days never moves a time earlier |
| Common.DaysInMonth | backend/src/controllers/dashboard.controller.js:17-38 | every month of the calendar has between 28 and 31 days |
| ClientModel.FullName | backend/src/models/Client.js:101-103 | name and surname joined by a space, or the name alone without a surname |
| ClientModel.DisplayNameCases | backend/src/models/Client.js:106-111 | full name with the company in parentheses, the company alone, or the full name alone; empty exactly when all parts are |
| ClientModel.ValidClientNames | backend/src/models/Client.js:15-29 | a valid client has a non-empty full name, and its display name begins with it |
| ClientController.ActiveFilter | backend/src/controllers/client.controller.js:20-23 | no filter without the parameter, otherwise active exactly when it is 'true' |
| ClientController.ActiveClients | backend/src/controllers/client.controller.js:20-23 | exactly the clients passing the filter; all of them without it |
| ClientController.ListClientsSpec | backend/src/controllers/client.controller.js:35-48 | at most `limit` filtered clients, all counted without a filter, and a page count covering the total |
| ClientController.GetClient | backend/src/controllers/client.controller.js:59-81 | the stored client, or 404 |
| ClientController.CreateClient | backend/src/controllers/client.controller.js:82-98 | validation first; a valid client is stored under a fresh key |
| ClientController.CountsSpec | backend/src/controllers/client.controller.js:141-145 | a count is positive exactly when some document refers to the client |
| ClientController.DeleteClient | backend/src/controllers/client.controller.js:130-161 | 404 unknown, 400 while referenced (nothing deleted), otherwise only that client is removed |
| ClientController.WithNote | backend/src/controllers/client.controller.js:239-242 | the note is appended at the end and nothing else changes |
| ClientController.WithNoteValid | backend/src/models/Client.js:5 | adding a note keeps the client valid exactly when its content is not empty |
| ClientController.AddClientNote | backend/src/controllers/client.controller.js:226-253 | 404 unknown, a validation error for missing content, otherwise exactly one note appended |
| ClientController.WithoutNoteSpec | backend/src/controllers/client.controller.js:269-271 | exactly the notes with that key go, order is kept, an unknown key changes nothing, and deleting twice is deleting once |
| ClientController.WithoutNoteValid | backend/src/controllers/client.controller.js:269-273 | deleting notes keeps a valid client valid |
| ClientController.DeleteClientNote | backend/src/controllers/client.controller.js:258-282 | 404 unknown, otherwise the notes with that key are dropped |
| Paging.Pages | backend/src/controllers/client.controller.js:48 | `Math.ceil(total / limit)`: the least page count holding every record, zero exactly for no records |
| Paging.Page | backend/src/controllers/client.controller.js:38-39 | at most `limit` records starting after the skipped ones, empty past the end |
| Paging.FirstPagesArePrefix | backend/src/controllers/client.controller.js:38-39 | pages 1 to n are the first n times limit records |
| Paging.PagesCoverAll | backend/src/controllers/client.controller.js:38-48 | reading all pages lists every record once, in order |
| Paging.PagesBeyondAreEmpty | backend/src/controllers/client.controller.js:38-48 | a page beyond the page count is empty |
| TaxRateModel.Stored | backend/src/models/TaxRate.js:10-14 | the trim setter changes only the name and keeps a valid rate valid |
| TaxRateModel.ClearOtherDefaults | backend/src/models/TaxRate.js:34-42 | for a default save, every other rate of the company loses its default flag; nothing else changes |
| TaxRateModel.SaveKeepsOneDefault | backend/src/models/TaxRate.js:34-42 | a save keeps at most one default rate per company |
| TaxRateModel.SaveDefaultIsSoleDefault | backend/src/models/TaxRate.js:34-42 | a saved default is stored as default and is its company's only default |
| TaxRateModel.SaveOnlyClearsDefaults | backend/src/models/TaxRate.js:34-42 | other rates change at most in their default flag, and other companies' rates not at all |
| TaxRateModel.SaveNonDefaultChangesNothingElse | backend/src/models/TaxRate.js:34-42 | saving a non-default changes no other rate |
| TaxRateModel.TaxRateStore.Save | backend/src/models/TaxRate.js:3-42 | an invalid rate (blank name, percent outside 0..100) is refused unwritten; a valid one is saved through the hook |
| TaxRateModel.TaxRateStore.ClearDefaults | backend/src/models/TaxRate.js:36-39 | the record-by-record `updateMany` ends in the specified table |
| PaymentMethodModel.Stored | backend/src/models/PaymentMethod.js:10-14 | the trim setter changes only the name and keeps a valid method valid |
| PaymentMethodModel.ClearOtherDefaults | backend/src/models/PaymentMethod.js:28-36 | for a default save, every other method of the company loses its default flag; nothing else changes |
| PaymentMethodModel.SaveKeepsOneDefault | backend/src/models/PaymentMethod.js:28-36 | a save keeps at most one default method per company |
| PaymentMethodModel.SaveDefaultIsSoleDefault | backend/src/models/PaymentMethod.js:28-36 | a saved default is stored as default and is its company's only default |
| PaymentMethodModel.SaveOnlyClearsDefaults | backend/src/models/PaymentMethod.js:28-36 | other methods change at most in their default flag, and other companies' methods not at all |
| PaymentMethodModel.SaveNonDefaultChangesNothingElse | backend/src/models/PaymentMethod.js:28-36 | saving a non-default changes no other method |
| PaymentMethodModel.PaymentMethodStore.Save | backend/src/models/PaymentMethod.js:3-36 | a blank name is refused unwritten; a valid method is saved through the hook |
| PaymentMethodModel.PaymentMethodStore.ClearDefaults | backend/src/models/PaymentMethod.js:30-33 | the record-by-record `updateMany` ends in the specified table |
| SettingModel.IndexOfKey | backend/src/models/Setting.js:24-26 | the first record holding the key, or none exactly when no record has it |
| SettingModel.Lookup | backend/src/models/Setting.js:24-26 | none exactly when the key is absent; with unique keys, the value of the record holding it |
| SettingModel.UpsertedSpec | backend/src/models/Setting.js:30-36 | the key holds the new value and category, an existing key is overwritten not repeated, other keys keep their records, keys stay unique |
| SettingModel.AsObjectSpec | backend/src/models/Setting.js:39-46 | the object's keys are exactly the stored keys, each with its own record's value |
| SettingModel.AsObjectLookup | backend/src/models/Setting.js:24-46 | with unique keys, the object agrees with a lookup of every key |
| SettingModel.InCategory | backend/src/models/Setting.js:49-50 | exactly the records of that category, and unique keys stay unique |
| SettingModel.SettingStore.GetValue | backend/src/models/Setting.js:24-27 | the stored value, or the default (null when none is given) for a missing key |
| SettingModel.SettingStore.SetValue | backend/src/models/Setting.js:30-36 | the upsert: the key now reads the new value and every other key reads as before |
| SettingModel.SettingStore.GetAllAsObject | backend/src/models/Setting.js:39-46 | the forEach loop builds exactly the object of all records |
| SettingModel.SettingStore.GetByCategory | backend/src/models/Setting.js:49-56 | the loop builds exactly the object of that category's records |
| SettingModel.ByCategorySpec | backend/src/models/Setting.js:49-56 | the category object holds exactly that category's keys, each with its value |
| ProductModel.Errors | backend/src/models/Product.js:24-39 | no message exactly when the name is not blank, a selling price of at least 0.01 is given and the purchase price is neither negative nor rejected by the custom validator; each message is reported exactly when its validator is the first on its path to fail, so at most three, and a negative purchase price never also gets the custom validator's message; a blank name comes first |
| ProductModel.ValidSpec | backend/src/models/Product.js:24-39 | valid exactly when named, priced at least 0.01 and bought for between 0 and the selling price; the margin is then non-negative |
| ProductModel.PurchasePriceRule | backend/src/models/Product.js:33-39 | a purchase price of 0 always passes; any other needs a selling price at least as high; without a selling price a positive one is reported as exceeding it, and a negative one only as negative |
| CompanyModel.Dashed | backend/src/models/Company.js:93 | every run of other characters becomes one dash: only slug characters and dashes, never two dashes together |
| CompanyModel.TrimDashes | backend/src/models/Company.js:94 | at most one character is dropped at each end; on a collapsed text the result neither starts nor ends with a dash |
| CompanyModel.DashedKeepsSlugChars | backend/src/models/Company.js:93 | collapsing runs keeps every letter and digit in order and adds none |
| CompanyModel.TrimDashesKeepsSlugChars | backend/src/models/Company.js:94 | dropping the end dashes keeps the letters and digits |
| CompanyModel.SlugSpec | backend/src/models/Company.js:89-97 | a slug uses only a-z, 0-9 and '-', has no dash at either end and none doubled, and keeps the lower-cased name's letters and digits in order |
| CompanyModel.PunctuationOnlySlug | backend/src/models/Company.js:89-97 | a name without letters or digits gets the empty slug |
| CompanyModel.SlugOnSave | backend/src/models/Company.js:89-97 | only a name change on a company without a slug derives one; an existing slug is never overwritten |
| CompanyModel.SlugOnSaveStable | backend/src/models/Company.js:89-97 | once a slug exists, saving again changes nothing |
| CompanyMiddleware.Request.AttachCompany | backend/src/middleware/company.js:4-41 | no user company passes untouched; a missing company is 404; an inactive company or subscription is 403; otherwise the company is attached |
| CompanyMiddleware.CompanyFilter | backend/src/middleware/company.js:44-49 | the company scope under `belongsTo`, with the extra conditions spread over it so that an extra `belongsTo` wins |
| CompanyMiddleware.LimitOf | backend/src/middleware/company.js:66-84 | only clients, invoices and users are limited |
| CompanyMiddleware.CheckLimitsSpec | backend/src/middleware/company.js:52-99 | refused exactly when a company is attached, the type is limited and a positive limit is reached; a limit of 0 never refuses |
| CompanyMiddleware.FreePlanLimits | backend/src/models/Company.js:68-75 | on the free plan the 51st client, the 101st invoice and the second user are refused |
| TaskModel.IsOverdueSpec | backend/src/models/Task.js:42-46 | finished, invoiced, cancelled or undated tasks are never overdue; others are overdue exactly once past the finish date, and stay so |
| TaskModel.StatusLabel | backend/src/models/Task.js:49-55 | a label exactly for the five status codes |
| TaskModel.StatusLabelsSpec | backend/src/models/Task.js:26-55 | every valid task has a label, and the five labels are distinct |
| Dashboard.PreviousMonthIndex | backend/src/controllers/dashboard.controller.js:23-24 | the month after the one at index m-1 is the month at index m, so index -1 is December of the previous year |
| Dashboard.MakeDate | backend/src/controllers/dashboard.controller.js:17-38 | `new Date(y, m, d)` gives a real date; day 0 is the last day of the month before |
| Dashboard.ThisMonthRange | backend/src/controllers/dashboard.controller.js:18-21 | this month (and any unknown period) runs from the 1st to the month's last day |
| Dashboard.LastMonthRange | backend/src/controllers/dashboard.controller.js:22-25 | last month is the whole previous month, December of last year in January |
| Dashboard.QuarterRange | backend/src/controllers/dashboard.controller.js:26-30 | the quarter runs from the 1st of its first month to the end of its third and contains the current month |
| Dashboard.YearRange | backend/src/controllers/dashboard.controller.js:31-34 | the year runs from January 1 to December 31 |
| Dashboard.PeriodRangeOrdered | backend/src/controllers/dashboard.controller.js:17-38 | every period starts on the 1st and ends no earlier than it starts |
| Dashboard.LastDayLeftOut | backend/src/controllers/dashboard.controller.js:41-46 | as written, a document created at 10:00 on the period's last day is excluded |
| Dashboard.InRangeCoversLastDay | backend/src/controllers/dashboard.controller.js:41-46 | the corrected range admits exactly the instants whose day lies between the first and last day: all the as-written range admits plus the whole last day, of which the as-written range admits only midnight |
| Dashboard.FindStat | backend/src/controllers/dashboard.controller.js:134 | the first group with that status, or none exactly when there is none |
| Dashboard.FormatStats | backend/src/controllers/dashboard.controller.js:128-142 | one row per mapped status, in map order, with its group's figures or zeros |
| Dashboard.FormatStatsSpec | backend/src/controllers/dashboard.controller.js:128-142 | invoice stats list the four invoice statuses once each, quote stats every quote status but cancelled, and a missing group reports zero |
| Dashboard.FindMonth | backend/src/controllers/dashboard.controller.js:214 | the first group of that month (invoice or payment groups alike), or none exactly when there is none |
| Dashboard.InvoiceSeries | backend/src/controllers/dashboard.controller.js:212-221 | exactly 12 rows for months 1 to 12, each with its group's sums or zeros |
| Dashboard.PaymentSeries | backend/src/controllers/dashboard.controller.js:223-230 | the same for payments |
| Dashboard.SeriesSpec | backend/src/controllers/dashboard.controller.js:212-230 | the series ascend strictly by month, every month's (unique) group shows in its row, and a month without data shows zeros |
| EmailService.OrElse | backend/src/services/email.service.js:70 | JavaScript `a \|\| b` on text: `b` exactly when `a` is empty |
| EmailService.TextSetting | backend/src/services/email.service.js:70 | a missing or falsy value (null, false, 0, '') gives the fallback; otherwise the value as interpolated: a text as stored, `true` as 'true', a number in its JavaScript rendering |
| EmailService.Substitute | backend/src/services/email.service.js:99-102 | the forEach loop rewrites subject and body key by key, as the specification function says |
| EmailService.SubstitutedNoPlaceholders | backend/src/services/email.service.js:99-102 | text holding no placeholder is left unchanged |
| EmailService.ReplaceAllEveryOccurrence | backend/src/services/email.service.js:100-101 | the replacement is global: every occurrence of the key becomes the value |
| EmailService.FormatDateSpec | backend/src/services/email.service.js:293-297 | DD-MM-YYYY: ten characters, dashes at 2 and 5, and day, month and year reading back from their places |
| EmailService.StripTags | backend/src/services/email.service.js:116 | the plain text is no longer than the body, adds no character and holds no tag |
| EmailService.StripTagsPlain | backend/src/services/email.service.js:116 | text without '<' is unchanged |
| EmailService.StripLeadingTag | backend/src/services/email.service.js:116 | a leading tag is removed whole |
| EmailService.InvoiceReplacements | backend/src/services/email.service.js:73-86 | twelve placeholders, the number rendered 'DRAFT' when missing |
| EmailService.QuoteReplacements | backend/src/services/email.service.js:132-144 | eleven placeholders, the number rendered 'DRAFT' when missing |
| EmailService.Attachments | backend/src/services/email.service.js:104-110 | at most one attachment; the PDF is attached exactly when attachPDF (default true) holds and a non-empty path is given, under the document's file name |
| EmailService.Compose | backend/src/services/email.service.js:88-118 | a template replaces the default subject and body, then every placeholder is substituted, and the text part is the tag-free body |
| EmailService.SendInvoiceEmail | backend/src/services/email.service.js:61-119 | no client e-mail gives 'Client email not found' before anything else; otherwise the composed invoice e-mail |
| EmailService.SendQuoteEmail | backend/src/services/email.service.js:121-175 | the same for quotes |
| FrontendUtils.PlaceSymbol | frontend/src/lib/utils.ts:19 | the symbol before the amount for 'before' (the default), after it otherwise |
| FrontendUtils.DefaultFormatMatchesEmail | frontend/src/lib/utils.ts:22-32 | with the default format the front end prints dates as the e-mails do |
| FrontendUtils.FormatWithoutTokens | frontend/src/lib/utils.ts:28-31 | a format without DD, MM or YYYY comes back unchanged |
| FrontendUtils.StatusColorSpec | frontend/src/lib/utils.ts:34-46 | every invoice and quote status has an entry; sent is blue, viewed yellow, paid and approved share green, rejected and overdue share red, and draft, cancelled and any other status are gray (names of `Object.prototype` properties aside, see Left out) |
| FrontendUtils.Capitalize | frontend/src/lib/utils.ts:48-50 | same length, first character upper-cased, rest unchanged; '' stays '' |
| FrontendUtils.CapitalizeIdempotent | frontend/src/lib/utils.ts:48-50 | capitalising twice is capitalising once |
| FrontendUtils.TruncateSpec | frontend/src/lib/utils.ts:52-55 | a short text is unchanged; a longer one keeps its first n characters plus '...', length n+3 (lengths in Unicode scalar values, see Left out) |

## Left out

- Required references (`belongsTo`, `client`, `user`, `invoiceGroup`, a task's `project`) are
  not checked. The validity predicates cover the item, status, sign and bound validators only.
  As written, the copy, credit, convert and payment handlers never set `belongsTo`.
- Mongoose's `trim` setter on item and document names is not applied when items are built. The
  validators check the trimmed name, so validity agrees.
- ItemRequests.ProcessItemsSpec: an `_id` sent with an item is not kept; every processed item
  takes a fresh key.
- The chart year filter `$lte: new Date('<year>-12-31')`
  (backend/src/controllers/dashboard.controller.js:176, 197) has the same last-day cut-off as
  the period filter in Findings. The chart groups are inputs here, so it is not modelled.
- Fields spread from request bodies beyond the modelled ones (custom fields, addresses, terms
  the handlers do not touch) are not represented.
- List sort orders and the regex `search` filter are not modelled. Listings keep the stored
  order.
- Paging: a limit of 0 (which makes `Math.ceil(total / 0)` infinite) is excluded by `limit >= 1`.
- Date arithmetic ignores daylight-saving shifts. The server clock is taken as UTC, and
  `MakeDate` accepts days from 0 to the month's length only.
- Floating-point rounding of JavaScript numbers: money is exact `real`.
- `toLocaleString`/`Intl.NumberFormat` (`formatNumber`, the digits in `formatCurrency`): the
  formatted amount is an input.
- Case mapping covers ASCII letters only.
- FrontendUtils.StatusColorSpec: the lookup `colors[status]` also finds properties the object
  literal inherits (`constructor`, `toString`, `__proto__` and the other `Object.prototype`
  names), which are not gray; the model treats every status outside the map as gray. The
  status enums never produce those names.
- FrontendUtils.TruncateSpec: lengths and `slice` count Unicode scalar values, not UTF-16 code
  units, so text outside the Basic Multilingual Plane is cut at a different place and never
  split into a lone surrogate.
- The JavaScript number-to-string conversion used when a numeric setting is interpolated is a
  parameter.
- The `$` patterns of `String.replace` and regex metacharacters in placeholder keys are not
  interpreted.
- Concurrency: races on `incrementNextId` and on ledger recomputation. Each handler is one
  atomic step.
- Mongo aggregation pipelines and `populate`: the dashboard's grouped figures are inputs.
- Authentication, PDF rendering, mail transport and HTTP wiring are foreign calls.
- The default e-mail templates and the product name are parameters.
- Setting values are a small sum type; arbitrary JSON values are not modelled.
- Setting keys are not trimmed, and `setValue` runs no validators, so a category outside the enum
  is stored as given.
- Guest approve and reject do not check the document password, as in the source.
- `getInvoices`, `getQuotes`, `getInvoice`, `getQuote`, `getPayment`, `updateClient`,
  `getClientInvoices`, `getClientQuotes` and `getClientStats` are read-only or pass-through
  handlers outside the modelled core.

## Findings

| source | as written | input that shows it | evidently intended | confidence | as-written member | corrected member |
|---|---|---|---|---|---|---|
| backend/src/controllers/dashboard.controller.js:41-62 | the period filter of both the invoice and the quote statistics is `$gte: startDate, $lte: endDate`, where `endDate` is midnight at the start of the last day | any month; a document created at 10:00 on the month's last day | the whole last day belongs to the period | not executed | Dashboard.LastDayLeftOut | Dashboard.InRangeCoversLastDay |

=== FILE: client.dfy ===
/** The client record: the required name, the title enumeration, the notes list and the
    `fullName` / `displayName` virtuals. */
module ClientModel {
  import opened Common
  import Text

  const Titles: seq<string> := ["", "mr", "mrs", "ms", "dr", "prof"]

  /** A note on a client. */
  datatype Note = Note(id: Id, date: Time, content: string)

  /** A client. `company` is the client's company name (free text); `email` is
      `contact.email`. */
  datatype Client = Client(
    name: string,
    surname: string,
    title: string,
    company: string,
    email: string,
    isActive: bool,
    notes: seq<Note>)

  /** The schema validators: a name that is not blank once trimmed, a title from the
      enumeration, and every note with content. */
  predicate Valid(c: Client) {
    Text.Trim(c.name) != [] && c.title in Titles &&
    forall i :: 0 <= i < |c.notes| ==> c.notes[i].content != ""
  }

  /** The `fullName` virtual. */
  function FullName(c: Client): (r: string)
    ensures c.surname != "" ==> r == c.name + " " + c.surname
    ensures c.surname == "" ==> r == c.name
  {
    if c.surname != "" then c.name + " " + c.surname else c.name
  }

  /** The `displayName` virtual. */
  function DisplayName(c: Client): string {
    if c.company != "" then
      (if FullName(c) != "" then FullName(c) + " (" + c.company + ")" else c.company)
    else FullName(c)
  }

  /** The three shapes of the display name: the full name with the company in
      parentheses, the company alone when there is no full name, the full name alone when
      there is no company. */
  lemma DisplayNameCases(c: Client)
    ensures c.company != "" && FullName(c) != "" ==> DisplayName(c) == FullName(c) + " (" + c.company + ")"
    ensures c.company != "" && FullName(c) == "" ==> DisplayName(c) == c.company
    ensures c.company == "" ==> DisplayName(c) == FullName(c)
    ensures DisplayName(c) == "" <==> c.company == "" && c.name == "" && c.surname == ""
  {
  }

  /** A valid client always has a non-empty full name, and its display name begins with
      it. */
  lemma ValidClientNames(c: Client)
    requires Valid(c)
    ensures FullName(c) != [] && FullName(c) <= DisplayName(c)
  {
    Text.TrimSpec(c.name);
    var f := FullName(c);
    assert f != [] by {
      assert c.name <= f;
    }
    if c.company != "" {
      var d := DisplayName(c);
      assert d == f + " (" + c.company + ")";
      assert d[..|f|] == f;
    }
  }
}

=== FILE: client_controller.dfy ===
/** The client request handlers: the list filter and pagination, get, create, delete
    (refused while documents refer to the client) and the two note operations. */
module ClientController {
  import opened Common
  import opened ClientModel
  import InvoiceModel
  import QuoteModel
  import opened Database
  import Paging

  /** The `isActive` filter of `getClients`: none when the parameter is absent,
      otherwise active exactly when the parameter is the text 'true'. */
  function ActiveFilter(active: Option<string>): (r: Option<bool>)
    ensures active.None? <==> r.None?
    ensures r == Some(true) <==> active == Some("true")
    ensures active.Some? && active.value != "true" ==> r == Some(false)
  {
    if active.Some? then Some(active.value == "true") else None
  }

  /** The response of `getClients`: the requested page of the matching clients, their
      count and the page count. The clients are taken in the order given. */
  datatype ClientListing = ClientListing(data: seq<Client>, total: nat, pages: nat)

  /** The clients passing the active filter, in the order given. */
  function ActiveClients(cs: seq<Client>, active: Option<string>): (r: seq<Client>)
    ensures forall c :: c in r <==> c in cs && (active.Some? ==> c.isActive == (active.value == "true"))
    ensures active.None? ==> r == cs
  {
    var f := ActiveFilter(active);
    FilterKeepsAll(cs, (c: Client) => f.None? || c.isActive == f.value);
    Filter(cs, (c: Client) => f.None? || c.isActive == f.value)
  }

  function ListClients(cs: seq<Client>, active: Option<string>, page: nat, limit: nat): ClientListing
    requires page >= 1 && limit >= 1
  {
    var all := ActiveClients(cs, active);
    ClientListing(Paging.Page(all, page, limit), |all|, Paging.Pages(|all|, limit))
  }

  /** The listing holds at most `limit` clients, all stored and all passing the active
      filter; without the filter every client is counted; the page count covers the
      total. */
  lemma ListClientsSpec(cs: seq<Client>, active: Option<string>, page: nat, limit: nat)
    requires page >= 1 && limit >= 1
    ensures var r := ListClients(cs, active, page, limit);
      |r.data| <= limit &&
      (active.None? ==> r.total == |cs|) &&
      (forall c :: c in r.data ==> c in cs && (active.Some? ==> c.isActive == (active.value == "true"))) &&
      r.pages * limit >= r.total && (r.pages >= 1 ==> (r.pages - 1) * limit < r.total)
  {
    var all := ActiveClients(cs, active);
    var data := Paging.Page(all, page, limit);
    assert forall c :: c in data ==> c in all;
  }

  /** `getClient`: the stored client, or 404. */
  function GetClient(clients: map<Id, Client>, id: Id): (r: Outcome<Client>)
    ensures id !in clients ==> r == Fail(NotFound)
    ensures id in clients ==> r == Ok(clients[id])
  {
    if id in clients then Ok(clients[id]) else Fail(NotFound)
  }

  /** `createClient`: the validators run first; a valid client is stored under a fresh
      key. */
  method CreateClient(db: Db, c: Client) returns (o: Outcome<Id>)
    requires db.Valid()
    modifies db`clients, db`nextKey
    ensures db.Valid()
    ensures !Valid(c) ==> o == Fail(ValidationError) && unchanged(db)
    ensures Valid(c) ==>
      o == Ok(old(db.nextKey)) && db.nextKey == old(db.nextKey) + 1 &&
      db.clients == old(db.clients)[old(db.nextKey) := c]
  {
    if !Valid(c) {
      return Fail(ValidationError);
    }
    var id := db.NewKeys(1);
    db.clients := db.clients[id := c];
    o := Ok(id);
  }

  /** `Invoice.countDocuments({ client })`. */
  function InvoiceCount(invoices: map<Id, InvoiceModel.Invoice>, client: Id): nat {
    |set k | k in invoices && invoices[k].client == client|
  }

  /** `Quote.countDocuments({ client })`. */
  function QuoteCount(quotes: map<Id, QuoteModel.Quote>, client: Id): nat {
    |set k | k in quotes && quotes[k].client == client|
  }

  /** Whether some invoice or quote still refers to the client. */
  predicate Referenced(invoices: map<Id, InvoiceModel.Invoice>, quotes: map<Id, QuoteModel.Quote>, client: Id) {
    (exists k :: k in invoices && invoices[k].client == client) ||
    (exists k :: k in quotes && quotes[k].client == client)
  }

  /** A count is positive exactly when some document refers to the client, so the
      guard of `deleteClient` is "still referenced". */
  lemma CountsSpec(invoices: map<Id, InvoiceModel.Invoice>, quotes: map<Id, QuoteModel.Quote>, client: Id)
    ensures InvoiceCount(invoices, client) > 0 <==> exists k :: k in invoices && invoices[k].client == client
    ensures QuoteCount(quotes, client) > 0 <==> exists k :: k in quotes && quotes[k].client == client
    ensures Referenced(invoices, quotes, client) <==> InvoiceCount(invoices, client) > 0 || QuoteCount(quotes, client) > 0
  {
    var si := set k | k in invoices && invoices[k].client == client;
    if exists k :: k in invoices && invoices[k].client == client {
      var k :| k in invoices && invoices[k].client == client;
      assert k in si;
    }
    if |si| > 0 {
      var k :| k in si;
    }
    var sq := set k | k in quotes && quotes[k].client == client;
    if exists k :: k in quotes && quotes[k].client == client {
      var k :| k in quotes && quotes[k].client == client;
      assert k in sq;
    }
    if |sq| > 0 {
      var k :| k in sq;
    }
  }

  /** `deleteClient`: 404 for an unknown client, 400 (nothing deleted) while an invoice
      or a quote refers to it; otherwise the client alone is removed. */
  method DeleteClient(db: Db, id: Id) returns (o: Outcome<Id>)
    requires db.Valid()
    modifies db`clients
    ensures db.Valid()
    ensures id !in old(db.clients) ==> o == Fail(NotFound) && unchanged(db)
    ensures id in old(db.clients) && Referenced(db.invoices, db.quotes, id) ==> o == Fail(BadRequest) && unchanged(db)
    ensures id in old(db.clients) && !Referenced(db.invoices, db.quotes, id) ==>
      o == Ok(id) && db.clients == old(db.clients) - {id}
  {
    if id !in db.clients {
      return Fail(NotFound);
    }
    var invoiceCount := InvoiceCount(db.invoices, id);
    var quoteCount := QuoteCount(db.quotes, id);
    CountsSpec(db.invoices, db.quotes, id);
    assert Referenced(db.invoices, db.quotes, id) <==> invoiceCount > 0 || quoteCount > 0;
    if invoiceCount > 0 || quoteCount > 0 {
      return Fail(BadRequest);
    }
    db.RemoveClient(id);
    o := Ok(id);
  }

  /** The client after `notes.push({ date: now, content })` with the new note's key. */
  function WithNote(c: Client, noteId: Id, now: Time, content: string): (r: Client)
    ensures r.notes == c.notes + [Note(noteId, now, content)]
    ensures r.(notes := c.notes) == c
  {
    c.(notes := c.notes + [Note(noteId, now, content)])
  }

  /** Adding a note keeps a valid client valid exactly when the content is not empty. */
  lemma WithNoteValid(c: Client, noteId: Id, now: Time, content: string)
    requires Valid(c)
    ensures Valid(WithNote(c, noteId, now, content)) <==> content != ""
  {
    var r := WithNote(c, noteId, now, content);
    if Valid(r) {
      assert r.notes[|c.notes|].content == content;
    }
  }

  /** `addClientNote`: 404 for an unknown client; a missing or empty content fails the
      note's `required` validator and nothing is written; otherwise exactly one note is
      appended at the end. */
  method AddClientNote(db: Db, id: Id, content: Option<string>, now: Time) returns (o: Outcome<Id>)
    requires db.Valid()
    modifies db`clients, db`nextKey
    ensures db.Valid()
    ensures id !in old(db.clients) ==> o == Fail(NotFound) && unchanged(db)
    ensures id in old(db.clients) && content.GetOr("") == "" ==> o == Fail(ValidationError) && unchanged(db)
    ensures id in old(db.clients) && content.GetOr("") != "" ==>
      o == Ok(id) && db.nextKey == old(db.nextKey) + 1 &&
      db.clients == old(db.clients)[id := WithNote(old(db.clients)[id], old(db.nextKey), now, content.value)]
  {
    if id !in db.clients {
      return Fail(NotFound);
    }
    var text := content.GetOr("");
    WithNoteValid(db.clients[id], db.nextKey, now, text);
    if text == "" {
      return Fail(ValidationError);
    }
    var noteId := db.NewKeys(1);
    db.PutClient(id, WithNote(db.clients[id], noteId, now, text));
    o := Ok(id);
  }

  /** The notes `deleteClientNote` keeps. */
  function WithoutNote(notes: seq<Note>, noteId: Id): seq<Note> {
    Filter(notes, (n: Note) => n.id != noteId)
  }

  /** Deleting a note removes every note with that key and keeps every other note, in
      order; deleting an unknown key changes nothing, and deleting twice is deleting
      once. */
  lemma WithoutNoteSpec(notes: seq<Note>, noteId: Id, other: seq<Note>)
    ensures forall n :: n in WithoutNote(notes, noteId) <==> n in notes && n.id != noteId
    ensures (forall i :: 0 <= i < |notes| ==> notes[i].id != noteId) ==> WithoutNote(notes, noteId) == notes
    ensures WithoutNote(WithoutNote(notes, noteId), noteId) == WithoutNote(notes, noteId)
    ensures WithoutNote(notes + other, noteId) == WithoutNote(notes, noteId) + WithoutNote(other, noteId)
  {
    FilterKeepsAll(notes, (n: Note) => n.id != noteId);
    var r := WithoutNote(notes, noteId);
    FilterKeepsAll(r, (n: Note) => n.id != noteId);
    assert forall i :: 0 <= i < |r| ==> r[i] in r;
    FilterAppend(notes, other, (n: Note) => n.id != noteId);
  }

  /** Deleting notes keeps a valid client valid. */
  lemma WithoutNoteValid(c: Client, noteId: Id)
    requires Valid(c)
    ensures Valid(c.(notes := WithoutNote(c.notes, noteId)))
  {
    var kept := WithoutNote(c.notes, noteId);
    forall i | 0 <= i < |kept|
      ensures kept[i].content != ""
    {
      assert kept[i] in kept;
      var j :| 0 <= j < |c.notes| && c.notes[j] == kept[i];
    }
  }

  /** `deleteClientNote`: 404 for an unknown client; otherwise the notes with that key
      are dropped, whether or not there were any. */
  method DeleteClientNote(db: Db, id: Id, noteId: Id) returns (o: Outcome<Id>)
    requires db.Valid()
    modifies db`clients
    ensures db.Valid()
    ensures id !in old(db.clients) ==> o == Fail(NotFound) && unchanged(db)
    ensures id in old(db.clients) ==>
      o == Ok(id) &&
      db.clients == old(db.clients)[id := old(db.clients)[id].(notes := WithoutNote(old(db.clients)[id].notes, noteId))]
  {
    if id !in db.clients {
      return Fail(NotFound);
    }
    var c := db.clients[id];
    var kept := WithoutNote(c.notes, noteId);
    WithoutNoteValid(c, noteId);
    db.PutClient(id, c.(notes := kept));
    o := Ok(id);
  }
}

=== FILE: common.dfy ===
/** Vocabulary shared by every part of the billing model: identifiers, instants,
    optional values and the way a request handler ends. */
module Common {

  /** A record identifier (a MongoDB ObjectId in the application). The model
      allocates them from one counter, so a fresh one never collides. */
  type Id = nat

  /** An instant, in milliseconds since the epoch (a JavaScript `Date`). */
  type Time = int

  /** Milliseconds in a day: the unit of `setDate(getDate() + n)` and of `daysOverdue`. */
  const MsPerDay: int := 86400000

  /** A value that may be absent (`undefined`/`null` in the application). */
  datatype Option<T> = None | Some(value: T) {
    /** The value, or `default` when absent (JavaScript's `x ?? default`). */
    function GetOr(default: T): T {
      if Some? then value else default
    }
  }

  /** Why a handler did not succeed. The first four are the HTTP statuses the handlers
      send themselves (400, 401, 403, 404); `ValidationError` is a schema validator
      rejecting a save and `ServerError` an exception thrown inside the handler, both of
      which the handlers pass on to the application's error middleware. */
  datatype Failure = BadRequest | Unauthorized | Forbidden | NotFound | ValidationError | ServerError

  /** The result of a request handler. */
  datatype Outcome<T> = Ok(value: T) | Fail(failure: Failure)

  /** The number of days as a span of milliseconds (`date.setDate(date.getDate() + days)`,
      ignoring daylight-saving shifts). */
  function AddDays(t: Time, days: int): (r: Time)
    ensures days >= 0 ==> r >= t
  {
    t + days * MsPerDay
  }

  /** A calendar date; `month` runs from 1 to 12. */
  datatype CalDate = CalDate(year: int, month: int, day: int)

  predicate IsLeapYear(y: int) {
    (y % 4 == 0 && y % 100 != 0) || y % 400 == 0
  }

  function DaysInMonth(y: int, m: int): (r: int)
    ensures 28 <= r <= 31
  {
    if m == 2 then (if IsLeapYear(y) then 29 else 28)
    else if m == 4 || m == 6 || m == 9 || m == 11 then 30
    else 31
  }

  predicate ValidDate(d: CalDate) {
    1 <= d.month <= 12 && 1 <= d.day <= DaysInMonth(d.year, d.month)
  }

  /** `array.filter(keep)`: the elements that satisfy `keep`, in their original order. */
  function Filter<T(==,!new)>(s: seq<T>, keep: T -> bool): (r: seq<T>)
    ensures |r| <= |s|
    ensures forall x :: x in r <==> x in s && keep(x)
  {
    if s == [] then []
    else Filter(s[..|s| - 1], keep) + (if keep(s[|s| - 1]) then [s[|s| - 1]] else [])
  }

  /** Filtering distributes over concatenation, so the kept elements stay in order. */
  lemma {:induction false} FilterAppend<T(!new)>(a: seq<T>, b: seq<T>, keep: T -> bool)
    ensures Filter(a + b, keep) == Filter(a, keep) + Filter(b, keep)
    decreases |b|
  {
    if b == [] {
      assert a + b == a;
    } else {
      assert (a + b)[..|a + b| - 1] == a + b[..|b| - 1];
      FilterAppend(a, b[..|b| - 1], keep);
    }
  }

  /** Filtering keeps everything exactly when every element is kept. */
  lemma {:induction false} FilterKeepsAll<T(!new)>(s: seq<T>, keep: T -> bool)
    ensures Filter(s, keep) == s <==> forall i :: 0 <= i < |s| ==> keep(s[i])
    decreases |s|
  {
    if Filter(s, keep) == s {
      forall i | 0 <= i < |s| ensures keep(s[i]) {
        assert s[i] in Filter(s, keep);
      }
    }
    if s != [] {
      var init := s[..|s| - 1];
      FilterKeepsAll(init, keep);
      if forall i :: 0 <= i < |s| ==> keep(s[i]) {
        forall i | 0 <= i < |init| ensures keep(init[i]) {
          assert init[i] == s[i];
        }
        assert init + [s[|s| - 1]] == s;
      }
    }
  }
}

=== FILE: company.dfy ===
/** Companies: the subscription record with its plan limits, the account flags the
    middleware checks, and the URL slug generated from the name when a company is
    saved. */
module CompanyModel {
  import opened Common
  import Text

  const Plans: set<string> := {"free", "starter", "pro", "enterprise"}
  const SubscriptionStatuses: set<string> := {"active", "inactive", "suspended"}

  /** The `subscription` sub-document; a limit of 0 means unlimited. */
  datatype Subscription = Subscription(plan: string, status: string, maxUsers: int, maxClients: int, maxInvoices: int)

  /** The subscription a new company gets: the free plan, active, with one user, 50
      clients and 100 invoices. */
  const DefaultSubscription: Subscription := Subscription("free", "active", 1, 50, 100)

  datatype Company = Company(name: string, slug: string, isActive: bool, subscription: Subscription)

  /** The characters `[a-z0-9]` a slug is made of, besides the dash. */
  predicate IsSlugChar(c: char) {
    'a' <= c <= 'z' || '0' <= c <= '9'
  }

  /** Every character is a slug character or a dash. */
  predicate SlugAlphabet(s: string) {
    forall i :: 0 <= i < |s| ==> IsSlugChar(s[i]) || s[i] == '-'
  }

  /** No two dashes in a row. */
  predicate NoDoubleDash(s: string) {
    forall i :: 0 <= i < |s| - 1 ==> !(s[i] == '-' && s[i + 1] == '-')
  }

  /** `.replace(/[^a-z0-9]+/g, '-')`: each maximal run of other characters (a dash
      included) becomes one dash, read left to right. */
  function Dashed(s: string): (r: string)
    ensures |r| <= |s|
    ensures SlugAlphabet(r)
    ensures NoDoubleDash(r)
    ensures s != [] && !IsSlugChar(s[|s| - 1]) ==> r != [] && r[|r| - 1] == '-'
    ensures s != [] && IsSlugChar(s[|s| - 1]) ==> r != [] && r[|r| - 1] == s[|s| - 1]
  {
    if s == [] then []
    else
      var r := Dashed(s[..|s| - 1]);
      var c := s[|s| - 1];
      if IsSlugChar(c) then r + [c]
      else if r != [] && r[|r| - 1] == '-' then r
      else r + ['-']
  }

  /** `.replace(/(^-|-$)/g, '')`: one leading and one trailing dash are dropped. */
  function TrimDashes(s: string): (r: string)
    ensures |r| <= |s|
    ensures r == s[..|r|] || (|s| >= |r| + 1 && r == s[1..|r| + 1])
    ensures NoDoubleDash(s) && r != [] ==> r[0] != '-' && r[|r| - 1] != '-'
    ensures |s| - |r| <= 2
  {
    var a := if s != [] && s[0] == '-' then s[1..] else s;
    assert NoDoubleDash(s) && a != [] && s != [] && s[0] == '-' ==> a[0] != '-' by {
      if NoDoubleDash(s) && a != [] && s != [] && s[0] == '-' {
        assert s[1] == a[0];
      }
    }
    var r := if a != [] && a[|a| - 1] == '-' then a[..|a| - 1] else a;
    assert NoDoubleDash(s) && r != [] && a != [] && a[|a| - 1] == '-' ==> r[|r| - 1] != '-' by {
      if NoDoubleDash(s) && r != [] && a != [] && a[|a| - 1] == '-' {
        var off := |s| - |a|;
        assert a[|a| - 2] == s[off + |a| - 2] && a[|a| - 1] == s[off + |a| - 1];
      }
    }
    r
  }

  /** The slug the save hook derives from a name. */
  function Slugify(name: string): string {
    TrimDashes(Dashed(Text.ToLower(name)))
  }

  /** The slug characters of a text, in order. */
  function SlugChars(s: string): string {
    Filter(s, IsSlugChar)
  }

  /** The one-character step of `Filter`, on a sequence split at its last element. */
  lemma SlugCharsSnoc(r: string, c: char)
    ensures SlugChars(r + [c]) == SlugChars(r) + (if IsSlugChar(c) then [c] else [])
  {
    assert (r + [c])[..|r|] == r;
  }

  /** Collapsing runs keeps every slug character, in order, and adds none. */
  lemma {:induction false} DashedKeepsSlugChars(s: string)
    ensures SlugChars(Dashed(s)) == SlugChars(s)
    decreases |s|
  {
    if s != [] {
      var init := s[..|s| - 1];
      var c := s[|s| - 1];
      var r := Dashed(init);
      DashedKeepsSlugChars(init);
      assert s == init + [c];
      SlugCharsSnoc(init, c);
      if IsSlugChar(c) {
        SlugCharsSnoc(r, c);
      } else if !(r != [] && r[|r| - 1] == '-') {
        SlugCharsSnoc(r, '-');
      }
    }
  }

  /** A slice of a text with no double dash has none either, and keeps its alphabet. */
  lemma SliceKeepsShape(s: string, a: int, b: int)
    requires 0 <= a <= b <= |s|
    ensures NoDoubleDash(s) ==> NoDoubleDash(s[a..b])
    ensures SlugAlphabet(s) ==> SlugAlphabet(s[a..b])
  {
    if NoDoubleDash(s) {
      forall i | 0 <= i < b - a - 1 ensures !(s[a..b][i] == '-' && s[a..b][i + 1] == '-') {
        assert s[a..b][i] == s[a + i] && s[a..b][i + 1] == s[a + i + 1];
      }
    }
  }

  /** Dropping dashes at the ends keeps the slug characters. */
  lemma TrimDashesKeepsSlugChars(s: string)
    ensures SlugChars(TrimDashes(s)) == SlugChars(s)
  {
    var a := if s != [] && s[0] == '-' then s[1..] else s;
    if s != [] && s[0] == '-' {
      LeadingDashKeepsSlugChars(a);
      assert s == ['-'] + a;
    }
    if a != [] && a[|a| - 1] == '-' {
      var r := a[..|a| - 1];
      assert a == r + ['-'];
      SlugCharsSnoc(r, '-');
    }
  }

  /** A leading dash adds no slug character. */
  lemma LeadingDashKeepsSlugChars(a: string)
    ensures SlugChars(['-'] + a) == SlugChars(a)
  {
    FilterAppend(['-'], a, IsSlugChar);
    SlugCharsSnoc([], '-');
    assert [] + ['-'] == ['-'];
  }

  /** A generated slug uses only a-z, 0-9 and '-', neither starts nor ends with a dash,
      never holds two dashes in a row, and keeps the ASCII letters and digits of the
      lower-cased name in their original order. */
  lemma {:induction false} SlugSpec(name: string)
    ensures var slug := Slugify(name);
      SlugAlphabet(slug) && NoDoubleDash(slug) &&
      (slug != [] ==> slug[0] != '-' && slug[|slug| - 1] != '-') &&
      SlugChars(slug) == SlugChars(Text.ToLower(name))
  {
    var d := Dashed(Text.ToLower(name));
    var slug := TrimDashes(d);
    if slug == d[..|slug|] {
      SliceKeepsShape(d, 0, |slug|);
    } else {
      SliceKeepsShape(d, 1, |slug| + 1);
    }
    DashedKeepsSlugChars(Text.ToLower(name));
    TrimDashesKeepsSlugChars(d);
  }

  /** A name made only of spaces and punctuation gets the empty slug. */
  lemma {:induction false} PunctuationOnlySlug(name: string)
    requires forall i :: 0 <= i < |name| ==> !IsSlugChar(Text.ToLower(name)[i])
    ensures Slugify(name) == ""
  {
    SlugSpec(name);
  }

  /** The pre-save hook: only a save that modified the name of a company without a slug
      derives one; an existing slug is never overwritten, and nothing else changes. */
  function SlugOnSave(c: Company, nameModified: bool): (r: Company)
    ensures r.(slug := c.slug) == c
    ensures c.slug != "" ==> r == c
    ensures !nameModified ==> r == c
    ensures nameModified && c.slug == "" ==> r.slug == Slugify(c.name)
  {
    if nameModified && c.slug == "" then c.(slug := Slugify(c.name)) else c
  }

  /** Saving again changes nothing once a slug exists, unless the name gives none. */
  lemma SlugOnSaveStable(c: Company, nameModified: bool, again: bool)
    ensures SlugOnSave(c, nameModified).slug != "" ==>
      SlugOnSave(SlugOnSave(c, nameModified), again) == SlugOnSave(c, nameModified)
  {
  }
}

=== FILE: company_middleware.dfy ===
/** The company middleware: attaching the user's company to a request after checking
    the account, scoping queries to it, and refusing a create once the plan's limit for
    that kind of resource is reached. */
module CompanyMiddleware {
  import opened Common
  import opened CompanyModel
  import Text

  /** The request fields the middleware fills in. */
  class Request {
    var company: Option<Company>
    var companyId: Option<Id>

    constructor ()
      ensures company.None? && companyId.None?
    {
      company := None;
      companyId := None;
    }

    /** `attachCompany`: with no user or no user company the request passes untouched
        (`Ok(None)`); otherwise a missing company is a 404, an inactive company or a
        subscription whose status is not active a 403 (nothing attached), and an
        admissible company is attached (`Ok(Some(id))`). */
    method AttachCompany(companies: map<Id, Company>, userCompany: Option<Id>) returns (o: Outcome<Option<Id>>)
      modifies this
      ensures userCompany.None? ==> o == Ok(None) && unchanged(this)
      ensures userCompany.Some? && userCompany.value !in companies ==> o == Fail(NotFound) && unchanged(this)
      ensures userCompany.Some? && userCompany.value in companies ==>
        var c := companies[userCompany.value];
        (!c.isActive ==> o == Fail(Forbidden) && unchanged(this)) &&
        (c.isActive && c.subscription.status != "active" ==> o == Fail(Forbidden) && unchanged(this)) &&
        (c.isActive && c.subscription.status == "active" ==>
           o == Ok(userCompany) && company == Some(c) && companyId == userCompany)
      ensures o.Ok? && o.value.Some? ==>
        company.Some? && company.value.isActive && company.value.subscription.status == "active"
    {
      if userCompany.None? {
        return Ok(None);
      }
      var id := userCompany.value;
      if id !in companies {
        return Fail(NotFound);
      }
      var c := companies[id];
      if !c.isActive {
        return Fail(Forbidden);
      }
      if c.subscription.status != "active" {
        return Fail(Forbidden);
      }
      company := Some(c);
      companyId := Some(id);
      o := Ok(Some(id));
    }
  }

  /** `companyFilter(req, extra)`: `belongsTo` set to the request's company, then the
      extra conditions spread over it, so an extra `belongsTo` wins. */
  function CompanyFilter<V>(companyId: V, extra: map<string, V>): (r: map<string, V>)
    ensures r.Keys == extra.Keys + {"belongsTo"}
    ensures r["belongsTo"] == if "belongsTo" in extra then extra["belongsTo"] else companyId
    ensures forall k :: k in extra ==> r[k] == extra[k]
  {
    map["belongsTo" := companyId] + extra
  }

  /** The plan limit that governs a resource type, if the type is one that is limited. */
  function LimitOf(resourceType: string, s: Subscription): (r: Option<int>)
    ensures r.Some? <==> resourceType in {"client", "invoice", "user"}
  {
    if resourceType == "client" then Some(s.maxClients)
    else if resourceType == "invoice" then Some(s.maxInvoices)
    else if resourceType == "user" then Some(s.maxUsers)
    else None
  }

  /** The refusal sent when the limit is reached. */
  function LimitMessage(limit: nat, resourceType: string): string {
    "You have reached the maximum limit of " + Text.Decimal(limit) + " " + resourceType +
    "s for your subscription plan. Please upgrade to add more."
  }

  /** `checkCompanyLimits(resourceType)`: `count` is the number of the company's
      existing resources of that type. The result is the 403 message when the create is
      refused, or none when the request may proceed. */
  function CheckLimits(company: Option<Company>, resourceType: string, count: nat): (r: Option<string>)
  {
    if company.None? then None
    else match LimitOf(resourceType, company.value.subscription)
      case None => None
      case Some(limit) => if limit > 0 && count >= limit then Some(LimitMessage(limit, resourceType)) else None
  }

  /** A create is refused exactly when a company is attached, the type is limited, the
      limit is positive and already reached; a limit of 0 never refuses, and under a
      positive limit exactly `limit` resources can be created. */
  lemma CheckLimitsSpec(company: Option<Company>, resourceType: string, count: nat)
    ensures CheckLimits(company, resourceType, count).Some? <==>
      company.Some? && LimitOf(resourceType, company.value.subscription).Some? &&
      LimitOf(resourceType, company.value.subscription).value > 0 &&
      count >= LimitOf(resourceType, company.value.subscription).value
    ensures company.None? || resourceType !in {"client", "invoice", "user"} ==> CheckLimits(company, resourceType, count).None?
    ensures company.Some? && LimitOf(resourceType, company.value.subscription) == Some(0) ==>
      CheckLimits(company, resourceType, count).None?
    ensures company.Some? && LimitOf(resourceType, company.value.subscription).Some? ==>
      var limit := LimitOf(resourceType, company.value.subscription).value;
      limit > 0 ==> (CheckLimits(company, resourceType, count).None? <==> count < limit)
  {
  }

  /** The default free plan: the 51st client is refused once 50 exist, the 101st
      invoice once 100 exist, and a second user once one exists. */
  lemma FreePlanLimits(c: Company)
    requires c.subscription == DefaultSubscription
    ensures CheckLimits(Some(c), "client", 49).None? && CheckLimits(Some(c), "client", 50).Some?
    ensures CheckLimits(Some(c), "invoice", 99).None? && CheckLimits(Some(c), "invoice", 100).Some?
    ensures CheckLimits(Some(c), "user", 0).None? && CheckLimits(Some(c), "user", 1).Some?
  {
  }
}

=== FILE: config.dfy ===
/** The setting values the document handlers read through `Setting.getValue`, with the
    defaults the handlers pass when a key is absent. */
module AppConfig {
  import opened Common

  datatype Config = Config(
    /** `invoices_due_after`, in days. */
    invoicesDueAfter: int,
    /** `generate_invoice_number_for_draft` (its truthiness). */
    generateInvoiceNumberForDraft: bool,
    /** `default_invoice_tax_rate`: the tax rate pushed onto a new invoice without any. */
    defaultInvoiceTaxRate: Option<Id>,
    /** `enable_invoice_deletion` (its truthiness). */
    enableInvoiceDeletion: bool,
    /** `read_only_toggle`: 2 makes an invoice read-only once sent. */
    readOnlyToggle: int,
    /** `quotes_expire_after`, in days. */
    quotesExpireAfter: int,
    /** `generate_quote_number_for_draft` (its truthiness). */
    generateQuoteNumberForDraft: bool)

  /** The values used when no setting is stored. */
  const Defaults := Config(30, true, None, false, 4, 15, true)
}

=== FILE: dashboard.dfy ===
/** The dashboard's computations around its database queries: the date range of a
    reporting period, the per-status statistics in a fixed order, and the twelve-month
    chart series. */
module Dashboard {
  import opened Common
  import InvoiceModel
  import QuoteModel

  /** The calendar order of dates. */
  predicate NotAfter(a: CalDate, b: CalDate) {
    a.year < b.year || (a.year == b.year && (a.month < b.month || (a.month == b.month && a.day <= b.day)))
  }

  /** The year and month after a given one. */
  function NextMonth(y: int, m: int): (int, int) {
    if m == 12 then (y + 1, 1) else (y, m + 1)
  }

  /** Euclidean division by 12 is determined by its quotient and remainder. */
  lemma DivMod12(n: int, q: int, r: int)
    requires n == 12 * q + r && 0 <= r < 12
    ensures n / 12 == q && n % 12 == r
  {
  }

  /** The month before a month index, carried into the year, is the month whose next
      month is that index's month. */
  lemma PreviousMonthIndex(year: int, monthIndex: int)
    ensures NextMonth(year + (monthIndex - 1) / 12, (monthIndex - 1) % 12 + 1) ==
            (year + monthIndex / 12, monthIndex % 12 + 1)
  {
    var q, r := (monthIndex - 1) / 12, (monthIndex - 1) % 12;
    if r == 11 {
      DivMod12(monthIndex, q + 1, 0);
    } else {
      DivMod12(monthIndex, q, r + 1);
    }
  }

  /** `new Date(year, monthIndex, day)` for a zero-based month index that may fall
      outside 0..11 (it carries into the year) and a day from 0 to the month's length,
      where day 0 is the last day of the month before. */
  function MakeDate(year: int, monthIndex: int, day: int): (r: CalDate)
    requires 0 <= day <= DaysInMonth(year + monthIndex / 12, monthIndex % 12 + 1)
    ensures ValidDate(r)
    ensures day >= 1 ==> r == CalDate(year + monthIndex / 12, monthIndex % 12 + 1, day)
    ensures day == 0 ==>
      r.day == DaysInMonth(r.year, r.month) && NextMonth(r.year, r.month) == (year + monthIndex / 12, monthIndex % 12 + 1)
  {
    if day >= 1 then CalDate(year + monthIndex / 12, monthIndex % 12 + 1, day)
    else
      var y := year + (monthIndex - 1) / 12;
      var m := (monthIndex - 1) % 12 + 1;
      PreviousMonthIndex(year, monthIndex);
      CalDate(y, m, DaysInMonth(y, m))
  }

  /** The first and last day of a reporting period. */
  datatype Range = Range(start: CalDate, end: CalDate)

  /** The `switch (period)` of `getDashboard`, at a moment whose year is `year` and
      whose zero-based month (`getMonth()`) is `monthIndex`. */
  function PeriodRange(period: string, year: int, monthIndex: int): Range
    requires 0 <= monthIndex <= 11
  {
    if period == "last-month" then
      Range(MakeDate(year, monthIndex - 1, 1), MakeDate(year, monthIndex, 0))
    else if period == "this-quarter" then
      var quarter := monthIndex / 3;
      Range(MakeDate(year, quarter * 3, 1), MakeDate(year, (quarter + 1) * 3, 0))
    else if period == "this-year" then
      Range(MakeDate(year, 0, 1), MakeDate(year, 11, 31))
    else
      Range(MakeDate(year, monthIndex, 1), MakeDate(year, monthIndex + 1, 0))
  }

  /** The whole of one month, first to last day. */
  function WholeMonth(y: int, m: int): Range {
    Range(CalDate(y, m, 1), CalDate(y, m, DaysInMonth(y, m)))
  }

  /** This month, and the fallback for an unknown period: the 1st to the month's last
      day. */
  lemma ThisMonthRange(period: string, year: int, monthIndex: int)
    requires 0 <= monthIndex <= 11 && period !in {"last-month", "this-quarter", "this-year"}
    ensures PeriodRange(period, year, monthIndex) == WholeMonth(year, monthIndex + 1)
  {
    assert (monthIndex + 1) / 12 == (if monthIndex == 11 then 1 else 0);
  }

  /** Last month: the whole month before, December of the year before when now is
      January. */
  lemma LastMonthRange(year: int, monthIndex: int)
    requires 0 <= monthIndex <= 11
    ensures monthIndex == 0 ==> PeriodRange("last-month", year, monthIndex) == WholeMonth(year - 1, 12)
    ensures monthIndex > 0 ==> PeriodRange("last-month", year, monthIndex) == WholeMonth(year, monthIndex)
  {
    assert (monthIndex - 1) / 12 == (if monthIndex == 0 then -1 else 0);
    assert (monthIndex - 1) % 12 == (if monthIndex == 0 then 11 else monthIndex - 1);
  }

  /** The quarter: `q = floor(monthIndex / 3)`, from the 1st of its first month to the
      last day of its third, and it contains the current month. */
  lemma QuarterRange(year: int, monthIndex: int)
    requires 0 <= monthIndex <= 11
    ensures var q := monthIndex / 3;
      PeriodRange("this-quarter", year, monthIndex) ==
        Range(CalDate(year, 3 * q + 1, 1), CalDate(year, 3 * q + 3, DaysInMonth(year, 3 * q + 3))) &&
      3 * q + 1 <= monthIndex + 1 <= 3 * q + 3
  {
    var q := monthIndex / 3;
    assert 0 <= q <= 3;
    assert (q + 1) * 3 == 3 * q + 3;
    assert (3 * q) / 12 == 0 && (3 * q) % 12 == 3 * q;
    assert (3 * q + 3) / 12 == (if q == 3 then 1 else 0);
  }

  /** The year: January 1 to December 31. */
  lemma YearRange(year: int, monthIndex: int)
    requires 0 <= monthIndex <= 11
    ensures PeriodRange("this-year", year, monthIndex) == Range(CalDate(year, 1, 1), CalDate(year, 12, 31))
  {
  }

  /** Every period starts on the 1st of a month and ends no earlier than it starts. */
  lemma PeriodRangeOrdered(period: string, year: int, monthIndex: int)
    requires 0 <= monthIndex <= 11
    ensures var r := PeriodRange(period, year, monthIndex);
      ValidDate(r.start) && ValidDate(r.end) && NotAfter(r.start, r.end) && r.start.day == 1
  {
    if period == "last-month" {
      LastMonthRange(year, monthIndex);
    } else if period == "this-quarter" {
      QuarterRange(year, monthIndex);
    } else if period == "this-year" {
    } else {
      ThisMonthRange(period, year, monthIndex);
    }
  }

  /** The day number of a date, counted from 1970-01-01 (day 0) in the proleptic
      Gregorian calendar. */
  function DayNumber(d: CalDate): int {
    var y := if d.month <= 2 then d.year - 1 else d.year;
    var era := y / 400;
    var yoe := y - era * 400;
    var mp := if d.month > 2 then d.month - 3 else d.month + 9;
    var doy := (153 * mp + 2) / 5 + d.day - 1;
    var doe := yoe * 365 + yoe / 4 - yoe / 100 + doy;
    era * 146097 + doe - 719468
  }

  /** The instant a date begins (`new Date(y, m, d)`), in milliseconds, on a server
      running at UTC. */
  function StartOf(d: CalDate): Time {
    DayNumber(d) * MsPerDay
  }

  /** The range's `$match` as written: `$gte: startDate, $lte: endDate`, where
      `endDate` is the first instant of the last day. */
  predicate InRangeAsWritten(t: Time, r: Range) {
    StartOf(r.start) <= t <= StartOf(r.end)
  }

  /** The period as meant: every instant from the first instant of the first day to the
      last instant of the last day. */
  predicate InRange(t: Time, r: Range) {
    StartOf(r.start) <= t < StartOf(r.end) + MsPerDay
  }

  /** As written, a document created at 10:00 on the period's last day is left out of
      the period's statistics, although its date lies in the period. */
  lemma LastDayLeftOut(year: int, monthIndex: int)
    requires 0 <= monthIndex <= 11
    ensures var r := PeriodRange("this-month", year, monthIndex);
      var t := StartOf(r.end) + 10 * 3600000;
      !InRangeAsWritten(t, r) && InRange(t, r)
  {
  }

  /** Corrected, the filter admits exactly the instants whose day lies in the period:
      every instant the as-written filter admits, and the whole last day besides, where
      the as-written filter admits only its first instant. */
  lemma InRangeCoversLastDay(t: Time, r: Range)
    ensures InRangeAsWritten(t, r) ==> InRange(t, r)
    ensures InRange(t, r) <==> DayNumber(r.start) <= t / MsPerDay <= DayNumber(r.end)
    ensures StartOf(r.start) <= StartOf(r.end) && StartOf(r.end) <= t < StartOf(r.end) + MsPerDay ==> InRange(t, r)
    ensures InRangeAsWritten(t, r) && t / MsPerDay == DayNumber(r.end) ==> t == StartOf(r.end)
  {
    var q := t / MsPerDay;
    assert q * MsPerDay <= t < q * MsPerDay + MsPerDay;
    DayStartOrder(DayNumber(r.start), q);
    DayStartOrder(q, DayNumber(r.end));
  }

  /** Whole days compare as their first instants do. */
  lemma DayStartOrder(a: int, b: int)
    ensures a <= b <==> a * MsPerDay <= b * MsPerDay
    ensures a <= b <==> a * MsPerDay < b * MsPerDay + MsPerDay
  {
  }

  /** One group of the status aggregation: `{ _id: status, total, count }`. */
  datatype StatGroup = StatGroup(id: string, total: real, count: nat)

  /** One entry of `formatStats`. */
  datatype StatRow = StatRow(status: string, caption: string, total: real, count: nat)

  const InvoiceStatusMap: seq<(string, string)> :=
    [(InvoiceModel.Draft, "Draft"), (InvoiceModel.Sent, "Sent"), (InvoiceModel.Viewed, "Viewed"), (InvoiceModel.Paid, "Paid")]
  const QuoteStatusMap: seq<(string, string)> :=
    [(QuoteModel.Draft, "Draft"), (QuoteModel.Sent, "Sent"), (QuoteModel.Viewed, "Viewed"),
     (QuoteModel.Approved, "Approved"), (QuoteModel.Rejected, "Rejected")]

  function StatusMap(docType: string): seq<(string, string)> {
    if docType == "invoice" then InvoiceStatusMap else QuoteStatusMap
  }

  /** `stats.find(s => s._id === status)`. */
  function FindStat(stats: seq<StatGroup>, status: string): (r: Option<StatGroup>)
    ensures r.Some? ==> r.value in stats && r.value.id == status
    ensures r.None? <==> forall g :: g in stats ==> g.id != status
  {
    if |stats| == 0 then None
    else if stats[0].id == status then Some(stats[0])
    else FindStat(stats[1..], status)
  }

  /** `formatStats(stats, type)`: one entry per status of the map, in map order, with
      the first matching group's total and count, or zeros. */
  function FormatStats(stats: seq<StatGroup>, docType: string): (r: seq<StatRow>)
    ensures |r| == |StatusMap(docType)|
    ensures forall i :: 0 <= i < |r| ==>
      r[i].status == StatusMap(docType)[i].0 && r[i].caption == StatusMap(docType)[i].1
    ensures forall i :: 0 <= i < |r| ==>
      var g := FindStat(stats, r[i].status);
      (g.None? ==> r[i].total == 0.0 && r[i].count == 0) &&
      (g.Some? ==> r[i].total == g.value.total && r[i].count == g.value.count)
  {
    var m := StatusMap(docType);
    seq(|m|, i requires 0 <= i < |m| =>
      var g := FindStat(stats, m[i].0);
      StatRow(m[i].0, m[i].1, if g.Some? then g.value.total else 0.0, if g.Some? then g.value.count else 0))
  }

  /** The invoice statistics list each schema status exactly once; the quote statistics
      list every quote status but `cancelled`, once each; a status with no group reports
      zero. */
  lemma FormatStatsSpec(stats: seq<StatGroup>)
    ensures var r := FormatStats(stats, "invoice");
      |r| == 4 &&
      (forall s :: InvoiceModel.ValidStatus(s) <==> exists i :: 0 <= i < |r| && r[i].status == s) &&
      (forall i, j :: 0 <= i < j < |r| ==> r[i].status != r[j].status)
    ensures var r := FormatStats(stats, "quote");
      |r| == 5 &&
      (forall s :: QuoteModel.ValidStatus(s) && s != QuoteModel.Cancelled <==> exists i :: 0 <= i < |r| && r[i].status == s) &&
      (forall i, j :: 0 <= i < j < |r| ==> r[i].status != r[j].status)
    ensures forall docType, i ::
      (0 <= i < |FormatStats(stats, docType)| &&
       forall g :: g in stats ==> g.id != FormatStats(stats, docType)[i].status) ==>
      FormatStats(stats, docType)[i].total == 0.0 && FormatStats(stats, docType)[i].count == 0
  {
    var r := FormatStats(stats, "invoice");
    forall s | InvoiceModel.ValidStatus(s) ensures exists i :: 0 <= i < |r| && r[i].status == s {
      if s == InvoiceModel.Draft { assert r[0].status == s; }
      else if s == InvoiceModel.Sent { assert r[1].status == s; }
      else if s == InvoiceModel.Viewed { assert r[2].status == s; }
      else { assert r[3].status == s; }
    }
    var q := FormatStats(stats, "quote");
    forall s | QuoteModel.ValidStatus(s) && s != QuoteModel.Cancelled ensures exists i :: 0 <= i < |q| && q[i].status == s {
      if s == QuoteModel.Draft { assert q[0].status == s; }
      else if s == QuoteModel.Sent { assert q[1].status == s; }
      else if s == QuoteModel.Viewed { assert q[2].status == s; }
      else if s == QuoteModel.Approved { assert q[3].status == s; }
      else { assert q[4].status == s; }
    }
  }

  /** One group of the monthly invoice aggregation: `{ _id: month, total, paid, count }`. */
  datatype InvoiceMonthGroup = InvoiceMonthGroup(month: int, total: real, paid: real, count: nat)
  datatype InvoiceMonthRow = InvoiceMonthRow(month: int, total: real, paid: real, count: nat)

  /** One group of the monthly payment aggregation: `{ _id: month, total, count }`. */
  datatype PaymentMonthGroup = PaymentMonthGroup(month: int, total: real, count: nat)
  datatype PaymentMonthRow = PaymentMonthRow(month: int, total: real, count: nat)

  function InvoiceGroupMonth(g: InvoiceMonthGroup): int { g.month }
  function PaymentGroupMonth(g: PaymentMonthGroup): int { g.month }

  /** The group `find` picks for a month (`monthOf` reads a group's `_id`): the first
      group of that month, or none exactly when no group has it. */
  function FindMonth<G(==)>(groups: seq<G>, monthOf: G -> int, month: int): (r: Option<G>)
    ensures r.Some? ==> r.value in groups && monthOf(r.value) == month
    ensures r.Some? ==> exists i :: 0 <= i < |groups| && groups[i] == r.value &&
                          forall j :: 0 <= j < i ==> monthOf(groups[j]) != month
    ensures r.None? <==> forall g :: g in groups ==> monthOf(g) != month
  {
    if |groups| == 0 then None
    else if monthOf(groups[0]) == month then Some(groups[0])
    else
      var r := FindMonth(groups[1..], monthOf, month);
      if r.Some? then
        var i :| 0 <= i < |groups[1..]| && groups[1..][i] == r.value &&
                 forall j :: 0 <= j < i ==> monthOf(groups[1..][j]) != month;
        assert groups[i + 1] == r.value;
        r
      else r
  }

  /** The invoice chart series: months 1 to 12 in order, each with its group's sums or
      zeros. */
  function InvoiceSeries(groups: seq<InvoiceMonthGroup>): (r: seq<InvoiceMonthRow>)
    ensures |r| == 12
    ensures forall i :: 0 <= i < 12 ==> r[i].month == i + 1
    ensures forall i :: 0 <= i < 12 ==>
      var g := FindMonth(groups, InvoiceGroupMonth, i + 1);
      (g.None? ==> r[i] == InvoiceMonthRow(i + 1, 0.0, 0.0, 0)) &&
      (g.Some? ==> r[i] == InvoiceMonthRow(i + 1, g.value.total, g.value.paid, g.value.count))
  {
    seq(12, i requires 0 <= i < 12 =>
      var g := FindMonth(groups, InvoiceGroupMonth, i + 1);
      if g.Some? then InvoiceMonthRow(i + 1, g.value.total, g.value.paid, g.value.count)
      else InvoiceMonthRow(i + 1, 0.0, 0.0, 0))
  }

  /** The payment chart series, filled the same way. */
  function PaymentSeries(groups: seq<PaymentMonthGroup>): (r: seq<PaymentMonthRow>)
    ensures |r| == 12
    ensures forall i :: 0 <= i < 12 ==> r[i].month == i + 1
    ensures forall i :: 0 <= i < 12 ==>
      var g := FindMonth(groups, PaymentGroupMonth, i + 1);
      (g.None? ==> r[i] == PaymentMonthRow(i + 1, 0.0, 0)) &&
      (g.Some? ==> r[i] == PaymentMonthRow(i + 1, g.value.total, g.value.count))
  {
    seq(12, i requires 0 <= i < 12 =>
      var g := FindMonth(groups, PaymentGroupMonth, i + 1);
      if g.Some? then PaymentMonthRow(i + 1, g.value.total, g.value.count)
      else PaymentMonthRow(i + 1, 0.0, 0))
  }

  /** The series are strictly ascending by month; every group of a month 1..12 (the
      only one, when months are distinct) shows up in its month's row; a month with no
      group shows zeros. */
  lemma SeriesSpec(inv: seq<InvoiceMonthGroup>, pay: seq<PaymentMonthGroup>)
    ensures forall i, j :: 0 <= i < j < 12 ==> InvoiceSeries(inv)[i].month < InvoiceSeries(inv)[j].month
    ensures forall i, j :: 0 <= i < j < 12 ==> PaymentSeries(pay)[i].month < PaymentSeries(pay)[j].month
    ensures (forall a, b :: 0 <= a < b < |inv| ==> inv[a].month != inv[b].month) ==>
      forall g :: g in inv && 1 <= g.month <= 12 ==>
        InvoiceSeries(inv)[g.month - 1] == InvoiceMonthRow(g.month, g.total, g.paid, g.count)
    ensures (forall a, b :: 0 <= a < b < |pay| ==> pay[a].month != pay[b].month) ==>
      forall g :: g in pay && 1 <= g.month <= 12 ==>
        PaymentSeries(pay)[g.month - 1] == PaymentMonthRow(g.month, g.total, g.count)
  {
    if forall a, b :: 0 <= a < b < |inv| ==> inv[a].month != inv[b].month {
      forall g | g in inv && 1 <= g.month <= 12
        ensures InvoiceSeries(inv)[g.month - 1] == InvoiceMonthRow(g.month, g.total, g.paid, g.count)
      {
        var f := FindMonth(inv, InvoiceGroupMonth, g.month).value;
        var a :| 0 <= a < |inv| && inv[a] == g;
        var b :| 0 <= b < |inv| && inv[b] == f;
        assert a == b;
      }
    }
    if forall a, b :: 0 <= a < b < |pay| ==> pay[a].month != pay[b].month {
      forall g | g in pay && 1 <= g.month <= 12
        ensures PaymentSeries(pay)[g.month - 1] == PaymentMonthRow(g.month, g.total, g.count)
      {
        var f := FindMonth(pay, PaymentGroupMonth, g.month).value;
        var a :| 0 <= a < |pay| && pay[a] == g;
        var b :| 0 <= b < |pay| && pay[b] == f;
        assert a == b;
      }
    }
  }
}

=== FILE: database.dfy ===
/** The collections the document handlers read and write, as one object whose fields the
    handlers update in place. The model-level hooks live here too: the number series'
    `save` (with its single-default pre-save hook) and `incrementNextId`, and the payment
    ledger's post-save and post-delete recomputation. */
module Database {
  import opened Common
  import InvoiceModel
  import QuoteModel
  import SeriesModel
  import PaymentModel
  import ClientModel

  class Db {
    var invoices: map<Id, InvoiceModel.Invoice>
    var quotes: map<Id, QuoteModel.Quote>
    var series: map<Id, SeriesModel.Series>
    /** The payment collection, in insertion order (the order `find` returns). */
    var payments: seq<PaymentModel.Payment>
    var clients: map<Id, ClientModel.Client>
    /** The next unused identifier: every stored key is below it. */
    var nextKey: nat

    /** Every stored document passed its schema validators when it was saved, no key is
        at or above `nextKey`, payment ids are distinct, and each company has at most one
        default series per document type. */
    ghost predicate Valid()
      reads this
    {
      (forall k :: k in invoices ==> k < nextKey && InvoiceModel.Valid(invoices[k])) &&
      (forall k :: k in quotes ==> k < nextKey && QuoteModel.Valid(quotes[k])) &&
      SeriesModel.AllValid(series, nextKey) &&
      (forall k :: k in clients ==> k < nextKey && ClientModel.Valid(clients[k])) &&
      (forall i :: 0 <= i < |payments| ==> payments[i].id < nextKey && PaymentModel.Valid(payments[i])) &&
      (forall i, j :: 0 <= i < j < |payments| ==> payments[i].id != payments[j].id) &&
      SeriesModel.OneDefaultPerGroup(series)
    }

    constructor()
      ensures Valid()
      ensures invoices == map[] && quotes == map[] && series == map[] && payments == [] && clients == map[]
    {
      invoices, quotes, series, payments, clients := map[], map[], map[], [], map[];
      nextKey := 0;
    }

    /** Allocates `n` consecutive fresh identifiers, the first of which is returned. */
    method NewKeys(n: nat) returns (first: Id)
      requires Valid()
      modifies this`nextKey
      ensures Valid()
      ensures first == old(nextKey) && nextKey == first + n
    {
      first := nextKey;
      nextKey := nextKey + n;
    }

    /** Saves an invoice that passed validation under a key already allocated. */
    method PutInvoice(id: Id, inv: InvoiceModel.Invoice)
      requires Valid() && id < nextKey && InvoiceModel.Valid(inv)
      modifies this`invoices
      ensures Valid() && invoices == old(invoices)[id := inv]
    {
      invoices := invoices[id := inv];
    }

    /** `invoice.save()` under a key already allocated: the schema validators run first,
        and a document that fails them is not written. */
    method SaveInvoice(id: Id, inv: InvoiceModel.Invoice) returns (o: Outcome<Id>)
      requires Valid() && id < nextKey
      modifies this`invoices
      ensures Valid()
      ensures InvoiceModel.Valid(inv) ==> o == Ok(id) && invoices == old(invoices)[id := inv]
      ensures !InvoiceModel.Valid(inv) ==> o == Fail(ValidationError) && invoices == old(invoices)
    {
      if !InvoiceModel.Valid(inv) {
        return Fail(ValidationError);
      }
      PutInvoice(id, inv);
      o := Ok(id);
    }

    /** Saves a quote that passed validation under a key already allocated. */
    method PutQuote(id: Id, q: QuoteModel.Quote)
      requires Valid() && id < nextKey && QuoteModel.Valid(q)
      modifies this`quotes
      ensures Valid() && quotes == old(quotes)[id := q]
    {
      quotes := quotes[id := q];
    }

    /** `quote.save()` under a key already allocated: validation first, and a quote that
        fails it is not written. */
    method SaveQuote(id: Id, q: QuoteModel.Quote) returns (o: Outcome<Id>)
      requires Valid() && id < nextKey
      modifies this`quotes
      ensures Valid()
      ensures QuoteModel.Valid(q) ==> o == Ok(id) && quotes == old(quotes)[id := q]
      ensures !QuoteModel.Valid(q) ==> o == Fail(ValidationError) && quotes == old(quotes)
    {
      if !QuoteModel.Valid(q) {
        return Fail(ValidationError);
      }
      PutQuote(id, q);
      o := Ok(id);
    }

    /** Saves a client that passed validation under a key already allocated. */
    method PutClient(id: Id, c: ClientModel.Client)
      requires Valid() && id < nextKey && ClientModel.Valid(c)
      modifies this`clients
      ensures Valid() && clients == old(clients)[id := c]
    {
      clients := clients[id := c];
    }

    /** Removes a client record. */
    method RemoveClient(id: Id)
      requires Valid()
      modifies this`clients
      ensures Valid() && clients == old(clients) - {id}
    {
      clients := clients - {id};
    }

    /** The series pre-save hook's `updateMany`, one matching record at a time. */
    method ClearSeriesDefaults(id: Id, s: SeriesModel.Series)
      modifies this`series
      ensures series == SeriesModel.ClearOtherDefaults(old(series), id, s)
    {
      if !s.isDefault {
        return;
      }
      ghost var target := SeriesModel.ClearOtherDefaults(series, id, s);
      ghost var start := series;
      var todo := series.Keys;
      while todo != {}
        invariant todo <= start.Keys && series.Keys == start.Keys == target.Keys
        invariant forall k :: k in start ==> series[k] == if k in todo then start[k] else target[k]
        decreases |todo|
      {
        var k :| k in todo;
        assert series[k] == start[k];
        ghost var before := series;
        if k != id && SeriesModel.SameGroup(series[k], s) && series[k].isDefault {
          series := series[k := series[k].(isDefault := false)];
        }
        assert series[k] == target[k];
        assert series == before[k := target[k]];
        todo := todo - {k};
      }
    }

    /** `series.save()` of an existing series: validation first (nothing is written when
        it fails), then the single-default hook, then the record. */
    method SaveSeries(id: Id, s: SeriesModel.Series) returns (o: Outcome<Id>)
      requires Valid() && id in series
      modifies this`series
      ensures Valid()
      ensures !SeriesModel.Valid(s) ==> o == Fail(ValidationError) && series == old(series)
      ensures SeriesModel.Valid(s) ==>
        o == Ok(id) && series == SeriesModel.ClearOtherDefaults(old(series), id, s)[id := s]
    {
      if !SeriesModel.Valid(s) {
        return Fail(ValidationError);
      }
      ghost var start := series;
      ClearSeriesDefaults(id, s);
      series := series[id := s];
      SeriesModel.SaveKeepsOneDefault(start, id, s);
      SeriesModel.SaveKeepsValid(start, id, s, nextKey);
      o := Ok(id);
    }

    /** `incrementNextId()`: raises the counter by exactly one, saves, and returns the new
        value. No other series changes. */
    method IncrementNextId(id: Id) returns (n: int)
      requires Valid() && id in series
      modifies this`series
      ensures Valid()
      ensures series == old(series)[id := SeriesModel.Incremented(old(series)[id])]
      ensures n == old(series)[id].nextId + 1
    {
      var s := SeriesModel.Incremented(series[id]);
      SeriesModel.ResaveChangesNothingElse(series, id, s);
      var o := SaveSeries(id, s);
      n := s.nextId;
    }

    /** `group.generateNumber()` followed by `group.incrementNextId()`: the number for the
        counter's current value, and the counter one further on. */
    method TakeNumber(id: Id, year: int, month: int) returns (number: string)
      requires Valid() && id in series && 1 <= month <= 12
      modifies this`series
      ensures Valid()
      ensures number == SeriesModel.GenerateNumber(old(series)[id], year, month)
      ensures series == old(series)[id := SeriesModel.Incremented(old(series)[id])]
    {
      number := SeriesModel.GenerateNumber(series[id], year, month);
      var _ := IncrementNextId(id);
    }

    /** `TakeNumber` when `numbered`, otherwise the empty number with nothing written. */
    method TakeNumberIf(numbered: bool, id: Id, year: int, month: int) returns (number: string)
      requires Valid() && id in series && 1 <= month <= 12
      modifies this`series
      ensures Valid()
      ensures number == if numbered then SeriesModel.GenerateNumber(old(series)[id], year, month) else ""
      ensures series == if numbered then old(series)[id := SeriesModel.Incremented(old(series)[id])] else old(series)
    {
      number := "";
      if numbered {
        number := TakeNumber(id, year, month);
      }
    }

    /** Inserts a new valid payment whose key is allocated and unused. */
    method PushPayment(p: PaymentModel.Payment)
      requires Valid() && p.id < nextKey && PaymentModel.Valid(p)
      requires forall i :: 0 <= i < |payments| ==> payments[i].id != p.id
      modifies this`payments
      ensures Valid() && payments == old(payments) + [p]
    {
      payments := payments + [p];
    }

    /** Overwrites the payment at `i` with a valid payment under the same key. */
    method SetPayment(i: nat, p: PaymentModel.Payment)
      requires Valid() && i < |payments| && p.id == payments[i].id && PaymentModel.Valid(p)
      modifies this`payments
      ensures Valid() && payments == old(payments)[i := p]
    {
      payments := payments[i := p];
    }

    /** Removes the payment at `i`; the others keep their order. */
    method RemovePayment(i: nat)
      requires Valid() && i < |payments|
      modifies this`payments
      ensures Valid() && payments == old(payments)[..i] + old(payments)[i + 1..]
    {
      payments := payments[..i] + payments[i + 1..];
    }

    /** `Payment.find({ invoice }).reduce(...)`: the amounts of the payments of one
        invoice, summed in collection order. */
    method SumPaid(invoice: Id) returns (total: real)
      ensures total == PaymentModel.PaidTo(payments, invoice)
    {
      total := 0.0;
      var i := 0;
      while i < |payments|
        invariant 0 <= i <= |payments| && total == PaymentModel.PaidTo(payments[..i], invoice)
      {
        if payments[i].invoice == invoice {
          total := total + payments[i].amount;
        }
        assert payments[..i + 1][..i] == payments[..i];
        i := i + 1;
      }
      assert payments[..i] == payments;
    }

    /** The payment post-save hook: when the invoice exists, its paid amount becomes the
        sum of its payments, its balance total less paid, and it becomes paid when fully
        paid and not a draft. Nothing else is written. */
    method PaymentSaved(invoice: Id)
      requires Valid()
      modifies this`invoices
      ensures Valid()
      ensures invoices == PaymentModel.SaveHook(old(invoices), invoice, PaymentModel.PaidTo(payments, invoice))
      ensures invoice in invoices ==> invoices[invoice].amounts.paid == PaymentModel.PaidTo(payments, invoice)
    {
      var totalPaid := SumPaid(invoice);
      if invoice in invoices {
        var inv := invoices[invoice];
        var balance := inv.amounts.total - totalPaid;
        inv := inv.(amounts := inv.amounts.(paid := totalPaid, balance := balance));
        if balance <= 0.0 && inv.status != InvoiceModel.Draft {
          inv := inv.(status := InvoiceModel.Paid);
        }
        PaymentModel.LedgerKeepsValid(invoices[invoice], totalPaid);
        invoices := invoices[invoice := inv];
      }
    }

    /** The payment post-delete hook: the same sums, and a paid invoice that owes money
        again goes back to sent. */
    method PaymentDeleted(invoice: Id)
      requires Valid()
      modifies this`invoices
      ensures Valid()
      ensures invoices == PaymentModel.DeleteHook(old(invoices), invoice, PaymentModel.PaidTo(payments, invoice))
      ensures invoice in invoices ==> invoices[invoice].amounts.paid == PaymentModel.PaidTo(payments, invoice)
    {
      var totalPaid := SumPaid(invoice);
      if invoice in invoices {
        var inv := invoices[invoice];
        var balance := inv.amounts.total - totalPaid;
        inv := inv.(amounts := inv.amounts.(paid := totalPaid, balance := balance));
        if balance > 0.0 && inv.status == InvoiceModel.Paid {
          inv := inv.(status := InvoiceModel.Sent);
        }
        PaymentModel.LedgerKeepsValid(invoices[invoice], totalPaid);
        invoices := invoices[invoice := inv];
      }
    }
  }
}

=== FILE: email.dfy ===
/** The content side of the document e-mails: the placeholder table of an invoice or a
    quote, the template override, the global substitution of every placeholder, the
    plain-text body with the tags stripped, the PDF attachment rule and the date format
    the placeholders use. */
module EmailService {
  import opened Common
  import opened Text
  import SettingModel

  /** A placeholder and its value, in the order `Object.entries` lists them. */
  type Replacements = seq<(string, string)>

  predicate NonEmptyKeys(rs: Replacements) {
    forall i :: 0 <= i < |rs| ==> |rs[i].0| > 0
  }

  /** JavaScript's `a || b` on strings: `b` when `a` is empty. */
  function OrElse(a: string, b: string): (r: string)
    ensures a != "" ==> r == a
    ensures a == "" ==> r == b
  {
    if a != "" then a else b
  }

  /** JavaScript truthiness of a setting value: all but null, `false`, 0 and ''. */
  predicate Truthy(v: SettingModel.Value) {
    match v
    case Null => false
    case Bool(b) => b
    case Num(n) => n != 0.0
    case Str(s) => s != ""
  }

  /** A value as a template literal interpolates it; `numberText` is JavaScript's
      number-to-string conversion, taken as given. */
  function Rendered(v: SettingModel.Value, numberText: real -> string): string {
    match v
    case Null => "null"
    case Bool(b) => if b then "true" else "false"
    case Num(n) => numberText(n)
    case Str(s) => s
  }

  /** A setting interpolated after `settings[key] || fallback`: a missing or falsy value
      gives the fallback, any other value is rendered, so a non-empty text is used as
      stored and `true` reads "true". */
  function TextSetting(settings: map<string, SettingModel.Value>, key: string, fallback: string,
                       numberText: real -> string): (r: string)
    ensures key !in settings || !Truthy(settings[key]) ==> r == fallback
    ensures key in settings && Truthy(settings[key]) ==> r == Rendered(settings[key], numberText)
    ensures key in settings && settings[key].Str? && settings[key].s != "" ==> r == settings[key].s
    ensures key in settings && settings[key] == SettingModel.Bool(true) ==> r == "true"
    ensures key in settings && settings[key].Num? && settings[key].n != 0.0 ==> r == numberText(settings[key].n)
  {
    if key in settings && Truthy(settings[key]) then Rendered(settings[key], numberText) else fallback
  }

  /** The text after the `forEach` over the replacements: each key in turn replaced
      everywhere in the text the previous keys left. */
  function Substituted(s: string, rs: Replacements): string
    requires NonEmptyKeys(rs)
  {
    if rs == [] then s
    else ReplaceAll(Substituted(s, rs[..|rs| - 1]), rs[|rs| - 1].0, rs[|rs| - 1].1)
  }

  /** The substitution loop: subject and body are rewritten key by key. */
  method Substitute(subject: string, html: string, rs: Replacements) returns (s: string, h: string)
    requires NonEmptyKeys(rs)
    ensures s == Substituted(subject, rs) && h == Substituted(html, rs)
  {
    s, h := subject, html;
    var i := 0;
    while i < |rs|
      invariant 0 <= i <= |rs|
      invariant s == Substituted(subject, rs[..i]) && h == Substituted(html, rs[..i])
    {
      assert rs[..i + 1][..i] == rs[..i];
      var (key, value) := rs[i];
      s := ReplaceAll(s, key, value);
      h := ReplaceAll(h, key, value);
      i := i + 1;
    }
    assert rs[..i] == rs;
  }

  /** A text holding none of the placeholders is left exactly as it is. */
  lemma {:induction false} SubstitutedNoPlaceholders(s: string, rs: Replacements)
    requires NonEmptyKeys(rs)
    requires forall i, k :: 0 <= i < |rs| ==> !OccursAt(s, rs[i].0, k)
    ensures Substituted(s, rs) == s
    decreases |rs|
  {
    if rs != [] {
      var init := rs[..|rs| - 1];
      assert forall i :: 0 <= i < |init| ==> init[i] == rs[i];
      SubstitutedNoPlaceholders(s, init);
      ReplaceAllNoOccurrence(s, rs[|rs| - 1].0, rs[|rs| - 1].1);
    }
  }

  /** `key` occurs nowhere in `s`. */
  ghost predicate NoOccurrence(s: string, key: string) {
    forall k :: !OccursAt(s, key, k)
  }

  /** The pieces of a text joined with `sep` between neighbours. */
  function Join(parts: seq<string>, sep: string): string
    requires |parts| >= 1
  {
    if |parts| == 1 then parts[0] else parts[0] + sep + Join(parts[1..], sep)
  }

  /** `key` occurs in the joined text exactly at the joints: the first occurrence after
      each piece starts right after it, and the last piece holds none. */
  ghost predicate OnlyAtJoints(parts: seq<string>, key: string)
    requires |parts| >= 1
  {
    (forall i :: 0 <= i < |parts| - 1 ==>
       FirstOccurrence(parts[i] + key + Join(parts[i + 1..], key), key, |parts[i]|)) &&
    NoOccurrence(parts[|parts| - 1], key)
  }

  /** The replacement is global: every occurrence of the key becomes the value, not only
      the first as in the number series' format. */
  lemma {:induction false} ReplaceAllEveryOccurrence(parts: seq<string>, key: string, value: string)
    requires |parts| >= 1 && |key| > 0 && OnlyAtJoints(parts, key)
    ensures ReplaceAll(Join(parts, key), key, value) == Join(parts, value)
    decreases |parts|
  {
    if |parts| == 1 {
      ReplaceAllNoOccurrence(parts[0], key, value);
    } else {
      var rest := parts[1..];
      forall i | 0 <= i < |rest| - 1
        ensures FirstOccurrence(rest[i] + key + Join(rest[i + 1..], key), key, |rest[i]|)
      {
        assert rest[i] == parts[i + 1] && rest[i + 1..] == parts[i + 2..];
      }
      ReplaceAllEveryOccurrence(rest, key, value);
      assert parts[0] + key + Join(rest, key) == Join(parts, key);
      ReplaceAllFirstOccurrence(parts[0], key, Join(rest, key), value);
    }
  }

  /** `formatDate(date)`: '-' without a date, otherwise DD-MM-YYYY with day and month
      padded to two digits. */
  function FormatDate(d: Option<CalDate>): string
    requires d.Some? ==> ValidDate(d.value)
  {
    if d.None? then "-"
    else TwoDigits(d.value.day) + "-" + TwoDigits(d.value.month) + "-" + IntText(d.value.year)
  }

  /** A four-digit year gives ten characters, dashes at 2 and 5, and the day, month and
      year read back from their places. */
  lemma FormatDateSpec(d: CalDate)
    requires ValidDate(d) && 1000 <= d.year <= 9999
    ensures var r := FormatDate(Some(d));
      |r| == 10 && r[2] == '-' && r[5] == '-' &&
      AllDigits(r[..2]) && DigitsValue(r[..2]) == d.day &&
      AllDigits(r[3..5]) && DigitsValue(r[3..5]) == d.month &&
      AllDigits(r[6..]) && DigitsValue(r[6..]) == d.year
  {
    TwoDigitsSpec(d.day);
    TwoDigitsSpec(d.month);
    assert Pow10(3) == 1000 && Pow10(4) == 10000;
    DecimalLength(d.year, 4);
    DecimalRoundTrip(d.year);
    var r := FormatDate(Some(d));
    assert r[..2] == TwoDigits(d.day);
    assert r[3..5] == TwoDigits(d.month);
    assert r[6..] == IntText(d.year);
  }

  /** No '<' is followed, anywhere later, by a '>'. */
  predicate NoTag(s: string) {
    forall i, j :: 0 <= i < j < |s| && s[i] == '<' ==> s[j] != '>'
  }

  /** `html.replace(/<[^>]*>/g, '')`: from each '<' through the next '>' is removed; a
      '<' with no '>' after it stays. */
  function StripTags(s: string): (r: string)
    ensures |r| <= |s|
    ensures forall c :: c in r ==> c in s
    ensures NoTag(r)
    decreases |s|
  {
    if s == [] then []
    else if s[0] == '<' && IndexOfFrom(s, ">", 1).Some? then
      var j := IndexOfFrom(s, ">", 1).value;
      StripTags(s[j + 1..])
    else
      var rest := StripTags(s[1..]);
      assert s[0] == '<' ==> forall c :: c in rest ==> c != '>' by {
        if s[0] == '<' {
          forall c | c in rest ensures c != '>' {
            var k :| 0 <= k < |s[1..]| && s[1..][k] == c;
            assert !OccursAt(s, ">", k + 1);
            assert s[k + 1..k + 2] == [c];
          }
        }
      }
      var r := [s[0]] + rest;
      assert forall j :: 0 < j < |r| ==> r[j] == rest[j - 1];
      assert forall j :: 0 < j < |r| ==> r[j] in rest;
      r
  }

  /** Text without any '<' is left as it is. */
  lemma {:induction false} StripTagsPlain(s: string)
    requires forall i :: 0 <= i < |s| ==> s[i] != '<'
    ensures StripTags(s) == s
    decreases |s|
  {
    if s != [] {
      StripTagsPlain(s[1..]);
    }
  }

  /** A tag in front of plain text is removed whole. */
  lemma StripLeadingTag(tag: string, rest: string)
    requires forall i :: 0 <= i < |tag| ==> tag[i] != '>'
    ensures StripTags("<" + tag + ">" + rest) == StripTags(rest)
  {
    var s := "<" + tag + ">" + rest;
    forall k | 1 <= k < |tag| + 1 ensures !OccursAt(s, ">", k) {
      assert s[k..k + 1] == [tag[k - 1]];
    }
    assert OccursAt(s, ">", |tag| + 1) by {
      assert s[|tag| + 1..|tag| + 2] == ">";
    }
    assert s[|tag| + 2..] == rest;
  }

  /** The people an e-mail is about. */
  datatype Recipient = Recipient(name: string, surname: string, company: string, email: string)
  datatype Sender = Sender(name: string, company: string, email: string)

  /** What the e-mail needs of an invoice or a quote: its database id, number (empty
      when unnumbered), two dates, the formatted amounts, the guest URL key and the
      client. */
  datatype Document = Document(
    id: string, number: string, created: Option<CalDate>, other: Option<CalDate>,
    totalText: string, balanceText: string, urlKey: string, client: Recipient)

  predicate ValidDates(doc: Document) {
    (doc.created.Some? ==> ValidDate(doc.created.value)) && (doc.other.Some? ==> ValidDate(doc.other.value))
  }

  /** The shop-wide values the placeholders use, and the number-to-string conversion
      a numeric setting is interpolated with. */
  datatype Context = Context(sender: Sender, settings: map<string, SettingModel.Value>, frontendUrl: string,
                             numberText: real -> string)

  function CurrencySymbol(ctx: Context): string {
    TextSetting(ctx.settings, "currency_symbol", "\U{20B9}", ctx.numberText)
  }

  function SiteUrl(ctx: Context): string {
    OrElse(ctx.frontendUrl, "http://localhost:3000")
  }

  function ClientName(c: Recipient): string {
    Trim(c.name + " " + c.surname)
  }

  /** The invoice placeholders of `sendInvoiceEmail`. */
  function InvoiceReplacements(doc: Document, ctx: Context): (r: Replacements)
    requires ValidDates(doc)
    ensures NonEmptyKeys(r) && |r| == 12
    ensures r[0] == ("{invoice_number}", if doc.number == "" then "DRAFT" else doc.number)
  {
    [("{invoice_number}", OrElse(doc.number, "DRAFT")),
     ("{invoice_date}", FormatDate(doc.created)),
     ("{invoice_due_date}", FormatDate(doc.other)),
     ("{invoice_total}", CurrencySymbol(ctx) + doc.totalText),
     ("{invoice_balance}", CurrencySymbol(ctx) + doc.balanceText),
     ("{invoice_url}", SiteUrl(ctx) + "/guest/invoice/" + doc.urlKey),
     ("{client_name}", ClientName(doc.client)),
     ("{client_company}", doc.client.company),
     ("{client_email}", doc.client.email),
     ("{user_name}", ctx.sender.name),
     ("{user_company}", ctx.sender.company),
     ("{user_email}", ctx.sender.email)]
  }

  /** The quote placeholders of `sendQuoteEmail`. */
  function QuoteReplacements(doc: Document, ctx: Context): (r: Replacements)
    requires ValidDates(doc)
    ensures NonEmptyKeys(r) && |r| == 11
    ensures r[0] == ("{quote_number}", if doc.number == "" then "DRAFT" else doc.number)
  {
    [("{quote_number}", OrElse(doc.number, "DRAFT")),
     ("{quote_date}", FormatDate(doc.created)),
     ("{quote_expires}", FormatDate(doc.other)),
     ("{quote_total}", CurrencySymbol(ctx) + doc.totalText),
     ("{quote_url}", SiteUrl(ctx) + "/guest/quote/" + doc.urlKey),
     ("{client_name}", ClientName(doc.client)),
     ("{client_company}", doc.client.company),
     ("{client_email}", doc.client.email),
     ("{user_name}", ctx.sender.name),
     ("{user_company}", ctx.sender.company),
     ("{user_email}", ctx.sender.email)]
  }

  /** An active default template from the template table. */
  datatype Template = Template(subject: string, body: string)

  datatype Attachment = Attachment(filename: string, path: string)

  /** The message handed to the transport. */
  datatype Email = Email(to: string, subject: string, html: string, text: string, attachments: seq<Attachment>)

  /** What a send call produces: a refusal with its message, or the composed e-mail. */
  datatype SendResult = NotSent(message: string) | Composed(email: Email)

  /** The attachment list: the PDF only when `attachPDF` (default true) holds and a
      path is given. */
  function Attachments(attachPdf: Option<bool>, pdfPath: Option<string>, filename: string): (r: seq<Attachment>)
    ensures |r| <= 1
    ensures r != [] <==> attachPdf.GetOr(true) && pdfPath.Some? && pdfPath.value != ""
    ensures r != [] ==> r[0] == Attachment(filename, pdfPath.value)
  {
    if attachPdf.GetOr(true) && pdfPath.Some? && pdfPath.value != "" then [Attachment(filename, pdfPath.value)] else []
  }

  /** The shared body of both send calls, after the e-mail check: the template (when
      there is one) replaces the default subject and body, then every placeholder is
      substituted in both, and the text part is the body without tags. */
  method Compose(to: string, subject: string, body: string, template: Option<Template>,
                 rs: Replacements, attachments: seq<Attachment>) returns (e: Email)
    requires NonEmptyKeys(rs)
    ensures e.to == to && e.attachments == attachments
    ensures template.None? ==> e.subject == Substituted(subject, rs) && e.html == Substituted(body, rs)
    ensures template.Some? ==>
      e.subject == Substituted(template.value.subject, rs) && e.html == Substituted(template.value.body, rs)
    ensures e.text == StripTags(e.html) && NoTag(e.text)
  {
    var s, h := subject, body;
    if template.Some? {
      s := template.value.subject;
      h := template.value.body;
    }
    s, h := Substitute(s, h, rs);
    e := Email(to, s, h, StripTags(h), attachments);
  }

  /** `sendInvoiceEmail`: without a client e-mail nothing else happens; otherwise the
      invoice e-mail, from the default subject and body unless a template overrides
      them, with the PDF attached under `Invoice-<number or id>.pdf` when asked for. */
  method SendInvoiceEmail(doc: Document, ctx: Context, defaultBody: string, template: Option<Template>,
                          attachPdf: Option<bool>, pdfPath: Option<string>) returns (r: SendResult)
    requires ValidDates(doc)
    ensures doc.client.email == "" ==> r == NotSent("Client email not found")
    ensures doc.client.email != "" ==> r.Composed?
    ensures r.Composed? ==>
      var rs := InvoiceReplacements(doc, ctx);
      var e := r.email;
      e.to == doc.client.email &&
      e.subject == Substituted(if template.Some? then template.value.subject else InvoiceSubject(doc, ctx), rs) &&
      e.html == Substituted(if template.Some? then template.value.body else defaultBody, rs) &&
      e.text == StripTags(e.html) &&
      e.attachments == Attachments(attachPdf, pdfPath, "Invoice-" + OrElse(doc.number, doc.id) + ".pdf")
  {
    if doc.client.email == "" {
      return NotSent("Client email not found");
    }
    var rs := InvoiceReplacements(doc, ctx);
    var files := Attachments(attachPdf, pdfPath, "Invoice-" + OrElse(doc.number, doc.id) + ".pdf");
    var e := Compose(doc.client.email, InvoiceSubject(doc, ctx), defaultBody, template, rs, files);
    r := Composed(e);
  }

  /** `sendQuoteEmail`: the same steps with the quote placeholders, the quote subject and
      `Quote-<number or id>.pdf`. */
  method SendQuoteEmail(doc: Document, ctx: Context, defaultBody: string, template: Option<Template>,
                        attachPdf: Option<bool>, pdfPath: Option<string>) returns (r: SendResult)
    requires ValidDates(doc)
    ensures doc.client.email == "" ==> r == NotSent("Client email not found")
    ensures doc.client.email != "" ==> r.Composed?
    ensures r.Composed? ==>
      var rs := QuoteReplacements(doc, ctx);
      var e := r.email;
      e.to == doc.client.email &&
      e.subject == Substituted(if template.Some? then template.value.subject else QuoteSubject(doc, ctx), rs) &&
      e.html == Substituted(if template.Some? then template.value.body else defaultBody, rs) &&
      e.text == StripTags(e.html) &&
      e.attachments == Attachments(attachPdf, pdfPath, "Quote-" + OrElse(doc.number, doc.id) + ".pdf")
  {
    if doc.client.email == "" {
      return NotSent("Client email not found");
    }
    var rs := QuoteReplacements(doc, ctx);
    var files := Attachments(attachPdf, pdfPath, "Quote-" + OrElse(doc.number, doc.id) + ".pdf");
    var e := Compose(doc.client.email, QuoteSubject(doc, ctx), defaultBody, template, rs, files);
    r := Composed(e);
  }

  /** The sender's company, else the `app_name` setting, else the product name. */
  function FromName(ctx: Context): string {
    OrElse(ctx.sender.company, TextSetting(ctx.settings, "app_name", "Girjasoft Invoices", ctx.numberText))
  }

  function InvoiceSubject(doc: Document, ctx: Context): string {
    "Invoice " + doc.number + " from " + FromName(ctx)
  }

  function QuoteSubject(doc: Document, ctx: Context): string {
    "Quotation " + doc.number + " from " + FromName(ctx)
  }
}

=== FILE: frontend_utils.dfy ===
/** The front end's display helpers: currency symbol placement, date formatting by
    pattern, the status badge colours, capitalisation and truncation. */
module FrontendUtils {
  import opened Common
  import opened Text
  import InvoiceModel
  import QuoteModel
  import EmailService

  /** `formatCurrency`'s last step: the symbol in front of the formatted amount when the
      placement is 'before' (the default), behind it otherwise. */
  function PlaceSymbol(formatted: string, symbol: string, placement: Option<string>): (r: string)
    ensures |r| == |formatted| + |symbol|
    ensures placement.GetOr("before") == "before" ==> r[..|symbol|] == symbol && r[|symbol|..] == formatted
    ensures placement.GetOr("before") != "before" ==> r[..|formatted|] == formatted && r[|formatted|..] == symbol
  {
    if placement.GetOr("before") == "before" then symbol + formatted else formatted + symbol
  }

  /** `formatDate(date, format)`: the first 'DD', then the first 'MM', then the first
      'YYYY' of the format replaced by the padded day, the padded month and the year. */
  function FormatDate(d: CalDate, format: Option<string>): string
    requires ValidDate(d)
  {
    var f := format.GetOr("DD-MM-YYYY");
    ReplaceFirst(ReplaceFirst(ReplaceFirst(f, "DD", TwoDigits(d.day)), "MM", TwoDigits(d.month)), "YYYY", IntText(d.year))
  }

  /** With the default format the front end prints a date exactly as the e-mails do. */
  lemma DefaultFormatMatchesEmail(d: CalDate)
    requires ValidDate(d)
    ensures FormatDate(d, None) == EmailService.FormatDate(Some(d))
  {
    var day := TwoDigits(d.day);
    var month := TwoDigits(d.month);
    var year := IntText(d.year);
    TwoDigitsSpec(d.day);
    TwoDigitsSpec(d.month);
    DayStep(day);
    var s1 := ReplaceFirst("DD-MM-YYYY", "DD", day);
    MonthStep(day, month);
    var s2 := ReplaceFirst(s1, "MM", month);
    YearStep(day, month, year);
    assert FormatDate(d, None) == ReplaceFirst(s2, "YYYY", year);
    assert EmailService.FormatDate(Some(d)) == (day + "-" + month + "-") + year;
  }

  lemma DayStep(day: string)
    ensures ReplaceFirst("DD-MM-YYYY", "DD", day) == day + "-MM-YYYY"
  {
    assert "DD-MM-YYYY" == [] + "DD" + "-MM-YYYY";
    ReplaceFirstSplit([], "DD", "-MM-YYYY", day);
  }

  lemma MonthStep(day: string, month: string)
    requires |day| == 2 && AllDigits(day)
    ensures ReplaceFirst(day + "-MM-YYYY", "MM", month) == (day + "-" + month + "-") + "YYYY"
  {
    var s1 := day + "-MM-YYYY";
    assert s1 == (day + "-") + "MM" + "-YYYY";
    forall k | 0 <= k < 3 ensures !OccursAt(s1, "MM", k) {
      assert s1[k] != 'M';
    }
    ReplaceFirstSplit(day + "-", "MM", "-YYYY", month);
    assert day + "-" + month + "-YYYY" == (day + "-" + month + "-") + "YYYY";
  }

  lemma YearStep(day: string, month: string, year: string)
    requires |day| == 2 && AllDigits(day) && |month| == 2 && AllDigits(month)
    ensures ReplaceFirst((day + "-" + month + "-") + "YYYY", "YYYY", year) == (day + "-" + month + "-") + year
  {
    var prefix := day + "-" + month + "-";
    var s2 := prefix + "YYYY";
    assert s2 == prefix + "YYYY" + "";
    forall k | 0 <= k < 6 ensures !OccursAt(s2, "YYYY", k) {
      assert s2[k] == prefix[k];
      if k < 2 {
        assert prefix[k] == day[k];
      } else if 3 <= k < 5 {
        assert prefix[k] == month[k - 3];
      }
    }
    ReplaceFirstSplit(prefix, "YYYY", "", year);
  }

  /** A format without any of the three tokens comes back unchanged. */
  lemma FormatWithoutTokens(d: CalDate, format: string)
    requires ValidDate(d)
    requires forall k :: !OccursAt(format, "DD", k) && !OccursAt(format, "MM", k) && !OccursAt(format, "YYYY", k)
    ensures FormatDate(d, Some(format)) == format
  {
  }

  const Gray: string := "bg-gray-100 text-gray-800"

  /** `getStatusColor(status)`: the badge class of a known status, gray otherwise. */
  function StatusColor(status: string): string {
    var colors := map[
      "draft" := Gray,
      "sent" := "bg-blue-100 text-blue-800",
      "viewed" := "bg-yellow-100 text-yellow-800",
      "paid" := "bg-green-100 text-green-800",
      "approved" := "bg-green-100 text-green-800",
      "rejected" := "bg-red-100 text-red-800",
      "cancelled" := Gray,
      "overdue" := "bg-red-100 text-red-800"];
    if status in colors then colors[status] else Gray
  }

  /** Every invoice and every quote status has an entry: sent is blue, viewed yellow,
      payment states share green, refusals and lateness share red, and drafts,
      cancellations and anything unknown are gray. */
  lemma StatusColorSpec(status: string)
    ensures InvoiceModel.ValidStatus(status) || QuoteModel.ValidStatus(status) || status == "overdue" ==>
      status in {"draft", "sent", "viewed", "paid", "approved", "rejected", "cancelled", "overdue"}
    ensures StatusColor(InvoiceModel.Paid) == StatusColor(QuoteModel.Approved) == "bg-green-100 text-green-800"
    ensures StatusColor(QuoteModel.Rejected) == StatusColor("overdue") == "bg-red-100 text-red-800"
    ensures StatusColor(InvoiceModel.Sent) == "bg-blue-100 text-blue-800"
    ensures StatusColor(InvoiceModel.Viewed) == "bg-yellow-100 text-yellow-800"
    ensures StatusColor(InvoiceModel.Draft) == StatusColor(QuoteModel.Cancelled) == Gray
    ensures status !in {"draft", "sent", "viewed", "paid", "approved", "rejected", "cancelled", "overdue"} ==>
      StatusColor(status) == Gray
  {
  }

  /** `capitalize(str)`: the first character upper-cased (ASCII), the rest as it is. */
  function Capitalize(s: string): (r: string)
    ensures |r| == |s|
    ensures s != [] ==> r[0] == ToUpperChar(s[0]) && r[1..] == s[1..]
    ensures s == [] ==> r == []
  {
    if s == [] then [] else [ToUpperChar(s[0])] + s[1..]
  }

  /** Capitalising twice is capitalising once. */
  lemma CapitalizeIdempotent(s: string)
    ensures Capitalize(Capitalize(s)) == Capitalize(s)
  {
  }

  /** `truncate(str, length)`: the text itself when it is short enough, otherwise
      `str.slice(0, length)` and '...'; a negative length counts from the end, as
      `slice` does. */
  function Truncate(s: string, length: int): string {
    if |s| <= length then s
    else
      var cut := if length >= 0 then length else if |s| + length > 0 then |s| + length else 0;
      s[..cut] + "..."
  }

  /** A short text is unchanged; a longer one keeps its first `length` characters and
      gains '...', so its length is `length + 3`. */
  lemma TruncateSpec(s: string, length: nat)
    ensures |s| <= length ==> Truncate(s, length) == s
    ensures |s| > length ==>
      |Truncate(s, length)| == length + 3 && Truncate(s, length)[..length] == s[..length] &&
      Truncate(s, length)[length..] == "..."
  {
  }
}

=== FILE: guest_routes.dfy ===
/** The public routes a client reaches through a document's URL key: viewing an invoice
    or a quote (with the optional document password, and sent → viewed), and approving or
    rejecting a quote. */
module GuestRoutes {
  import opened Common
  import InvoiceModel
  import QuoteModel
  import opened Database

  /** The invoice statuses a guest may see. */
  predicate InvoiceVisible(inv: InvoiceModel.Invoice) {
    inv.status == InvoiceModel.Sent || inv.status == InvoiceModel.Viewed || inv.status == InvoiceModel.Paid
  }

  /** The quote statuses a guest may see. */
  predicate QuoteVisible(q: QuoteModel.Quote) {
    q.status == QuoteModel.Sent || q.status == QuoteModel.Viewed ||
    q.status == QuoteModel.Approved || q.status == QuoteModel.Rejected
  }

  /** The quote statuses a guest may still answer. */
  predicate Answerable(q: QuoteModel.Quote) {
    q.status == QuoteModel.Sent || q.status == QuoteModel.Viewed
  }

  /** The result `findOne({ urlKey, status: { $in: ... } })` may give: a matching
      invoice when there is one (any of them), none otherwise. */
  predicate FoundInvoice(invoices: map<Id, InvoiceModel.Invoice>, urlKey: string, r: Option<Id>) {
    (r.None? <==> forall k :: k in invoices ==> !(invoices[k].urlKey == urlKey && InvoiceVisible(invoices[k]))) &&
    (r.Some? ==> r.value in invoices && invoices[r.value].urlKey == urlKey && InvoiceVisible(invoices[r.value]))
  }

  /** The same for quotes, with the statuses of `view` (`answer` false) or of
      approve/reject (`answer` true). */
  predicate FoundQuote(quotes: map<Id, QuoteModel.Quote>, urlKey: string, answer: bool, r: Option<Id>) {
    (r.None? <==> forall k :: k in quotes ==>
      !(quotes[k].urlKey == urlKey && (if answer then Answerable(quotes[k]) else QuoteVisible(quotes[k])))) &&
    (r.Some? ==>
       r.value in quotes && quotes[r.value].urlKey == urlKey &&
       (if answer then Answerable(quotes[r.value]) else QuoteVisible(quotes[r.value])))
  }

  /** The password check: a document without a password is open; one with a password
      needs the query password, compared as plain text. */
  function PasswordAccepted(stored: string, given: Option<string>): (ok: bool)
    ensures stored == "" ==> ok
    ensures stored != "" ==> (ok <==> given == Some(stored))
  {
    if stored != "" then given.Some? && given.value != "" && given.value == stored else true
  }

  /** A guest view marks a sent document as viewed and leaves every other status alone. */
  function InvoiceViewed(inv: InvoiceModel.Invoice): InvoiceModel.Invoice {
    if inv.status == InvoiceModel.Sent then inv.(status := InvoiceModel.Viewed) else inv
  }

  function QuoteViewed(q: QuoteModel.Quote): QuoteModel.Quote {
    if q.status == QuoteModel.Sent then q.(status := QuoteModel.Viewed) else q
  }

  /** Viewing only ever moves sent to viewed: a visible document stays visible, a second
      view changes nothing, nothing goes back to sent, and only the status changes. */
  lemma ViewTransitions(inv: InvoiceModel.Invoice, q: QuoteModel.Quote)
    requires InvoiceVisible(inv) && QuoteVisible(q)
    ensures var v := InvoiceViewed(inv);
      InvoiceVisible(v) && InvoiceViewed(v) == v && v.status != InvoiceModel.Sent &&
      (inv.status != InvoiceModel.Sent ==> v == inv) && v.(status := inv.status) == inv
    ensures var w := QuoteViewed(q);
      QuoteVisible(w) && QuoteViewed(w) == w && w.status != QuoteModel.Sent &&
      (q.status != QuoteModel.Sent ==> w == q) && w.(status := q.status) == q
  {
  }

  /** The guest invoice view: 404 when no visible invoice has the key, 401 when the
      password does not match (nothing written), otherwise the invoice is viewed.
      `found` is the invoice the lookup returned. */
  method ViewInvoice(db: Db, urlKey: string, password: Option<string>) returns (o: Outcome<Id>, found: Option<Id>)
    requires db.Valid()
    modifies db`invoices
    ensures db.Valid()
    ensures FoundInvoice(old(db.invoices), urlKey, found)
    ensures found.None? ==> o == Fail(NotFound) && unchanged(db)
    ensures found.Some? && !PasswordAccepted(old(db.invoices)[found.value].password, password) ==>
      o == Fail(Unauthorized) && unchanged(db)
    ensures found.Some? && PasswordAccepted(old(db.invoices)[found.value].password, password) ==>
      o == Ok(found.value) && db.invoices == old(db.invoices)[found.value := InvoiceViewed(old(db.invoices)[found.value])]
  {
    if !exists k :: k in db.invoices && db.invoices[k].urlKey == urlKey && InvoiceVisible(db.invoices[k]) {
      return Fail(NotFound), None;
    }
    var k :| k in db.invoices && db.invoices[k].urlKey == urlKey && InvoiceVisible(db.invoices[k]);
    found := Some(k);
    var inv := db.invoices[k];
    if !PasswordAccepted(inv.password, password) {
      return Fail(Unauthorized), found;
    }
    if inv.status == InvoiceModel.Sent {
      db.PutInvoice(k, InvoiceViewed(inv));
    } else {
      assert db.invoices == db.invoices[k := inv];
    }
    o := Ok(k);
  }

  /** The guest quote view: the same checks and the same transition, over the quote
      statuses a guest may see. */
  method ViewQuote(db: Db, urlKey: string, password: Option<string>) returns (o: Outcome<Id>, found: Option<Id>)
    requires db.Valid()
    modifies db`quotes
    ensures db.Valid()
    ensures FoundQuote(old(db.quotes), urlKey, false, found)
    ensures found.None? ==> o == Fail(NotFound) && unchanged(db)
    ensures found.Some? && !PasswordAccepted(old(db.quotes)[found.value].password, password) ==>
      o == Fail(Unauthorized) && unchanged(db)
    ensures found.Some? && PasswordAccepted(old(db.quotes)[found.value].password, password) ==>
      o == Ok(found.value) && db.quotes == old(db.quotes)[found.value := QuoteViewed(old(db.quotes)[found.value])]
  {
    if !exists k :: k in db.quotes && db.quotes[k].urlKey == urlKey && QuoteVisible(db.quotes[k]) {
      return Fail(NotFound), None;
    }
    var k :| k in db.quotes && db.quotes[k].urlKey == urlKey && QuoteVisible(db.quotes[k]);
    found := Some(k);
    var q := db.quotes[k];
    if !PasswordAccepted(q.password, password) {
      return Fail(Unauthorized), found;
    }
    if q.status == QuoteModel.Sent {
      db.PutQuote(k, QuoteViewed(q));
    } else {
      assert db.quotes == db.quotes[k := q];
    }
    o := Ok(k);
  }

  /** The client's answer to a quote: approved or rejected, and nothing else. */
  function Answered(q: QuoteModel.Quote, answer: string): QuoteModel.Quote {
    q.(status := answer)
  }

  /** An answer is final for the guest routes: the answered quote stays visible but can
      no longer be answered, so approving or rejecting it again is a 404. */
  lemma AnswerIsFinal(q: QuoteModel.Quote, answer: string)
    requires Answerable(q) && (answer == QuoteModel.Approved || answer == QuoteModel.Rejected)
    ensures QuoteVisible(Answered(q, answer)) && !Answerable(Answered(q, answer))
    ensures QuoteModel.Valid(q) ==> QuoteModel.Valid(Answered(q, answer))
    ensures answer == QuoteModel.Approved ==> forall t :: !QuoteModel.IsExpired(Answered(q, answer), t)
  {
  }

  /** Approve (`answer` approved) or reject (`answer` rejected): only a sent or viewed
      quote with the key can be answered, with no password check; anything else is a 404
      with nothing written. */
  method AnswerQuote(db: Db, urlKey: string, answer: string) returns (o: Outcome<Id>, found: Option<Id>)
    requires db.Valid() && (answer == QuoteModel.Approved || answer == QuoteModel.Rejected)
    modifies db`quotes
    ensures db.Valid()
    ensures FoundQuote(old(db.quotes), urlKey, true, found)
    ensures found.None? ==> o == Fail(NotFound) && unchanged(db)
    ensures found.Some? ==>
      o == Ok(found.value) && db.quotes == old(db.quotes)[found.value := Answered(old(db.quotes)[found.value], answer)]
  {
    if !exists k :: k in db.quotes && db.quotes[k].urlKey == urlKey && Answerable(db.quotes[k]) {
      return Fail(NotFound), None;
    }
    var k :| k in db.quotes && db.quotes[k].urlKey == urlKey && Answerable(db.quotes[k]);
    found := Some(k);
    db.PutQuote(k, Answered(db.quotes[k], answer));
    o := Ok(k);
  }
}

=== FILE: invoice.dfy ===
/** The invoice document: its schema bounds, `calculateTotals` and the overdue virtuals. */
module InvoiceModel {
  import opened Common
  import opened LineItems

  const Draft := "draft"
  const Sent := "sent"
  const Viewed := "viewed"
  const Paid := "paid"

  /** The stored document amounts. */
  datatype Amounts = Amounts(
    subtotal: real,
    itemTaxTotal: real,
    taxTotal: real,
    discountAmount: real,
    discountPercent: real,
    total: real,
    paid: real,
    balance: real)

  const NoAmounts := Amounts(0.0, 0.0, 0.0, 0.0, 0.0, 0.0, 0.0, 0.0)

  /** An invoice. `number` is `invoiceNumber` ('' while unnumbered); `urlKey` is the
      public key of the guest link; `series` is the `invoiceGroup` reference; `sign` is
      -1 on a credit note. */
  datatype Invoice = Invoice(
    client: Id,
    series: Id,
    number: string,
    urlKey: string,
    status: string,
    isReadOnly: bool,
    password: string,
    created: Time,
    due: Time,
    items: seq<LineItem>,
    amounts: Amounts,
    taxRates: seq<DocTaxRate>,
    terms: string,
    paymentMethod: Option<Id>,
    sign: int,
    creditParent: Option<Id>,
    quote: Option<Id>)

  predicate ValidStatus(s: string) {
    s == Draft || s == Sent || s == Viewed || s == Paid
  }

  /** What the schema validators check on save: every item is valid, the status is one
      of the four enumerated values, and the sign is 1 or -1. */
  predicate Valid(inv: Invoice) {
    ValidItems(inv.items) && ValidStatus(inv.status) && (inv.sign == 1 || inv.sign == -1)
  }

  function Abs(x: real): (r: real)
    ensures r >= 0.0 && (r == x || r == -x)
  {
    if x < 0.0 then -x else x
  }

  /** The signed total before `Math.abs`: the gross figure multiplied by the sign. */
  function SignedTotal(inv: Invoice): real {
    Gross(inv.items, inv.taxRates, inv.amounts.discountPercent, inv.amounts.discountAmount) * inv.sign as real
  }

  /** The fields `calculateTotals` writes, given the priced items, the three sums and
      the signed total: the total and the balance are stored as absolute values. */
  function WithTotals(inv: Invoice, items: seq<LineItem>, subtotal: real, itemTaxTotal: real,
                      taxTotal: real, signedTotal: real): Invoice {
    inv.(items := items,
         amounts := inv.amounts.(
           subtotal := subtotal,
           itemTaxTotal := itemTaxTotal,
           taxTotal := taxTotal,
           total := Abs(signedTotal),
           balance := Abs(signedTotal - inv.amounts.paid)))
  }

  /** The invoice as `calculateTotals` leaves it. */
  function Totals(inv: Invoice): Invoice {
    WithTotals(inv, Priced(inv.items), SubtotalOf(inv.items), ItemTaxOf(inv.items),
               TaxRatesTotal(inv.taxRates), SignedTotal(inv))
  }

  /** `invoice.calculateTotals()`: prices every item, then writes the subtotal, the
      item-tax total, the tax-rate total, and the absolute values of the signed total
      and of the signed total less what was paid. */
  method CalculateTotals(inv: Invoice) returns (r: Invoice)
    ensures r == Totals(inv)
  {
    var items, subtotal, itemTaxTotal := PriceItems(inv.items);
    var discounted := ApplyDiscount(subtotal, inv.amounts.discountPercent, inv.amounts.discountAmount);
    var globalTaxTotal := SumTaxRates(inv.taxRates);
    var gross := discounted + itemTaxTotal + globalTaxTotal;
    assert gross == Gross(inv.items, inv.taxRates, inv.amounts.discountPercent, inv.amounts.discountAmount);
    var total := gross * inv.sign as real;
    assert total == SignedTotal(inv);
    r := WithTotals(inv, items, subtotal, itemTaxTotal, globalTaxTotal, total);
  }

  /** What `calculateTotals` promises for the items: each one carries its own amounts,
      subtotal quantity times price, discount its discountAmount, tax the taxable
      amount at its rate, total taxable amount plus tax. */
  lemma TotalsItems(inv: Invoice)
    ensures |Totals(inv).items| == |inv.items|
    ensures forall i :: 0 <= i < |inv.items| ==>
      var a := Totals(inv).items[i].amounts;
      a.subtotal == inv.items[i].quantity * inv.items[i].price &&
      a.discount == inv.items[i].discountAmount &&
      a.tax == (a.subtotal - a.discount) * (inv.items[i].taxRatePercent / 100.0) &&
      a.total == a.subtotal - a.discount + a.tax
  {
  }

  /** What `calculateTotals` promises for the document: the subtotal is the sum of the
      stored item subtotals, the tax total the sum of the tax-rate entries, the total the
      absolute value of the signed gross (so never negative), and the balance the
      absolute difference between the signed total and what was paid. */
  lemma TotalsDocument(inv: Invoice)
    ensures var r := Totals(inv);
      r.amounts.subtotal == StoredSubtotalSum(r.items) &&
      r.amounts.taxTotal == TaxRatesTotal(inv.taxRates) &&
      r.amounts.total >= 0.0 && r.amounts.balance >= 0.0 &&
      (r.amounts.total == SignedTotal(inv) || r.amounts.total == -SignedTotal(inv)) &&
      (r.amounts.balance == SignedTotal(inv) - inv.amounts.paid || r.amounts.balance == inv.amounts.paid - SignedTotal(inv))
  {
    StoredSubtotalsMatch(inv.items);
  }

  /** `calculateTotals` neither makes a document valid nor invalid: the validators do
      not look at the amounts it writes. */
  lemma TotalsKeepsValid(inv: Invoice)
    ensures Valid(Totals(inv)) <==> Valid(inv)
  {
  }

  /** For an ordinary invoice (sign 1) the signed total is the gross figure itself. */
  lemma SignedTotalOfOrdinary(inv: Invoice)
    ensures inv.sign == 1 ==> SignedTotal(inv) == Gross(inv.items, inv.taxRates, inv.amounts.discountPercent, inv.amounts.discountAmount)
    ensures inv.sign == -1 ==> SignedTotal(inv) == -Gross(inv.items, inv.taxRates, inv.amounts.discountPercent, inv.amounts.discountAmount)
  {
  }

  /** `calculateTotals` writes only the items' amounts and the five computed document
      amounts: `paid`, both discounts and every other field are left as they were. */
  lemma TotalsFrame(inv: Invoice)
    ensures var r := Totals(inv);
      r.amounts.paid == inv.amounts.paid &&
      r.amounts.discountPercent == inv.amounts.discountPercent &&
      r.amounts.discountAmount == inv.amounts.discountAmount &&
      r.(items := inv.items, amounts := inv.amounts) == inv &&
      forall i :: 0 <= i < |inv.items| ==> r.items[i].(amounts := inv.items[i].amounts) == inv.items[i]
  {
  }

  /** The signed total depends only on the items' prices, the tax-rate entries, the
      discounts and the sign. */
  lemma SignedTotalOfSameInputs(a: Invoice, b: Invoice)
    requires Gross(a.items, a.taxRates, a.amounts.discountPercent, a.amounts.discountAmount)
          == Gross(b.items, b.taxRates, b.amounts.discountPercent, b.amounts.discountAmount)
    requires a.sign == b.sign
    ensures SignedTotal(a) == SignedTotal(b)
  {
  }

  /** Recalculating an already calculated invoice changes nothing. */
  lemma TotalsIdempotent(inv: Invoice)
    ensures Totals(Totals(inv)) == Totals(inv)
  {
    var t := Totals(inv);
    PricedIdempotent(inv.items);
    assert Gross(t.items, t.taxRates, t.amounts.discountPercent, t.amounts.discountAmount)
        == Gross(inv.items, inv.taxRates, inv.amounts.discountPercent, inv.amounts.discountAmount);
    SignedTotalOfSameInputs(t, inv);
    assert Totals(t).items == t.items;
    assert Totals(t).amounts == t.amounts;
  }

  /** A credit note and its positive twin have the same (absolute) total. */
  lemma SignDoesNotChangeTotal(inv: Invoice)
    requires inv.sign == -1
    ensures Totals(inv).amounts.total == Totals(inv.(sign := 1)).amounts.total
  {
  }

  /** The `isOverdue` virtual: never for a paid or draft invoice, otherwise once now is
      past the due date. */
  predicate IsOverdue(inv: Invoice, now: Time) {
    if inv.status == Paid || inv.status == Draft then false else now > inv.due
  }

  /** The `daysOverdue` virtual: whole days elapsed since the due date when overdue. */
  function DaysOverdue(inv: Invoice, now: Time): (d: int)
    ensures d >= 0
    ensures !IsOverdue(inv, now) ==> d == 0
    ensures IsOverdue(inv, now) ==> d * MsPerDay <= now - inv.due < (d + 1) * MsPerDay
  {
    if !IsOverdue(inv, now) then 0 else (now - inv.due) / MsPerDay
  }
}

=== FILE: invoice_controller.dfy ===
/** The invoice request handlers: create, update, delete, mark as sent, copy, credit,
    and the three item handlers. Each handler is one atomic step over the database; the
    clock (`now`, and the `year` and `month` a number is generated for), the new guest
    key (`urlKey`), the setting values (`cfg`) and the tax-rate table (`rates`) are
    parameters. */
module InvoiceController {
  import opened Common
  import opened LineItems
  import opened InvoiceModel
  import SeriesModel
  import opened AppConfig
  import opened ItemRequests
  import TaxRateModel
  import opened Database

  /** The `amounts` object of a request body: the fields a handler lets through. */
  datatype AmountsInput = AmountsInput(discountPercent: Option<real>, discountAmount: Option<real>, paid: Option<real>)

  /** The fields of a request body other than `items`; absent ones are `None`. */
  datatype InvoiceFields = InvoiceFields(
    client: Option<Id>,
    series: Option<Id>,
    number: Option<string>,
    status: Option<string>,
    isReadOnly: Option<bool>,
    password: Option<string>,
    created: Option<Time>,
    due: Option<Time>,
    amounts: AmountsInput,
    taxRates: Option<seq<DocTaxRate>>,
    terms: Option<string>,
    paymentMethod: Option<Id>,
    sign: Option<int>,
    urlKey: Option<string>,
    creditParent: Option<Id>,
    quote: Option<Id>)

  const NoFields := InvoiceFields(None, None, None, None, None, None, None, None,
                                  AmountsInput(None, None, None), None, None, None, None, None, None, None)

  /** The body of `createInvoice`: `client`, `invoiceGroup`, `items` and the rest. */
  datatype CreateRequest = CreateRequest(client: Id, series: Id, items: seq<ItemInput>, rest: InvoiceFields)

  /** The body of `updateInvoice`: `items` (when sent) and the rest. */
  datatype UpdateRequest = UpdateRequest(items: Option<seq<ItemInput>>, rest: InvoiceFields)

  /** Writes the fields that were sent: `dates` and `amounts` are merged field by field,
      every other key overwrites the stored value. */
  function ApplyFields(inv: Invoice, f: InvoiceFields): (r: Invoice)
    ensures f == NoFields ==> r == inv
    ensures r.items == inv.items
    ensures r.urlKey == f.urlKey.GetOr(inv.urlKey)
    ensures f.creditParent.Some? ==> r.creditParent == f.creditParent
    ensures f.creditParent.None? ==> r.creditParent == inv.creditParent
    ensures f.quote.Some? ==> r.quote == f.quote
    ensures f.quote.None? ==> r.quote == inv.quote
  {
    inv.(client := f.client.GetOr(inv.client),
         series := f.series.GetOr(inv.series),
         number := f.number.GetOr(inv.number),
         status := f.status.GetOr(inv.status),
         isReadOnly := f.isReadOnly.GetOr(inv.isReadOnly),
         password := f.password.GetOr(inv.password),
         created := f.created.GetOr(inv.created),
         due := f.due.GetOr(inv.due),
         amounts := inv.amounts.(discountPercent := f.amounts.discountPercent.GetOr(inv.amounts.discountPercent),
                                 discountAmount := f.amounts.discountAmount.GetOr(inv.amounts.discountAmount),
                                 paid := f.amounts.paid.GetOr(inv.amounts.paid)),
         taxRates := f.taxRates.GetOr(inv.taxRates),
         terms := f.terms.GetOr(inv.terms),
         paymentMethod := if f.paymentMethod.Some? then f.paymentMethod else inv.paymentMethod,
         sign := f.sign.GetOr(inv.sign),
         urlKey := f.urlKey.GetOr(inv.urlKey),
         creditParent := if f.creditParent.Some? then f.creditParent else inv.creditParent,
         quote := if f.quote.Some? then f.quote else inv.quote)
  }

  /** Whether `createInvoice` numbers the invoice: when drafts are numbered, or when the
      status sent is not literally 'draft' (an absent status counts). */
  predicate AllocatesNumber(generateForDraft: bool, status: Option<string>) {
    generateForDraft || status != Some(Draft)
  }

  /** The document `createInvoice` builds before `calculateTotals`: the fields sent over
      the schema defaults, with the request's client and series, the allocated number,
      the processed items and the two dates. `key` is the invoice's own key; its items
      take the keys after it. */
  function Drafted(cfg: Config, rates: map<Id, TaxRateModel.TaxRate>, req: CreateRequest, now: Time,
                   urlKey: string, number: string, key: Id): Invoice
  {
    var f := req.rest;
    var created := f.created.GetOr(now);
    Invoice(req.client, req.series, number, f.urlKey.GetOr(urlKey), f.status.GetOr(Draft), f.isReadOnly.GetOr(false),
            f.password.GetOr(""), created, f.due.GetOr(AddDays(created, cfg.invoicesDueAfter)),
            ProcessItems(req.items, key + 1, rates),
            NoAmounts.(discountPercent := f.amounts.discountPercent.GetOr(0.0),
                       discountAmount := f.amounts.discountAmount.GetOr(0.0),
                       paid := f.amounts.paid.GetOr(0.0)),
            f.taxRates.GetOr([]), f.terms.GetOr(""), f.paymentMethod, f.sign.GetOr(1),
            f.creditParent, f.quote)
  }

  /** The configured default tax rate, pushed with amount 0 onto an invoice that has no
      tax-rate entry. */
  function WithDefaultTaxRate(inv: Invoice, cfg: Config): Invoice {
    if cfg.defaultInvoiceTaxRate.Some? && |inv.taxRates| == 0
    then inv.(taxRates := inv.taxRates + [DocTaxRate(cfg.defaultInvoiceTaxRate.value, false, 0.0)])
    else inv
  }

  /** The invoice `createInvoice` saves. */
  function NewInvoice(cfg: Config, rates: map<Id, TaxRateModel.TaxRate>, req: CreateRequest, now: Time,
                      urlKey: string, number: string, key: Id): Invoice
  {
    WithDefaultTaxRate(Totals(Drafted(cfg, rates, req, now, urlKey, number, key)), cfg)
  }

  /** The dates of a new invoice: created as sent or now; due as sent or created plus
      the configured number of days. Its guest key is the one sent, or else the fresh
      one. */
  lemma NewInvoiceDates(cfg: Config, rates: map<Id, TaxRateModel.TaxRate>, req: CreateRequest, now: Time,
                        urlKey: string, number: string, key: Id)
    ensures var inv := NewInvoice(cfg, rates, req, now, urlKey, number, key);
      inv.created == req.rest.created.GetOr(now) &&
      (req.rest.due.None? ==> inv.due == AddDays(inv.created, cfg.invoicesDueAfter)) &&
      (req.rest.due.Some? ==> inv.due == req.rest.due.value) &&
      (req.rest.due.None? && cfg.invoicesDueAfter >= 0 ==> inv.due >= inv.created) &&
      inv.urlKey == req.rest.urlKey.GetOr(urlKey)
  {
  }

  /** The items of a new invoice are the request's items, processed and priced. */
  lemma NewInvoiceItems(cfg: Config, rates: map<Id, TaxRateModel.TaxRate>, req: CreateRequest, now: Time,
                        urlKey: string, number: string, key: Id)
    ensures var inv := NewInvoice(cfg, rates, req, now, urlKey, number, key);
      |inv.items| == |req.items| &&
      forall i :: 0 <= i < |req.items| ==>
        inv.items[i].id == key + 1 + i &&
        inv.items[i].order == req.items[i].order.GetOr(i) &&
        inv.items[i].taxRatePercent == LookupPercent(req.items[i].taxRate, rates) &&
        inv.items[i].amounts == CalculateAmounts(inv.items[i])
  {
    var inv := NewInvoice(cfg, rates, req, now, urlKey, number, key);
    assert inv.items == Priced(ProcessItems(req.items, key + 1, rates));
    PricedProcessedItems(req.items, key + 1, rates);
  }

  /** The default tax rate is added exactly when one is configured and the request sent
      no tax-rate entry; it carries amount 0, so the stored tax total is still the sum of
      the stored entries and the computed total is unaffected. */
  lemma NewInvoiceDefaultTaxRate(cfg: Config, rates: map<Id, TaxRateModel.TaxRate>, req: CreateRequest, now: Time,
                                 urlKey: string, number: string, key: Id)
    ensures var inv := NewInvoice(cfg, rates, req, now, urlKey, number, key);
      var t := Totals(Drafted(cfg, rates, req, now, urlKey, number, key));
      inv.amounts == t.amounts &&
      inv.amounts.taxTotal == TaxRatesTotal(inv.taxRates) &&
      (cfg.defaultInvoiceTaxRate.Some? && req.rest.taxRates.GetOr([]) == [] ==>
        inv.taxRates == [DocTaxRate(cfg.defaultInvoiceTaxRate.value, false, 0.0)]) &&
      (cfg.defaultInvoiceTaxRate.None? || req.rest.taxRates.GetOr([]) != [] ==>
        inv.taxRates == req.rest.taxRates.GetOr([]))
  {
    var t := Totals(Drafted(cfg, rates, req, now, urlKey, number, key));
    if cfg.defaultInvoiceTaxRate.Some? && |t.taxRates| == 0 {
      var tr := DocTaxRate(cfg.defaultInvoiceTaxRate.value, false, 0.0);
      assert [tr][..0] == [];
      assert TaxRatesTotal([tr]) == TaxRatesTotal([]) + 0.0;
    }
  }

  /** A request without a status is numbered (whatever the draft setting) and yet stored
      as a draft: the schema default applies after the comparison with 'draft'. */
  lemma AbsentStatusIsNumberedDraft(cfg: Config, rates: map<Id, TaxRateModel.TaxRate>, req: CreateRequest, now: Time,
                                    urlKey: string, number: string, key: Id)
    requires req.rest.status.None?
    ensures AllocatesNumber(cfg.generateInvoiceNumberForDraft, req.rest.status)
    ensures NewInvoice(cfg, rates, req, now, urlKey, number, key).status == Draft
  {
  }

  /** `new Invoice(...)`, `calculateTotals()` and the default tax-rate push. */
  method BuildInvoice(cfg: Config, rates: map<Id, TaxRateModel.TaxRate>, req: CreateRequest, now: Time,
                      urlKey: string, number: string, key: Id) returns (inv: Invoice)
    ensures inv == NewInvoice(cfg, rates, req, now, urlKey, number, key)
  {
    inv := CalculateTotals(Drafted(cfg, rates, req, now, urlKey, number, key));
    if cfg.defaultInvoiceTaxRate.Some? && |inv.taxRates| == 0 {
      inv := inv.(taxRates := inv.taxRates + [DocTaxRate(cfg.defaultInvoiceTaxRate.value, false, 0.0)]);
    }
  }

  /** The part of `createInvoice` after the series is found: number, fresh keys, totals,
      default tax rate, validation, save. The counter advances even when validation then
      fails. */
  method StoreNewInvoice(db: Db, cfg: Config, rates: map<Id, TaxRateModel.TaxRate>, req: CreateRequest,
                         now: Time, year: int, month: int, urlKey: string) returns (o: Outcome<Id>)
    requires db.Valid() && req.series in db.series && 1 <= month <= 12
    modifies db`invoices, db`series, db`nextKey
    ensures db.Valid()
    ensures
      var numbered := AllocatesNumber(cfg.generateInvoiceNumberForDraft, req.rest.status);
      var number := if numbered then SeriesModel.GenerateNumber(old(db.series)[req.series], year, month) else "";
      var id := old(db.nextKey);
      var inv := NewInvoice(cfg, rates, req, now, urlKey, number, id);
      db.series == (if numbered then old(db.series)[req.series := SeriesModel.Incremented(old(db.series)[req.series])]
                    else old(db.series)) &&
      db.nextKey == id + 1 + |req.items| &&
      (Valid(inv) ==> o == Ok(id) && db.invoices == old(db.invoices)[id := inv]) &&
      (!Valid(inv) ==> o == Fail(ValidationError) && db.invoices == old(db.invoices))
  {
    var numbered := AllocatesNumber(cfg.generateInvoiceNumberForDraft, req.rest.status);
    var number := db.TakeNumberIf(numbered, req.series, year, month);
    var id := db.NewKeys(1 + |req.items|);
    var inv := BuildInvoice(cfg, rates, req, now, urlKey, number, id);
    o := db.SaveInvoice(id, inv);
  }

  /** `createInvoice`: 400 for an unknown series, before anything is written. */
  method CreateInvoice(db: Db, cfg: Config, rates: map<Id, TaxRateModel.TaxRate>, req: CreateRequest,
                       now: Time, year: int, month: int, urlKey: string) returns (o: Outcome<Id>)
    requires db.Valid() && 1 <= month <= 12
    modifies db`invoices, db`series, db`nextKey
    ensures db.Valid()
    ensures req.series !in old(db.series) ==> o == Fail(BadRequest) && unchanged(db)
    ensures req.series in old(db.series) ==>
      var numbered := AllocatesNumber(cfg.generateInvoiceNumberForDraft, req.rest.status);
      var number := if numbered then SeriesModel.GenerateNumber(old(db.series)[req.series], year, month) else "";
      var id := old(db.nextKey);
      var inv := NewInvoice(cfg, rates, req, now, urlKey, number, id);
      db.series == (if numbered then old(db.series)[req.series := SeriesModel.Incremented(old(db.series)[req.series])]
                    else old(db.series)) &&
      db.nextKey == id + 1 + |req.items| &&
      (Valid(inv) ==> o == Ok(id) && db.invoices == old(db.invoices)[id := inv]) &&
      (!Valid(inv) ==> o == Fail(ValidationError) && db.invoices == old(db.invoices))
  {
    if req.series !in db.series {
      return Fail(BadRequest);
    }
    o := StoreNewInvoice(db, cfg, rates, req, now, year, month, urlKey);
  }

  /** The invoice `updateInvoice` saves: the items replaced when sent, then the other
      fields written, then the totals recalculated. */
  function Updated(inv: Invoice, req: UpdateRequest, rates: map<Id, TaxRateModel.TaxRate>, firstItemId: Id): Invoice {
    var withItems := if req.items.Some? then inv.(items := ProcessItems(req.items.value, firstItemId, rates)) else inv;
    Totals(ApplyFields(withItems, req.rest))
  }

  /** An update that sends nothing only recalculates; the fields that were not sent keep
      their values, and the totals are always those `calculateTotals` computes. */
  lemma UpdatedKeepsUnsentFields(inv: Invoice, req: UpdateRequest, rates: map<Id, TaxRateModel.TaxRate>, firstItemId: Id)
    ensures req == UpdateRequest(None, NoFields) ==> Updated(inv, req, rates, firstItemId) == Totals(inv)
    ensures var r := Updated(inv, req, rates, firstItemId);
      (req.rest.status.None? ==> r.status == inv.status) &&
      (req.rest.number.None? ==> r.number == inv.number) &&
      (req.rest.sign.None? ==> r.sign == inv.sign) &&
      (req.rest.amounts.paid.None? ==> r.amounts.paid == inv.amounts.paid) &&
      (req.items.None? ==> |r.items| == |inv.items|) &&
      (req.rest.urlKey.None? ==> r.urlKey == inv.urlKey) &&
      (req.rest.creditParent.None? ==> r.creditParent == inv.creditParent) &&
      (req.rest.quote.None? ==> r.quote == inv.quote)
  {
  }

  /** The number of fresh item ids an update needs. */
  function ItemCount(items: Option<seq<ItemInput>>): nat {
    if items.Some? then |items.value| else 0
  }

  /** `updateInvoice`: refused for an unknown or a read-only invoice. */
  method UpdateInvoice(db: Db, rates: map<Id, TaxRateModel.TaxRate>, id: Id, req: UpdateRequest) returns (o: Outcome<Id>)
    requires db.Valid()
    modifies db`invoices, db`nextKey
    ensures db.Valid()
    ensures id !in old(db.invoices) ==> o == Fail(NotFound) && unchanged(db)
    ensures id in old(db.invoices) && old(db.invoices)[id].isReadOnly ==> o == Fail(Forbidden) && unchanged(db)
    ensures id in old(db.invoices) && !old(db.invoices)[id].isReadOnly ==>
      var inv := Updated(old(db.invoices)[id], req, rates, old(db.nextKey));
      db.nextKey == old(db.nextKey) + ItemCount(req.items) &&
      (Valid(inv) ==> o == Ok(id) && db.invoices == old(db.invoices)[id := inv]) &&
      (!Valid(inv) ==> o == Fail(ValidationError) && db.invoices == old(db.invoices))
  {
    if id !in db.invoices {
      return Fail(NotFound);
    }
    var inv := db.invoices[id];
    if inv.isReadOnly {
      return Fail(Forbidden);
    }
    var first := db.NewKeys(ItemCount(req.items));
    if req.items.Some? {
      inv := inv.(items := ProcessItems(req.items.value, first, rates));
    }
    inv := ApplyFields(inv, req.rest);
    inv := CalculateTotals(inv);
    if !Valid(inv) {
      return Fail(ValidationError);
    }
    db.PutInvoice(id, inv);
    o := Ok(id);
  }

  /** `deleteInvoice`: refused while deletion is disabled (before the invoice is even
      looked up), 404 for an unknown invoice. */
  method DeleteInvoice(db: Db, cfg: Config, id: Id) returns (o: Outcome<Id>)
    requires db.Valid()
    modifies db`invoices
    ensures db.Valid()
    ensures !cfg.enableInvoiceDeletion ==> o == Fail(Forbidden) && unchanged(db)
    ensures cfg.enableInvoiceDeletion && id !in old(db.invoices) ==> o == Fail(NotFound) && unchanged(db)
    ensures cfg.enableInvoiceDeletion && id in old(db.invoices) ==> o == Ok(id) && db.invoices == old(db.invoices) - {id}
  {
    if !cfg.enableInvoiceDeletion {
      return Fail(Forbidden);
    }
    if id !in db.invoices {
      return Fail(NotFound);
    }
    db.invoices := db.invoices - {id};
    o := Ok(id);
  }

  /** The invoice `markAsSent` saves, given the number it ends up with. */
  function MarkedSent(inv: Invoice, number: string, cfg: Config): Invoice {
    inv.(number := number, status := Sent, isReadOnly := if cfg.readOnlyToggle == 2 then true else inv.isReadOnly)
  }

  /** Sending keeps an invoice valid, leaves its items and amounts alone, and makes it
      read-only only under toggle 2. */
  lemma MarkedSentSpec(inv: Invoice, number: string, cfg: Config)
    requires Valid(inv)
    ensures var r := MarkedSent(inv, number, cfg);
      Valid(r) && r.status == Sent && r.items == inv.items && r.amounts == inv.amounts &&
      (r.isReadOnly <==> inv.isReadOnly || cfg.readOnlyToggle == 2)
  {
  }

  /** `markAsSent`: numbers the invoice only when it has no number; a missing series is
      then an exception (nothing is written). */
  method MarkAsSent(db: Db, cfg: Config, id: Id, year: int, month: int) returns (o: Outcome<Id>)
    requires db.Valid() && 1 <= month <= 12
    modifies db`invoices, db`series
    ensures db.Valid()
    ensures id !in old(db.invoices) ==> o == Fail(NotFound) && unchanged(db)
    ensures id in old(db.invoices) && old(db.invoices)[id].number == "" && old(db.invoices)[id].series !in old(db.series) ==>
      o == Fail(ServerError) && unchanged(db)
    ensures id in old(db.invoices) && old(db.invoices)[id].number == "" && old(db.invoices)[id].series in old(db.series) ==>
      var inv := old(db.invoices)[id];
      o == Ok(id) &&
      db.series == old(db.series)[inv.series := SeriesModel.Incremented(old(db.series)[inv.series])] &&
      db.invoices == old(db.invoices)[id := MarkedSent(inv, SeriesModel.GenerateNumber(old(db.series)[inv.series], year, month), cfg)]
    ensures id in old(db.invoices) && old(db.invoices)[id].number != "" ==>
      o == Ok(id) && db.series == old(db.series) &&
      db.invoices == old(db.invoices)[id := MarkedSent(old(db.invoices)[id], old(db.invoices)[id].number, cfg)]
  {
    if id !in db.invoices {
      return Fail(NotFound);
    }
    var inv := db.invoices[id];
    var number := inv.number;
    if number == "" {
      if inv.series !in db.series {
        return Fail(ServerError);
      }
      number := db.TakeNumber(inv.series, year, month);
    }
    var sent := inv.(number := number, status := Sent);
    if cfg.readOnlyToggle == 2 {
      sent := sent.(isReadOnly := true);
    }
    MarkedSentSpec(inv, number, cfg);
    db.PutInvoice(id, sent);
    o := Ok(id);
  }

  /** The copy `copyInvoice` saves: a draft, not read-only, with fresh item ids, the
      source's amounts except paid 0 and balance equal to the source total, and the
      source's terms and payment method. Sign, credit parent, quote and password are not
      copied, and the totals are not recalculated. The items take the keys after `key`,
      the copy's own. */
  function Copied(src: Invoice, number: string, now: Time, due: Time, urlKey: string, key: Id): Invoice {
    Invoice(src.client, src.series, number, urlKey, Draft, false, "", now, due,
            ItemRequests.Reidentified(src.items, key + 1),
            src.amounts.(paid := 0.0, balance := src.amounts.total),
            src.taxRates, src.terms, src.paymentMethod, 1, None, None)
  }

  /** A copy of a valid invoice is valid, a draft, not read-only, owes the source's total
      and has the source's items apart from their ids. */
  lemma CopiedSpec(src: Invoice, number: string, now: Time, due: Time, urlKey: string, key: Id)
    requires Valid(src)
    ensures var c := Copied(src, number, now, due, urlKey, key);
      Valid(c) && c.status == Draft && !c.isReadOnly &&
      c.amounts.paid == 0.0 && c.amounts.balance == src.amounts.total && c.amounts.total == src.amounts.total &&
      |c.items| == |src.items| &&
      (forall i :: 0 <= i < |src.items| ==> c.items[i].(id := src.items[i].id) == src.items[i]) &&
      c.taxRates == src.taxRates && c.sign == 1
  {
  }

  /** The part of `copyInvoice` after the lookups: number (when drafts are numbered),
      fresh keys, save. */
  method StoreCopy(db: Db, cfg: Config, src: Invoice, now: Time, year: int, month: int, urlKey: string) returns (newId: Id)
    requires db.Valid() && Valid(src) && 1 <= month <= 12
    requires cfg.generateInvoiceNumberForDraft ==> src.series in db.series
    modifies db`invoices, db`series, db`nextKey
    ensures db.Valid()
    ensures
      var number := if cfg.generateInvoiceNumberForDraft then SeriesModel.GenerateNumber(old(db.series)[src.series], year, month) else "";
      newId == old(db.nextKey) &&
      db.series == (if cfg.generateInvoiceNumberForDraft
                    then old(db.series)[src.series := SeriesModel.Incremented(old(db.series)[src.series])]
                    else old(db.series)) &&
      db.nextKey == newId + 1 + |src.items| &&
      db.invoices == old(db.invoices)[newId := Copied(src, number, now, AddDays(now, cfg.invoicesDueAfter), urlKey, newId)]
  {
    var number := "";
    if cfg.generateInvoiceNumberForDraft {
      number := db.TakeNumber(src.series, year, month);
    }
    var due := AddDays(now, cfg.invoicesDueAfter);
    newId := db.NewKeys(1 + |src.items|);
    var copy := Copied(src, number, now, due, urlKey, newId);
    CopiedSpec(src, number, now, due, urlKey, newId);
    db.PutInvoice(newId, copy);
  }

  /** `copyInvoice`: 404 for an unknown invoice; when the copy is to be numbered, a
      missing series is an exception with nothing written. The due date is now plus the
      configured days. */
  method CopyInvoice(db: Db, cfg: Config, id: Id, now: Time, year: int, month: int, urlKey: string) returns (o: Outcome<Id>)
    requires db.Valid() && 1 <= month <= 12
    modifies db`invoices, db`series, db`nextKey
    ensures db.Valid()
    ensures id !in old(db.invoices) ==> o == Fail(NotFound) && unchanged(db)
    ensures id in old(db.invoices) && cfg.generateInvoiceNumberForDraft && old(db.invoices)[id].series !in old(db.series) ==>
      o == Fail(ServerError) && unchanged(db)
    ensures id in old(db.invoices) && (!cfg.generateInvoiceNumberForDraft || old(db.invoices)[id].series in old(db.series)) ==>
      var src := old(db.invoices)[id];
      var number := if cfg.generateInvoiceNumberForDraft then SeriesModel.GenerateNumber(old(db.series)[src.series], year, month) else "";
      var newId := old(db.nextKey);
      o == Ok(newId) &&
      db.series == (if cfg.generateInvoiceNumberForDraft
                    then old(db.series)[src.series := SeriesModel.Incremented(old(db.series)[src.series])]
                    else old(db.series)) &&
      db.nextKey == newId + 1 + |src.items| &&
      db.invoices == old(db.invoices)[newId := Copied(src, number, now, AddDays(now, cfg.invoicesDueAfter), urlKey, newId)]
  {
    if id !in db.invoices {
      return Fail(NotFound);
    }
    var src := db.invoices[id];
    if cfg.generateInvoiceNumberForDraft && src.series !in db.series {
      return Fail(ServerError);
    }
    var newId := StoreCopy(db, cfg, src, now, year, month, urlKey);
    o := Ok(newId);
  }

  /** The item with its quantity made `-Math.abs(quantity)`. */
  function NegatedItem(it: LineItem): LineItem {
    it.(quantity := -Abs(it.quantity))
  }

  /** The tax-rate entry with its amount made `-Math.abs(amount)`. */
  function NegatedTaxRate(tr: DocTaxRate): DocTaxRate {
    tr.(amount := -Abs(tr.amount))
  }

  /** The credit note `createCreditInvoice` builds before `calculateTotals`: sign -1, the
      source as parent, fresh item ids, every quantity and every tax amount made
      non-positive, the source's terms, default amounts (so no discount), created and
      due now. The items take the keys after `key`, the credit note's own. */
  function CreditDraft(src: Invoice, srcId: Id, number: string, now: Time, urlKey: string, key: Id): Invoice {
    var items := ItemRequests.Reidentified(src.items, key + 1);
    Invoice(src.client, src.series, number, urlKey, Draft, false, "", now, now,
            seq(|items|, i requires 0 <= i < |items| => NegatedItem(items[i])),
            NoAmounts,
            seq(|src.taxRates|, i requires 0 <= i < |src.taxRates| => NegatedTaxRate(src.taxRates[i])),
            src.terms, None, -1, Some(srcId), None)
  }

  /** The credit note as `calculateTotals` leaves it. */
  function CreditNote(src: Invoice, srcId: Id, number: string, now: Time, urlKey: string, key: Id): Invoice {
    Totals(CreditDraft(src, srcId, number, now, urlKey, key))
  }

  /** What the credit note is: a draft with sign -1 pointing at its source, one item per
      source item with quantity -|q|, one entry per tax-rate entry with amount -|a|. */
  lemma CreditNoteSpec(src: Invoice, srcId: Id, number: string, now: Time, urlKey: string, key: Id)
    ensures var c := CreditNote(src, srcId, number, now, urlKey, key);
      c.sign == -1 && c.creditParent == Some(srcId) && c.status == Draft && c.number == number &&
      |c.items| == |src.items| &&
      (forall i :: 0 <= i < |src.items| ==> c.items[i].quantity == -Abs(src.items[i].quantity) && c.items[i].quantity <= 0.0) &&
      |c.taxRates| == |src.taxRates| &&
      (forall i :: 0 <= i < |src.taxRates| ==> c.taxRates[i].amount == -Abs(src.taxRates[i].amount)) &&
      c.amounts.total >= 0.0 && c.amounts.paid == 0.0
  {
    TotalsDocument(CreditDraft(src, srcId, number, now, urlKey, key));
  }

  /** As written, a credit note of an invoice with items never passes the item schema:
      its first item's quantity is at most 0, below the 0.01 minimum. */
  lemma CreditNoteWithItemsIsRejected(src: Invoice, srcId: Id, number: string, now: Time, urlKey: string, key: Id)
    requires |src.items| > 0
    ensures !Valid(CreditNote(src, srcId, number, now, urlKey, key))
  {
    var c := CreditNote(src, srcId, number, now, urlKey, key);
    CreditNoteSpec(src, srcId, number, now, urlKey, key);
    assert !ValidItem(c.items[0]);
  }

  /** The worked example: crediting one item of quantity 2 at price 100 with a 10 percent
      rate gives an item total of -220 and a document total of 220. */
  lemma CreditNoteExample(now: Time, urlKey: string)
    ensures var item := LineItem(1, "Widget", "", 2.0, 100.0, 0.0, Some(7), 10.0, 0, NoItemAmounts);
      var src := Invoice(3, 4, "INV-1", "k", Sent, false, "", 0, 0, [item], NoAmounts, [], "", None, 1, None, None);
      var c := CreditNote(src, 5, "INV-2", now, urlKey, 10);
      c.items[0].amounts.total == -220.0 && c.amounts.total == 220.0
  {
    var item := LineItem(1, "Widget", "", 2.0, 100.0, 0.0, Some(7), 10.0, 0, NoItemAmounts);
    var src := Invoice(3, 4, "INV-1", "k", Sent, false, "", 0, 0, [item], NoAmounts, [], "", None, 1, None, None);
    var d := CreditDraft(src, 5, "INV-2", now, urlKey, 10);
    assert d.items[0].quantity == -2.0;
    assert d.items == [d.items[0]];
    assert d.items[..0] == [];
    assert CalculateAmounts(d.items[0]) == ItemAmounts(-200.0, 0.0, -20.0, -220.0);
    assert SubtotalOf(d.items) == -200.0;
    assert ItemTaxOf(d.items) == -20.0;
    assert SignedTotal(d) == 220.0;
  }

  /** The part of `createCreditInvoice` after the number is taken: fresh keys, totals,
      validation, save. */
  method SaveCreditNote(db: Db, src: Invoice, srcId: Id, number: string, now: Time, urlKey: string) returns (o: Outcome<Id>)
    requires db.Valid()
    modifies db`invoices, db`nextKey
    ensures db.Valid()
    ensures
      var newId := old(db.nextKey);
      var c := CreditNote(src, srcId, number, now, urlKey, newId);
      db.nextKey == newId + 1 + |src.items| &&
      (Valid(c) ==> o == Ok(newId) && db.invoices == old(db.invoices)[newId := c]) &&
      (!Valid(c) ==> o == Fail(ValidationError) && db.invoices == old(db.invoices))
  {
    var newId := db.NewKeys(1 + |src.items|);
    var credit := CalculateTotals(CreditDraft(src, srcId, number, now, urlKey, newId));
    o := db.SaveInvoice(newId, credit);
  }

  /** The part of `createCreditInvoice` after the lookups: number, fresh keys, totals,
      validation, save. The counter advances even when validation then fails. */
  method StoreCreditNote(db: Db, src: Invoice, srcId: Id, now: Time, year: int, month: int, urlKey: string) returns (o: Outcome<Id>)
    requires db.Valid() && src.series in db.series && 1 <= month <= 12
    modifies db`invoices, db`series, db`nextKey
    ensures db.Valid()
    ensures
      var newId := old(db.nextKey);
      var c := CreditNote(src, srcId, SeriesModel.GenerateNumber(old(db.series)[src.series], year, month), now, urlKey, newId);
      db.series == old(db.series)[src.series := SeriesModel.Incremented(old(db.series)[src.series])] &&
      db.nextKey == newId + 1 + |src.items| &&
      (Valid(c) ==> o == Ok(newId) && db.invoices == old(db.invoices)[newId := c]) &&
      (!Valid(c) ==> o == Fail(ValidationError) && db.invoices == old(db.invoices))
  {
    var number := db.TakeNumber(src.series, year, month);
    o := SaveCreditNote(db, src, srcId, number, now, urlKey);
  }

  /** `createCreditInvoice`: 404 for an unknown invoice; a missing series is an exception
      with nothing written. */
  method CreateCreditInvoice(db: Db, id: Id, now: Time, year: int, month: int, urlKey: string) returns (o: Outcome<Id>)
    requires db.Valid() && 1 <= month <= 12
    modifies db`invoices, db`series, db`nextKey
    ensures db.Valid()
    ensures id !in old(db.invoices) ==> o == Fail(NotFound) && unchanged(db)
    ensures id in old(db.invoices) && old(db.invoices)[id].series !in old(db.series) ==> o == Fail(ServerError) && unchanged(db)
    ensures id in old(db.invoices) && old(db.invoices)[id].series in old(db.series) ==>
      var src := old(db.invoices)[id];
      var newId := old(db.nextKey);
      var c := CreditNote(src, id, SeriesModel.GenerateNumber(old(db.series)[src.series], year, month), now, urlKey, newId);
      db.series == old(db.series)[src.series := SeriesModel.Incremented(old(db.series)[src.series])] &&
      db.nextKey == newId + 1 + |src.items| &&
      (Valid(c) ==> o == Ok(newId) && db.invoices == old(db.invoices)[newId := c]) &&
      (!Valid(c) ==> o == Fail(ValidationError) && db.invoices == old(db.invoices))
  {
    if id !in db.invoices {
      return Fail(NotFound);
    }
    var src := db.invoices[id];
    if src.series !in db.series {
      return Fail(ServerError);
    }
    o := StoreCreditNote(db, src, id, now, year, month, urlKey);
  }

  /** The invoice `addInvoiceItem` saves. */
  function WithAddedItem(inv: Invoice, input: ItemInput, itemId: Id, rates: map<Id, TaxRateModel.TaxRate>): Invoice {
    Totals(inv.(items := inv.items + [AddedItem(input, itemId, |inv.items|, rates)]))
  }

  /** Adding appends exactly one item, after the existing ones, whose order is the
      previous item count. */
  lemma WithAddedItemSpec(inv: Invoice, input: ItemInput, itemId: Id, rates: map<Id, TaxRateModel.TaxRate>)
    ensures var r := WithAddedItem(inv, input, itemId, rates);
      |r.items| == |inv.items| + 1 &&
      r.items[|inv.items|].order == |inv.items| && r.items[|inv.items|].id == itemId &&
      forall i :: 0 <= i < |inv.items| ==> r.items[i].(amounts := inv.items[i].amounts) == inv.items[i]
  {
  }

  /** `addInvoiceItem`. */
  method AddInvoiceItem(db: Db, rates: map<Id, TaxRateModel.TaxRate>, id: Id, input: ItemInput) returns (o: Outcome<Id>)
    requires db.Valid()
    modifies db`invoices, db`nextKey
    ensures db.Valid()
    ensures id !in old(db.invoices) ==> o == Fail(NotFound) && unchanged(db)
    ensures id in old(db.invoices) && old(db.invoices)[id].isReadOnly ==> o == Fail(Forbidden) && unchanged(db)
    ensures id in old(db.invoices) && !old(db.invoices)[id].isReadOnly ==>
      var inv := WithAddedItem(old(db.invoices)[id], input, old(db.nextKey), rates);
      db.nextKey == old(db.nextKey) + 1 &&
      (Valid(inv) ==> o == Ok(id) && db.invoices == old(db.invoices)[id := inv]) &&
      (!Valid(inv) ==> o == Fail(ValidationError) && db.invoices == old(db.invoices))
  {
    if id !in db.invoices {
      return Fail(NotFound);
    }
    var inv := db.invoices[id];
    if inv.isReadOnly {
      return Fail(Forbidden);
    }
    var itemId := db.NewKeys(1);
    var item := AddedItem(input, itemId, |inv.items|, rates);
    inv := inv.(items := inv.items + [item]);
    inv := CalculateTotals(inv);
    if !Valid(inv) {
      return Fail(ValidationError);
    }
    db.PutInvoice(id, inv);
    o := Ok(id);
  }

  /** `items.findIndex(item => item._id == itemId)`. */
  function FindItem(items: seq<LineItem>, itemId: Id): (r: Option<nat>)
    ensures r.None? ==> forall i :: 0 <= i < |items| ==> items[i].id != itemId
    ensures r.Some? ==> r.value < |items| && items[r.value].id == itemId &&
                        forall i :: 0 <= i < r.value ==> items[i].id != itemId
  {
    if items == [] then None
    else if items[0].id == itemId then Some(0)
    else match FindItem(items[1..], itemId)
      case None => None
      case Some(k) => Some(k + 1)
  }

  /** The invoice `updateInvoiceItem` saves: the item at `index` merged with the update. */
  function WithUpdatedItem(inv: Invoice, index: nat, update: ItemInput, rates: map<Id, TaxRateModel.TaxRate>): Invoice
    requires index < |inv.items|
  {
    Totals(inv.(items := inv.items[index := MergeItem(inv.items[index], update, rates)]))
  }

  /** Updating an item rewrites that item only: every other item keeps its fields. */
  lemma WithUpdatedItemSpec(inv: Invoice, index: nat, update: ItemInput, rates: map<Id, TaxRateModel.TaxRate>)
    requires index < |inv.items|
    ensures var r := WithUpdatedItem(inv, index, update, rates);
      |r.items| == |inv.items| && r.items[index].id == inv.items[index].id &&
      forall i :: 0 <= i < |inv.items| && i != index ==> r.items[i].(amounts := inv.items[i].amounts) == inv.items[i]
  {
  }

  /** `updateInvoiceItem`: 404 for an unknown invoice or an unknown item id. */
  method UpdateInvoiceItem(db: Db, rates: map<Id, TaxRateModel.TaxRate>, id: Id, itemId: Id, update: ItemInput) returns (o: Outcome<Id>)
    requires db.Valid()
    modifies db`invoices
    ensures db.Valid()
    ensures id !in old(db.invoices) ==> o == Fail(NotFound) && unchanged(db)
    ensures id in old(db.invoices) && old(db.invoices)[id].isReadOnly ==> o == Fail(Forbidden) && unchanged(db)
    ensures id in old(db.invoices) && !old(db.invoices)[id].isReadOnly && FindItem(old(db.invoices)[id].items, itemId).None? ==>
      o == Fail(NotFound) && unchanged(db)
    ensures id in old(db.invoices) && !old(db.invoices)[id].isReadOnly && FindItem(old(db.invoices)[id].items, itemId).Some? ==>
      var inv := WithUpdatedItem(old(db.invoices)[id], FindItem(old(db.invoices)[id].items, itemId).value, update, rates);
      (Valid(inv) ==> o == Ok(id) && db.invoices == old(db.invoices)[id := inv]) &&
      (!Valid(inv) ==> o == Fail(ValidationError) && db.invoices == old(db.invoices))
  {
    if id !in db.invoices {
      return Fail(NotFound);
    }
    var inv := db.invoices[id];
    if inv.isReadOnly {
      return Fail(Forbidden);
    }
    var index := FindItem(inv.items, itemId);
    if index.None? {
      return Fail(NotFound);
    }
    var merged := MergeItem(inv.items[index.value], update, rates);
    inv := inv.(items := inv.items[index.value := merged]);
    inv := CalculateTotals(inv);
    if !Valid(inv) {
      return Fail(ValidationError);
    }
    db.PutInvoice(id, inv);
    o := Ok(id);
  }

  /** `items.filter(item => item._id != itemId)`. */
  function WithoutItem(items: seq<LineItem>, itemId: Id): seq<LineItem> {
    Filter(items, (it: LineItem) => it.id != itemId)
  }

  /** Deleting an item removes exactly the items with that id and keeps the others in
      their order; an unknown id leaves the items as they were. Either way a valid
      invoice stays valid. */
  lemma WithoutItemSpec(inv: Invoice, itemId: Id)
    requires Valid(inv)
    ensures var r := WithoutItem(inv.items, itemId);
      (forall it :: it in r <==> it in inv.items && it.id != itemId) &&
      ((forall i :: 0 <= i < |inv.items| ==> inv.items[i].id != itemId) ==> r == inv.items) &&
      Valid(Totals(inv.(items := r)))
  {
    FilterKeepsAll(inv.items, (it: LineItem) => it.id != itemId);
    var r := WithoutItem(inv.items, itemId);
    forall i | 0 <= i < |r| ensures ValidItem(r[i]) {
      assert r[i] in inv.items;
    }
    TotalsKeepsValid(inv.(items := r));
  }

  /** `deleteInvoiceItem`. */
  method DeleteInvoiceItem(db: Db, id: Id, itemId: Id) returns (o: Outcome<Id>)
    requires db.Valid()
    modifies db`invoices
    ensures db.Valid()
    ensures id !in old(db.invoices) ==> o == Fail(NotFound) && unchanged(db)
    ensures id in old(db.invoices) && old(db.invoices)[id].isReadOnly ==> o == Fail(Forbidden) && unchanged(db)
    ensures id in old(db.invoices) && !old(db.invoices)[id].isReadOnly ==>
      var inv := old(db.invoices)[id];
      o == Ok(id) && db.invoices == old(db.invoices)[id := Totals(inv.(items := WithoutItem(inv.items, itemId)))]
  {
    if id !in db.invoices {
      return Fail(NotFound);
    }
    var inv := db.invoices[id];
    if inv.isReadOnly {
      return Fail(Forbidden);
    }
    WithoutItemSpec(inv, itemId);
    inv := inv.(items := WithoutItem(inv.items, itemId));
    inv := CalculateTotals(inv);
    db.PutInvoice(id, inv);
    o := Ok(id);
  }
}

=== FILE: line_items.dfy ===
/** The parts invoices and quotes share: the embedded line item, the document-level
    tax-rate entry, and the item/tax arithmetic of `calculateTotals`. */
module LineItems {
  import opened Common
  import Text

  /** The amounts stored on an item by `calculateAmounts` / `calculateTotals`. */
  datatype ItemAmounts = ItemAmounts(subtotal: real, discount: real, tax: real, total: real)

  const NoItemAmounts := ItemAmounts(0.0, 0.0, 0.0, 0.0)

  /** An embedded line item. `taxRatePercent` is the snapshot of the referenced tax
      rate taken when the item was written. */
  datatype LineItem = LineItem(
    id: Id,
    name: string,
    description: string,
    quantity: real,
    price: real,
    discountAmount: real,
    taxRate: Option<Id>,
    taxRatePercent: real,
    order: int,
    amounts: ItemAmounts)

  /** A document-level tax-rate entry; its `amount` is entered, never computed. */
  datatype DocTaxRate = DocTaxRate(taxRate: Id, includeItemTax: bool, amount: real)

  /** The item schema's validators: a name that is not blank once trimmed, quantity
      and price of at least 0.01, and a non-negative discount. */
  predicate ValidItem(it: LineItem) {
    Text.Trim(it.name) != [] && it.quantity >= 0.01 && it.price >= 0.01 && it.discountAmount >= 0.0
  }

  predicate ValidItems(items: seq<LineItem>) {
    forall i :: 0 <= i < |items| ==> ValidItem(items[i])
  }

  /** `item.calculateAmounts()`: the four amounts of one item. */
  function CalculateAmounts(it: LineItem): (a: ItemAmounts)
  {
    var subtotal := it.quantity * it.price;
    var discount := it.discountAmount;
    var taxable := subtotal - discount;
    var tax := taxable * (it.taxRatePercent / 100.0);
    ItemAmounts(subtotal, discount, tax, taxable + tax)
  }

  /** An item's total is its discounted subtotal scaled by one plus its tax rate; with
      no discount and no tax it is quantity times price. */
  lemma ItemTotalIsGrossedUp(it: LineItem)
    ensures CalculateAmounts(it).total
         == (it.quantity * it.price - it.discountAmount) * (1.0 + it.taxRatePercent / 100.0)
    ensures it.discountAmount == 0.0 && it.taxRatePercent == 0.0 ==>
              CalculateAmounts(it).total == it.quantity * it.price
  {
  }

  /** An item whose discount is no larger than its subtotal and whose tax rate is not
      negative has a non-negative tax, so its total is at least its taxable amount. */
  lemma ItemAmountsBounds(it: LineItem)
    requires it.taxRatePercent >= 0.0
    requires it.discountAmount <= it.quantity * it.price
    ensures CalculateAmounts(it).tax >= 0.0
    ensures CalculateAmounts(it).total >= CalculateAmounts(it).subtotal - CalculateAmounts(it).discount
  {
    NonNegativeProduct(it.quantity * it.price - it.discountAmount, it.taxRatePercent / 100.0);
  }

  /** The product of two amounts of at least 0.01 is at least 0.0001. */
  lemma ProductLowerBound(q: real, p: real)
    requires q >= 0.01 && p >= 0.01
    ensures q * p >= 0.0001
  {
    NonNegativeProduct(q - 0.01, p);
    assert q * p == (q - 0.01) * p + 0.01 * p;
  }

  /** The bounds on quantity and price keep every valid item's subtotal positive. */
  lemma ValidItemSubtotalPositive(it: LineItem)
    requires it.quantity >= 0.01 && it.price >= 0.01
    ensures CalculateAmounts(it).subtotal >= 0.0001
  {
    ProductLowerBound(it.quantity, it.price);
  }

  /** Every item with its amounts recomputed, in the same order. */
  function Priced(items: seq<LineItem>): (r: seq<LineItem>)
    ensures |r| == |items|
    ensures forall i :: 0 <= i < |items| ==> r[i] == items[i].(amounts := CalculateAmounts(items[i]))
  {
    seq(|items|, i requires 0 <= i < |items| => items[i].(amounts := CalculateAmounts(items[i])))
  }

  /** Sum of the item subtotals (quantity times price). */
  function SubtotalOf(items: seq<LineItem>): real {
    if items == [] then 0.0
    else SubtotalOf(items[..|items| - 1]) + CalculateAmounts(items[|items| - 1]).subtotal
  }

  /** Sum of the item taxes. */
  function ItemTaxOf(items: seq<LineItem>): real {
    if items == [] then 0.0
    else ItemTaxOf(items[..|items| - 1]) + CalculateAmounts(items[|items| - 1]).tax
  }

  /** Sum of the document-level tax-rate amounts. */
  function TaxRatesTotal(trs: seq<DocTaxRate>): real {
    if trs == [] then 0.0 else TaxRatesTotal(trs[..|trs| - 1]) + trs[|trs| - 1].amount
  }

  /** The item sums are additive over concatenation of item lists. */
  lemma {:induction false} ItemSumsAppend(a: seq<LineItem>, b: seq<LineItem>)
    ensures SubtotalOf(a + b) == SubtotalOf(a) + SubtotalOf(b)
    ensures ItemTaxOf(a + b) == ItemTaxOf(a) + ItemTaxOf(b)
    decreases |b|
  {
    if b == [] {
      assert a + b == a;
    } else {
      var b' := b[..|b| - 1];
      assert (a + b)[..|a + b| - 1] == a + b';
      ItemSumsAppend(a, b');
    }
  }

  /** Recomputing reads no stored amount, so pricing twice is pricing once and the
      sums do not depend on what was stored before. */
  lemma {:induction false} PricedIdempotent(items: seq<LineItem>)
    ensures Priced(Priced(items)) == Priced(items)
    ensures SubtotalOf(Priced(items)) == SubtotalOf(items)
    ensures ItemTaxOf(Priced(items)) == ItemTaxOf(items)
    decreases |items|
  {
    forall i | 0 <= i < |items| ensures CalculateAmounts(Priced(items)[i]) == CalculateAmounts(items[i]) {
    }
    assert Priced(Priced(items)) == Priced(items);
    if items != [] {
      var init := items[..|items| - 1];
      PricedIdempotent(init);
      assert Priced(items)[..|items| - 1] == Priced(init);
    }
  }

  /** The items' own stored subtotals and taxes, once priced, add up to the sums. */
  function StoredSubtotalSum(items: seq<LineItem>): real {
    if items == [] then 0.0 else StoredSubtotalSum(items[..|items| - 1]) + items[|items| - 1].amounts.subtotal
  }

  lemma {:induction false} StoredSubtotalsMatch(items: seq<LineItem>)
    ensures StoredSubtotalSum(Priced(items)) == SubtotalOf(items)
    decreases |items|
  {
    if items != [] {
      var init := items[..|items| - 1];
      StoredSubtotalsMatch(init);
      assert Priced(items)[..|items| - 1] == Priced(init);
    }
  }

  /** The document discount: `discountPercent` of the subtotal, then the fixed
      `discountAmount`, each only when positive. */
  function DiscountedSubtotal(subtotal: real, discountPercent: real, discountAmount: real): real {
    var afterPercent := if discountPercent > 0.0 then subtotal - subtotal * (discountPercent / 100.0) else subtotal;
    if discountAmount > 0.0 then afterPercent - discountAmount else afterPercent
  }

  /** The document-discount step of `calculateTotals`: the percent is taken off the
      subtotal, then the fixed amount, each only when positive. */
  method ApplyDiscount(subtotal: real, discountPercent: real, discountAmount: real) returns (discounted: real)
    ensures discounted == DiscountedSubtotal(subtotal, discountPercent, discountAmount)
  {
    discounted := subtotal;
    if discountPercent > 0.0 {
      discounted := discounted - subtotal * (discountPercent / 100.0);
    }
    if discountAmount > 0.0 {
      discounted := discounted - discountAmount;
    }
  }

  /** The two discounts in one formula: a non-positive percent or amount counts as 0. */
  lemma DiscountedSubtotalFormula(subtotal: real, discountPercent: real, discountAmount: real)
    ensures DiscountedSubtotal(subtotal, discountPercent, discountAmount) ==
            subtotal - subtotal * PositivePart(discountPercent) / 100.0 - PositivePart(discountAmount)
  {
    if discountPercent > 0.0 {
      assert subtotal * (discountPercent / 100.0) == subtotal * discountPercent / 100.0;
    }
  }

  function PositivePart(x: real): (r: real)
    ensures r >= 0.0 && (r == x || r == 0.0)
  {
    if x > 0.0 then x else 0.0
  }

  lemma NonNegativeProduct(a: real, b: real)
    requires a >= 0.0 && b >= 0.0
    ensures a * b >= 0.0
  {
  }

  /** A non-negative subtotal is never increased by the document discount, and a
      discount of at most 100 percent with no fixed amount leaves it non-negative. */
  lemma DiscountNeverRaises(subtotal: real, discountPercent: real, discountAmount: real)
    requires subtotal >= 0.0
    ensures DiscountedSubtotal(subtotal, discountPercent, discountAmount) <= subtotal
    ensures discountPercent <= 100.0 && discountAmount <= 0.0 ==>
              DiscountedSubtotal(subtotal, discountPercent, discountAmount) >= 0.0
  {
    DiscountedSubtotalFormula(subtotal, discountPercent, discountAmount);
    var p := PositivePart(discountPercent);
    NonNegativeProduct(subtotal, p);
    if discountPercent <= 100.0 {
      NonNegativeProduct(100.0 - p, subtotal);
      assert subtotal * p / 100.0 <= subtotal;
    }
  }

  /** The document figure before any credit-note sign: the discounted subtotal plus item
      taxes plus the document-level tax amounts. */
  function Gross(items: seq<LineItem>, taxRates: seq<DocTaxRate>, discountPercent: real, discountAmount: real): real {
    DiscountedSubtotal(SubtotalOf(items), discountPercent, discountAmount) + ItemTaxOf(items) + TaxRatesTotal(taxRates)
  }

  /** The item loop of `calculateTotals`: writes every item's amounts in place while
      accumulating the subtotal and the item-tax total. */
  method PriceItems(items: seq<LineItem>) returns (priced: seq<LineItem>, subtotal: real, itemTaxTotal: real)
    ensures priced == Priced(items)
    ensures subtotal == SubtotalOf(items) && itemTaxTotal == ItemTaxOf(items)
  {
    priced := items;
    subtotal, itemTaxTotal := 0.0, 0.0;
    var i := 0;
    while i < |items|
      invariant 0 <= i <= |items| && |priced| == |items|
      invariant priced[..i] == Priced(items[..i]) && priced[i..] == items[i..]
      invariant subtotal == SubtotalOf(items[..i]) && itemTaxTotal == ItemTaxOf(items[..i])
    {
      var item := items[i];
      var itemSubtotal := item.quantity * item.price;
      var itemDiscount := item.discountAmount;
      var taxable := itemSubtotal - itemDiscount;
      var itemTax := taxable * (item.taxRatePercent / 100.0);
      var updated := item.(amounts := ItemAmounts(itemSubtotal, itemDiscount, itemTax, taxable + itemTax));
      assert updated == item.(amounts := CalculateAmounts(item));
      ghost var before := priced;
      priced := priced[i := updated];
      assert priced[..i] == before[..i];
      assert priced[..i + 1] == priced[..i] + [updated];
      assert Priced(items[..i + 1]) == Priced(items[..i]) + [item.(amounts := CalculateAmounts(item))];
      subtotal := subtotal + itemSubtotal;
      itemTaxTotal := itemTaxTotal + itemTax;
      assert items[..i + 1][..i] == items[..i];
      i := i + 1;
    }
    assert items[..i] == items;
  }

  /** The tax-rate loop of `calculateTotals`. */
  method SumTaxRates(trs: seq<DocTaxRate>) returns (total: real)
    ensures total == TaxRatesTotal(trs)
  {
    total := 0.0;
    var i := 0;
    while i < |trs|
      invariant 0 <= i <= |trs| && total == TaxRatesTotal(trs[..i])
    {
      total := total + trs[i].amount;
      assert trs[..i + 1][..i] == trs[..i];
      i := i + 1;
    }
    assert trs[..i] == trs;
  }
}

=== FILE: paging.dfy ===
/** The list handlers' pagination: `skip((page - 1) * limit).limit(limit)` over the
    matching records and `pages: Math.ceil(total / limit)` in the response. */
module Paging {

  /** The number of records skipped before page `page`. */
  function Skip(page: nat, limit: nat): (r: nat)
    requires page >= 1
    ensures r == (page - 1) * limit
  {
    (page - 1) * limit
  }

  /** `Math.ceil(total / limit)`: the least page count whose pages hold every record. */
  function Pages(total: nat, limit: nat): (r: nat)
    requires limit >= 1
    ensures r * limit >= total
    ensures r >= 1 ==> (r - 1) * limit < total
    ensures r == 0 <==> total == 0
  {
    var q := (total + limit - 1) / limit;
    assert total + limit - 1 == q * limit + (total + limit - 1) % limit;
    assert (q - 1) * limit == q * limit - limit;
    q
  }

  /** The records on page `page`: at most `limit` of them, starting after `Skip`. */
  function Page<T>(xs: seq<T>, page: nat, limit: nat): (r: seq<T>)
    requires page >= 1
    ensures |r| <= limit
    ensures Skip(page, limit) >= |xs| ==> r == []
    ensures Skip(page, limit) < |xs| ==>
      r == xs[Skip(page, limit)..if Skip(page, limit) + limit <= |xs| then Skip(page, limit) + limit else |xs|]
  {
    var s := Skip(page, limit);
    if s >= |xs| then [] else xs[s..if s + limit <= |xs| then s + limit else |xs|]
  }

  /** Pages 1 to n, one after the other. */
  function FirstPages<T>(xs: seq<T>, n: nat, limit: nat): seq<T> {
    if n == 0 then [] else FirstPages(xs, n - 1, limit) + Page(xs, n, limit)
  }

  /** The first n pages are the first n * limit records. */
  lemma {:induction false} FirstPagesArePrefix<T>(xs: seq<T>, n: nat, limit: nat)
    ensures FirstPages(xs, n, limit) == xs[..if n * limit <= |xs| then n * limit else |xs|]
  {
    if n > 0 {
      FirstPagesArePrefix(xs, n - 1, limit);
      assert (n - 1) * limit + limit == n * limit;
    }
  }

  /** Reading pages 1 to `Pages(|xs|, limit)` lists every record exactly once and in
      order. */
  lemma PagesCoverAll<T>(xs: seq<T>, limit: nat)
    requires limit >= 1
    ensures FirstPages(xs, Pages(|xs|, limit), limit) == xs
  {
    FirstPagesArePrefix(xs, Pages(|xs|, limit), limit);
  }

  /** Every page after the last one is empty. */
  lemma PagesBeyondAreEmpty<T>(xs: seq<T>, limit: nat, page: nat)
    requires limit >= 1 && page > Pages(|xs|, limit)
    ensures Page(xs, page, limit) == []
  {
    var d: nat := page - 1 - Pages(|xs|, limit);
    assert (page - 1) * limit == Pages(|xs|, limit) * limit + d * limit;
  }
}

=== FILE: payment.dfy ===
/** A payment and the invoice ledger its hooks maintain: after a payment is saved or
    deleted, the invoice's paid amount is re-summed from every payment referencing it. */
module PaymentModel {
  import opened Common
  import opened InvoiceModel

  /** A payment. `invoice` is the referenced invoice. */
  datatype Payment = Payment(
    id: Id,
    invoice: Id,
    paymentMethod: Option<Id>,
    amount: real,
    date: Time,
    note: string)

  /** The schema bound: the amount is not negative. */
  predicate Valid(p: Payment) {
    p.amount >= 0.0
  }

  /** The sum of the amounts of the payments that reference invoice `inv`
      (`find({ invoice })` then `reduce`), in collection order. */
  function PaidTo(ps: seq<Payment>, inv: Id): real {
    if ps == [] then 0.0
    else PaidTo(ps[..|ps| - 1], inv) + (if ps[|ps| - 1].invoice == inv then ps[|ps| - 1].amount else 0.0)
  }

  /** The sum is additive over concatenation of payment lists. */
  lemma {:induction false} PaidToAppend(a: seq<Payment>, b: seq<Payment>, inv: Id)
    ensures PaidTo(a + b, inv) == PaidTo(a, inv) + PaidTo(b, inv)
    decreases |b|
  {
    if b == [] {
      assert a + b == a;
    } else {
      assert (a + b)[..|a + b| - 1] == a + b[..|b| - 1];
      PaidToAppend(a, b[..|b| - 1], inv);
    }
  }

  /** Payments of other invoices do not count, and valid payments never sum below 0. */
  lemma {:induction false} PaidToBounds(ps: seq<Payment>, inv: Id)
    requires forall i :: 0 <= i < |ps| ==> Valid(ps[i])
    ensures PaidTo(ps, inv) >= 0.0
    ensures (forall i :: 0 <= i < |ps| ==> ps[i].invoice != inv) ==> PaidTo(ps, inv) == 0.0
    decreases |ps|
  {
    if ps != [] {
      PaidToBounds(ps[..|ps| - 1], inv);
    }
  }

  /** What one payment adds to the sum for invoice `inv`. */
  function Share(p: Payment, inv: Id): real {
    if p.invoice == inv then p.amount else 0.0
  }

  /** Removing the payment at `i` takes exactly its share out of the sum. */
  lemma PaidToRemove(ps: seq<Payment>, i: nat, inv: Id)
    requires i < |ps|
    ensures PaidTo(ps[..i] + ps[i + 1..], inv) == PaidTo(ps, inv) - Share(ps[i], inv)
  {
    assert ps == ps[..i] + [ps[i]] + ps[i + 1..];
    PaidToAppend(ps[..i] + [ps[i]], ps[i + 1..], inv);
    PaidToAppend(ps[..i], [ps[i]], inv);
    PaidToAppend(ps[..i], ps[i + 1..], inv);
    assert [ps[i]][..0] == [];
  }

  /** Replacing the payment at `i` by `p` swaps its share for that of `p`. */
  lemma PaidToReplace(ps: seq<Payment>, i: nat, p: Payment, inv: Id)
    requires i < |ps|
    ensures PaidTo(ps[i := p], inv) == PaidTo(ps, inv) - Share(ps[i], inv) + Share(p, inv)
  {
    var qs := ps[i := p];
    assert qs == ps[..i] + [p] + ps[i + 1..];
    assert qs[..i] == ps[..i] && qs[i + 1..] == ps[i + 1..];
    PaidToRemove(ps, i, inv);
    PaidToRemove(qs, i, inv);
  }

  /** Appending `p` adds exactly its share. */
  lemma PaidToPush(ps: seq<Payment>, p: Payment, inv: Id)
    ensures PaidTo(ps + [p], inv) == PaidTo(ps, inv) + Share(p, inv)
  {
    assert (ps + [p])[..|ps + [p]| - 1] == ps;
  }

  /** The post-save hook's update of the invoice: paid is the new sum, balance is total
      less paid (no absolute value), and a non-draft invoice whose balance is at most 0
      becomes paid. */
  function AfterSave(inv: Invoice, totalPaid: real): Invoice {
    var balance := inv.amounts.total - totalPaid;
    inv.(amounts := inv.amounts.(paid := totalPaid, balance := balance),
         status := if balance <= 0.0 && inv.status != Draft then Paid else inv.status)
  }

  /** The post-delete hook's update of the invoice: the same sums, and a paid invoice
      whose balance is positive again goes back to sent. */
  function AfterDelete(inv: Invoice, totalPaid: real): Invoice {
    var balance := inv.amounts.total - totalPaid;
    inv.(amounts := inv.amounts.(paid := totalPaid, balance := balance),
         status := if balance > 0.0 && inv.status == Paid then Sent else inv.status)
  }

  /** The invoice table after the post-save hook for `invoice`: that invoice re-summed
      with `totalPaid` when it exists, the table as it was otherwise. */
  function SaveHook(invoices: map<Id, Invoice>, invoice: Id, totalPaid: real): map<Id, Invoice> {
    if invoice in invoices then invoices[invoice := AfterSave(invoices[invoice], totalPaid)] else invoices
  }

  /** The invoice table after the post-delete hook for `invoice`. */
  function DeleteHook(invoices: map<Id, Invoice>, invoice: Id, totalPaid: real): map<Id, Invoice> {
    if invoice in invoices then invoices[invoice := AfterDelete(invoices[invoice], totalPaid)] else invoices
  }

  /** What both hooks write: paid and balance = total - paid, nothing else but status. */
  lemma LedgerAmounts(inv: Invoice, totalPaid: real)
    ensures var s := AfterSave(inv, totalPaid);
      s.amounts.paid == totalPaid && s.amounts.balance == s.amounts.total - s.amounts.paid &&
      s.amounts.total == inv.amounts.total && s.(status := inv.status, amounts := inv.amounts) == inv
    ensures var d := AfterDelete(inv, totalPaid);
      d.amounts.paid == totalPaid && d.amounts.balance == d.amounts.total - d.amounts.paid &&
      d.amounts.total == inv.amounts.total && d.(status := inv.status, amounts := inv.amounts) == inv
  {
  }

  /** The save hook sets paid exactly when the invoice is not a draft and fully paid,
      never moves an invoice out of paid, and otherwise keeps the status. */
  lemma AfterSaveStatus(inv: Invoice, totalPaid: real)
    ensures var s := AfterSave(inv, totalPaid).status;
      (inv.status != Draft && inv.amounts.total - totalPaid <= 0.0 ==> s == Paid) &&
      (inv.status == Paid ==> s == Paid) &&
      (s != inv.status ==> s == Paid && inv.status != Draft) &&
      (inv.status == Draft ==> s == Draft)
  {
  }

  /** The delete hook only ever moves paid back to sent, when money is owed again; it
      never sets paid and leaves every other status alone. */
  lemma AfterDeleteStatus(inv: Invoice, totalPaid: real)
    ensures var d := AfterDelete(inv, totalPaid).status;
      (inv.status == Paid && inv.amounts.total - totalPaid > 0.0 ==> d == Sent) &&
      (d == Paid ==> inv.status == Paid) &&
      (inv.status != Paid ==> d == inv.status)
  {
  }

  /** Each hook reads only the payment sum and the invoice total, so applying it again
      to its own result changes nothing. */
  lemma LedgerIdempotent(inv: Invoice, totalPaid: real)
    ensures AfterSave(AfterSave(inv, totalPaid), totalPaid) == AfterSave(inv, totalPaid)
    ensures AfterDelete(AfterDelete(inv, totalPaid), totalPaid) == AfterDelete(inv, totalPaid)
  {
  }

  /** The hooks keep an invoice valid: they only ever write one of the four statuses. */
  lemma LedgerKeepsValid(inv: Invoice, totalPaid: real)
    requires InvoiceModel.Valid(inv)
    ensures InvoiceModel.Valid(AfterSave(inv, totalPaid)) && InvoiceModel.Valid(AfterDelete(inv, totalPaid))
  {
  }

  /** A sent invoice of total 1000: a payment of 400 leaves 600 owed and the invoice
      sent; a second payment of 600 leaves 0 owed and marks it paid; deleting the second
      payment again leaves 600 owed and puts the invoice back to sent. */
  lemma LedgerScenario(inv: Invoice, first: Payment, second: Payment)
    requires inv.status == Sent && inv.amounts.total == 1000.0
    requires first.invoice == 7 && first.amount == 400.0 && second.invoice == 7 && second.amount == 600.0
    ensures var a := AfterSave(inv, PaidTo([first], 7));
      a.amounts.paid == 400.0 && a.amounts.balance == 600.0 && a.status == Sent
    ensures var b := AfterSave(AfterSave(inv, PaidTo([first], 7)), PaidTo([first, second], 7));
      b.amounts.paid == 1000.0 && b.amounts.balance == 0.0 && b.status == Paid
    ensures var b := AfterSave(AfterSave(inv, PaidTo([first], 7)), PaidTo([first, second], 7));
      var c := AfterDelete(b, PaidTo([first, second][..1] + [first, second][2..], 7));
      c.amounts.paid == 400.0 && c.amounts.balance == 600.0 && c.status == Sent
  {
    assert [first][..0] == [];
    assert [first, second][..1] == [first];
    assert [first, second][..1] + [first, second][2..] == [first];
  }
}

=== FILE: payment_controller.dfy ===
/** The payment request handlers: create, update and delete (each followed by the ledger
    hook of the payment model), and the list filter with its pagination. */
module PaymentController {
  import opened Common
  import opened PaymentModel
  import InvoiceModel
  import opened Database
  import Paging

  /** The body of `createPayment`; absent fields are `None`. */
  datatype CreatePaymentRequest = CreatePaymentRequest(
    invoice: Id,
    amount: Option<real>,
    date: Option<Time>,
    paymentMethod: Option<Id>,
    note: Option<string>)

  /** The body of `updatePayment`: only these four fields are read. */
  datatype PaymentUpdate = PaymentUpdate(
    amount: Option<real>,
    date: Option<Time>,
    paymentMethod: Option<Id>,
    note: Option<string>)

  /** Whether `Payment.create` passes validation: the amount is required and not negative. */
  predicate AcceptsPayment(req: CreatePaymentRequest) {
    req.amount.Some? && req.amount.value >= 0.0
  }

  /** The payment `createPayment` stores under key `id`: the date defaults to now and
      the note to ''. */
  function NewPayment(req: CreatePaymentRequest, id: Id, now: Time): (p: Payment)
    ensures p.id == id && p.invoice == req.invoice
    ensures req.date.None? ==> p.date == now
    ensures AcceptsPayment(req) <==> req.amount.Some? && PaymentModel.Valid(p)
  {
    Payment(id, req.invoice, req.paymentMethod, req.amount.GetOr(0.0), req.date.GetOr(now), req.note.GetOr(""))
  }

  /** `payment.save()` of a new, valid payment, then the save hook. */
  method AppendPayment(db: Db, p: Payment)
    requires db.Valid() && p.id < db.nextKey && PaymentModel.Valid(p)
    requires forall i :: 0 <= i < |db.payments| ==> db.payments[i].id != p.id
    modifies db`payments, db`invoices
    ensures db.Valid()
    ensures db.payments == old(db.payments) + [p]
    ensures db.invoices == SaveHook(old(db.invoices), p.invoice, PaidTo(old(db.payments), p.invoice) + p.amount)
  {
    ghost var ps := db.payments;
    PaidToPush(ps, p, p.invoice);
    assert PaidTo(ps + [p], p.invoice) == PaidTo(ps, p.invoice) + p.amount;
    db.PushPayment(p);
    db.PaymentSaved(p.invoice);
  }

  /** `createPayment`: 404 for an unknown invoice with no payment created; otherwise the
      payment is appended and the save hook re-sums the invoice's payments. */
  method CreatePayment(db: Db, req: CreatePaymentRequest, now: Time) returns (o: Outcome<Id>)
    requires db.Valid()
    modifies db`payments, db`invoices, db`nextKey
    ensures db.Valid()
    ensures req.invoice !in old(db.invoices) ==> o == Fail(NotFound) && unchanged(db)
    ensures req.invoice in old(db.invoices) && !AcceptsPayment(req) ==> o == Fail(ValidationError) && unchanged(db)
    ensures req.invoice in old(db.invoices) && AcceptsPayment(req) ==>
      var p := NewPayment(req, old(db.nextKey), now);
      o == Ok(p.id) && db.nextKey == p.id + 1 &&
      db.payments == old(db.payments) + [p] &&
      db.invoices == SaveHook(old(db.invoices), req.invoice, PaidTo(old(db.payments), req.invoice) + p.amount)
  {
    if req.invoice !in db.invoices {
      return Fail(NotFound);
    }
    if !AcceptsPayment(req) {
      return Fail(ValidationError);
    }
    var id := db.NewKeys(1);
    var p := NewPayment(req, id, now);
    AppendPayment(db, p);
    o := Ok(id);
  }

  /** The position of the payment with key `id` in the collection, if there is one. */
  function PaymentIndex(ps: seq<Payment>, id: Id): (r: Option<nat>)
    ensures r.Some? ==> r.value < |ps| && ps[r.value].id == id
    ensures r.None? <==> forall i :: 0 <= i < |ps| ==> ps[i].id != id
  {
    if ps == [] then None
    else if ps[|ps| - 1].id == id then Some(|ps| - 1)
    else PaymentIndex(ps[..|ps| - 1], id)
  }

  /** `Payment.findById`: a scan of the collection for the key. */
  method FindPayment(ps: seq<Payment>, id: Id) returns (r: Option<nat>)
    ensures r.Some? ==> r.value < |ps| && ps[r.value].id == id
    ensures r.None? <==> forall i :: 0 <= i < |ps| ==> ps[i].id != id
  {
    var i := 0;
    while i < |ps|
      invariant 0 <= i <= |ps|
      invariant forall j :: 0 <= j < i ==> ps[j].id != id
    {
      if ps[i].id == id {
        return Some(i);
      }
      i := i + 1;
    }
    return None;
  }

  /** With distinct keys, the scan and the lookup find the same position. */
  lemma FindsUniquePayment(ps: seq<Payment>, id: Id, i: nat)
    requires forall a, b :: 0 <= a < b < |ps| ==> ps[a].id != ps[b].id
    requires i < |ps| && ps[i].id == id
    ensures PaymentIndex(ps, id) == Some(i)
  {
  }

  /** The conditional assignments of `updatePayment`: each field sent overwrites the
      stored one; the key and the invoice reference never change. */
  function UpdatedPayment(p: Payment, u: PaymentUpdate): (r: Payment)
    ensures r.id == p.id && r.invoice == p.invoice
    ensures u == PaymentUpdate(None, None, None, None) ==> r == p
    ensures u.amount.Some? ==> r.amount == u.amount.value
    ensures u.amount.None? ==> r.amount == p.amount
    ensures u.date.Some? ==> r.date == u.date.value
    ensures u.date.None? ==> r.date == p.date
    ensures u.note.Some? ==> r.note == u.note.value
    ensures u.note.None? ==> r.note == p.note
    ensures u.paymentMethod.Some? ==> r.paymentMethod == u.paymentMethod
    ensures u.paymentMethod.None? ==> r.paymentMethod == p.paymentMethod
  {
    Payment(p.id, p.invoice, if u.paymentMethod.Some? then u.paymentMethod else p.paymentMethod,
            u.amount.GetOr(p.amount), u.date.GetOr(p.date), u.note.GetOr(p.note))
  }

  /** `payment.save()` of the updated payment at position `i`, then the save hook. */
  method SavePaymentAt(db: Db, i: nat, p: Payment) returns (o: Outcome<Id>)
    requires db.Valid() && i < |db.payments| && p.id == db.payments[i].id && p.invoice == db.payments[i].invoice
    modifies db`payments, db`invoices
    ensures db.Valid()
    ensures !PaymentModel.Valid(p) ==> o == Fail(ValidationError) && unchanged(db)
    ensures PaymentModel.Valid(p) ==>
      o == Ok(p.id) && db.payments == old(db.payments)[i := p] &&
      db.invoices == SaveHook(old(db.invoices), p.invoice,
                              PaidTo(old(db.payments), p.invoice) - old(db.payments)[i].amount + p.amount)
  {
    if !PaymentModel.Valid(p) {
      return Fail(ValidationError);
    }
    ghost var paid := PaidTo(db.payments, p.invoice) - db.payments[i].amount + p.amount;
    PaidToReplace(db.payments, i, p, p.invoice);
    db.SetPayment(i, p);
    assert PaidTo(db.payments, p.invoice) == paid;
    db.PaymentSaved(p.invoice);
    o := Ok(p.id);
  }

  /** `updatePayment`: 404 for an unknown payment, a validation error (nothing written)
      for a negative amount; otherwise the payment is replaced in place and its invoice
      re-summed by the save hook. */
  method UpdatePayment(db: Db, id: Id, u: PaymentUpdate) returns (o: Outcome<Id>)
    requires db.Valid()
    modifies db`payments, db`invoices
    ensures db.Valid()
    ensures PaymentIndex(old(db.payments), id).None? ==> o == Fail(NotFound) && unchanged(db)
    ensures PaymentIndex(old(db.payments), id).Some? ==>
      var i := PaymentIndex(old(db.payments), id).value;
      var p := UpdatedPayment(old(db.payments)[i], u);
      (!PaymentModel.Valid(p) ==> o == Fail(ValidationError) && unchanged(db)) &&
      (PaymentModel.Valid(p) ==>
        o == Ok(id) && db.payments == old(db.payments)[i := p] &&
        db.invoices == SaveHook(old(db.invoices), p.invoice,
                                PaidTo(old(db.payments), p.invoice) - old(db.payments)[i].amount + p.amount))
  {
    var found := FindPayment(db.payments, id);
    if found.Some? {
      FindsUniquePayment(db.payments, id, found.value);
    }
    assert found == PaymentIndex(db.payments, id);
    if found.None? {
      return Fail(NotFound);
    }
    var i := found.value;
    var p := UpdatedPayment(db.payments[i], u);
    o := SavePaymentAt(db, i, p);
  }

  /** `findByIdAndDelete` of the payment at position `i`, then the delete hook. */
  method DeletePaymentAt(db: Db, i: nat)
    requires db.Valid() && i < |db.payments|
    modifies db`payments, db`invoices
    ensures db.Valid()
    ensures var p := old(db.payments)[i];
      db.payments == old(db.payments)[..i] + old(db.payments)[i + 1..] &&
      db.invoices == DeleteHook(old(db.invoices), p.invoice, PaidTo(old(db.payments), p.invoice) - p.amount)
  {
    var p := db.payments[i];
    ghost var paid := PaidTo(db.payments, p.invoice) - p.amount;
    PaidToRemove(db.payments, i, p.invoice);
    db.RemovePayment(i);
    assert PaidTo(db.payments, p.invoice) == paid;
    db.PaymentDeleted(p.invoice);
  }

  /** `deletePayment`: 404 for an unknown payment; otherwise the payment is removed,
      the others keep their order, and the delete hook re-sums its invoice. */
  method DeletePayment(db: Db, id: Id) returns (o: Outcome<Id>)
    requires db.Valid()
    modifies db`payments, db`invoices
    ensures db.Valid()
    ensures PaymentIndex(old(db.payments), id).None? ==> o == Fail(NotFound) && unchanged(db)
    ensures PaymentIndex(old(db.payments), id).Some? ==>
      var i := PaymentIndex(old(db.payments), id).value;
      var p := old(db.payments)[i];
      o == Ok(id) && db.payments == old(db.payments)[..i] + old(db.payments)[i + 1..] &&
      db.invoices == DeleteHook(old(db.invoices), p.invoice, PaidTo(old(db.payments), p.invoice) - p.amount)
  {
    var found := FindPayment(db.payments, id);
    if found.Some? {
      FindsUniquePayment(db.payments, id, found.value);
    }
    assert found == PaymentIndex(db.payments, id);
    if found.None? {
      return Fail(NotFound);
    }
    DeletePaymentAt(db, found.value);
    o := Ok(id);
  }

  /** The query `getPayments` builds: each filter only when given, the date range
      inclusive at whichever ends are given. */
  datatype PaymentQuery = PaymentQuery(
    invoice: Option<Id>,
    paymentMethod: Option<Id>,
    startDate: Option<Time>,
    endDate: Option<Time>)

  /** Whether a payment matches the query. */
  predicate Matches(p: Payment, q: PaymentQuery) {
    (q.invoice.None? || p.invoice == q.invoice.value) &&
    (q.paymentMethod.None? || p.paymentMethod == q.paymentMethod) &&
    (q.startDate.None? || p.date >= q.startDate.value) &&
    (q.endDate.None? || p.date <= q.endDate.value)
  }

  /** The matching payments in collection order. */
  function Listed(ps: seq<Payment>, q: PaymentQuery): (r: seq<Payment>)
    ensures forall p :: p in r <==> p in ps && Matches(p, q)
  {
    Filter(ps, p => Matches(p, q))
  }

  /** An empty query lists everything, and the date bounds are inclusive: a payment on
      the start or end date is listed. */
  lemma ListedSpec(ps: seq<Payment>, q: PaymentQuery, p: Payment)
    ensures Listed(ps, PaymentQuery(None, None, None, None)) == ps
    ensures p in ps && q.invoice.None? && q.paymentMethod.None? && q.startDate == Some(p.date) && q.endDate == Some(p.date) ==>
      p in Listed(ps, q)
  {
    FilterKeepsAll(ps, p => Matches(p, PaymentQuery(None, None, None, None)));
  }

  /** The response of `getPayments`: the requested page of the matching payments, their
      count, and the page count. */
  datatype PaymentListing = PaymentListing(data: seq<Payment>, total: nat, pages: nat)

  function ListPayments(ps: seq<Payment>, q: PaymentQuery, page: nat, limit: nat): (r: PaymentListing)
    requires page >= 1 && limit >= 1
    ensures |r.data| <= limit && r.total == |Listed(ps, q)|
    ensures forall p :: p in r.data ==> p in ps && Matches(p, q)
    ensures r.pages * limit >= r.total && (r.pages >= 1 ==> (r.pages - 1) * limit < r.total)
  {
    var all := Listed(ps, q);
    var data := Paging.Page(all, page, limit);
    assert forall p :: p in data ==> p in all;
    PaymentListing(data, |all|, Paging.Pages(|all|, limit))
  }
}

=== FILE: payment_method.dfy ===
/** Payment methods: the required name and the rule that a company has at most one
    default method, kept by the pre-save hook. */
module PaymentMethodModel {
  import opened Common
  import Text

  datatype PaymentMethod = PaymentMethod(belongsTo: Id, name: string, isDefault: bool, isActive: bool)

  /** The schema validator: a name that is not blank once trimmed. */
  predicate ValidMethod(r: PaymentMethod) {
    Text.Trim(r.name) != []
  }

  /** The record as stored: the `trim` setter applied to the name. */
  function Stored(r: PaymentMethod): (s: PaymentMethod)
    ensures s.name == Text.Trim(r.name) && s.(name := r.name) == r
    ensures ValidMethod(r) ==> ValidMethod(s)
  {
    Text.TrimIdempotent(r.name);
    r.(name := Text.Trim(r.name))
  }

  /** The pre-save hook's `updateMany`: when the saved method is a default, every other
      method of the same company gets `isDefault` false. */
  function ClearOtherDefaults(table: map<Id, PaymentMethod>, id: Id, r: PaymentMethod): (t: map<Id, PaymentMethod>)
    ensures t.Keys == table.Keys
    ensures forall k :: k in table ==>
      t[k] == if r.isDefault && k != id && table[k].belongsTo == r.belongsTo then table[k].(isDefault := false) else table[k]
  {
    map k | k in table :: if r.isDefault && k != id && table[k].belongsTo == r.belongsTo
                          then table[k].(isDefault := false) else table[k]
  }

  /** The table after a successful save of `r` under `id`. */
  function Saved(table: map<Id, PaymentMethod>, id: Id, r: PaymentMethod): map<Id, PaymentMethod> {
    ClearOtherDefaults(table, id, r)[id := Stored(r)]
  }

  predicate OneDefaultPerCompany(table: map<Id, PaymentMethod>) {
    forall j, k :: j in table && k in table && j != k && table[j].isDefault && table[k].isDefault ==>
      table[j].belongsTo != table[k].belongsTo
  }

  /** Saving keeps at most one default method per company. */
  lemma SaveKeepsOneDefault(table: map<Id, PaymentMethod>, id: Id, r: PaymentMethod)
    requires OneDefaultPerCompany(table)
    ensures OneDefaultPerCompany(Saved(table, id, r))
  {
    var t := Saved(table, id, r);
    forall j, k | j in t && k in t && j != k && t[j].isDefault && t[k].isDefault
      ensures t[j].belongsTo != t[k].belongsTo
    {
      if j != id && k != id {
        assert t[j] == table[j] && t[k] == table[k];
      }
    }
  }

  /** Saving a default method stores it as a default and leaves it the only default of its
      company. */
  lemma SaveDefaultIsSoleDefault(table: map<Id, PaymentMethod>, id: Id, r: PaymentMethod)
    requires r.isDefault
    ensures var t := Saved(table, id, r);
      t.Keys == table.Keys + {id} && t[id] == Stored(r) && t[id].isDefault &&
      forall k :: k in t && k != id && t[k].belongsTo == r.belongsTo ==> !t[k].isDefault
  {
    var c := ClearOtherDefaults(table, id, r);
    var t := Saved(table, id, r);
    assert t == c[id := Stored(r)];
    assert t[id] == Stored(r) && t[id].isDefault;
    forall k | k in t && k != id && t[k].belongsTo == r.belongsTo
      ensures !t[k].isDefault
    {
      assert t[k] == c[k];
    }
  }

  /** A save changes no other method beyond its `isDefault` flag, and leaves the methods of
      other companies exactly as they were. */
  lemma SaveOnlyClearsDefaults(table: map<Id, PaymentMethod>, id: Id, r: PaymentMethod)
    ensures var t := Saved(table, id, r);
      (forall k :: k in table && k != id && table[k].belongsTo != r.belongsTo ==> t[k] == table[k]) &&
      (forall k :: k in table && k != id ==> t[k] == table[k].(isDefault := t[k].isDefault))
  {
    var c := ClearOtherDefaults(table, id, r);
    var t := Saved(table, id, r);
    forall k | k in table && k != id
      ensures t[k] == c[k]
    {
    }
  }

  /** Saving a method that is not a default changes no other record. */
  lemma SaveNonDefaultChangesNothingElse(table: map<Id, PaymentMethod>, id: Id, r: PaymentMethod)
    requires !r.isDefault
    ensures forall k :: k in table && k != id ==> Saved(table, id, r)[k] == table[k]
  {
  }

  /** The payment-method collection. */
  class PaymentMethodStore {
    var methods: map<Id, PaymentMethod>

    ghost predicate Valid()
      reads this
    {
      OneDefaultPerCompany(methods) && forall k :: k in methods ==> ValidMethod(methods[k])
    }

    constructor()
      ensures Valid() && methods == map[]
    {
      methods := map[];
    }

    /** `paymentMethod.save()`: validation first (nothing is written when it fails), then the
        pre-save hook clears the other defaults of the company one record at a time,
        then the record itself is written. */
    method Save(id: Id, r: PaymentMethod) returns (o: Outcome<Id>)
      requires Valid()
      modifies this
      ensures Valid()
      ensures !ValidMethod(r) ==> o == Fail(ValidationError) && methods == old(methods)
      ensures ValidMethod(r) ==> o == Ok(id) && methods == Saved(old(methods), id, r)
    {
      if !ValidMethod(r) {
        return Fail(ValidationError);
      }
      ghost var start := methods;
      ClearDefaults(id, r);
      methods := methods[id := Stored(r)];
      SaveKeepsOneDefault(start, id, r);
      o := Ok(id);
    }

    /** The hook's `updateMany`, one matching record at a time. */
    method ClearDefaults(id: Id, r: PaymentMethod)
      modifies this
      ensures methods == ClearOtherDefaults(old(methods), id, r)
    {
      if !r.isDefault {
        return;
      }
      ghost var start := methods;
      ghost var target := ClearOtherDefaults(methods, id, r);
      var todo := methods.Keys;
      while todo != {}
        invariant todo <= start.Keys && methods.Keys == start.Keys == target.Keys
        invariant forall k :: k in start ==> methods[k] == if k in todo then start[k] else target[k]
        decreases |todo|
      {
        var k :| k in todo;
        assert methods[k] == start[k];
        if k != id && methods[k].belongsTo == r.belongsTo {
          methods := methods[k := methods[k].(isDefault := false)];
        }
        todo := todo - {k};
      }
    }
  }
}

=== FILE: product.dfy ===
/** The product catalogue's schema checks: a required name, a selling price of at least
    0.01 and a purchase price that is not negative and, unless zero, not above the
    selling price. */
module ProductModel {
  import opened Common
  import Text

  /** A product as submitted; `purchasePrice` has already taken its default of 0. */
  datatype Product = Product(name: string, price: Option<real>, purchasePrice: real)

  /** The messages of the validators that fail, in schema order. Each path reports at
      most its first failing validator: `required` before `min` on the selling price,
      `min` before the custom check on the purchase price. */
  function Errors(p: Product): (r: seq<string>)
    ensures |r| <= 3
    ensures r == [] <==>
      Text.Trim(p.name) != [] && p.price.Some? && p.price.value >= 0.01 &&
      p.purchasePrice >= 0.0 && PurchasePriceAccepted(p.purchasePrice, p.price)
    ensures Text.Trim(p.name) == [] ==> r[0] == "Product name is required"
    ensures "Product name is required" in r <==> Text.Trim(p.name) == []
    ensures "Selling price is required" in r <==> p.price.None?
    ensures "Selling price must be greater than 0" in r <==> p.price.Some? && p.price.value < 0.01
    ensures "Purchase price cannot be negative" in r <==> p.purchasePrice < 0.0
    ensures "Purchase price should not exceed selling price" in r <==>
      p.purchasePrice >= 0.0 && !PurchasePriceAccepted(p.purchasePrice, p.price)
  {
    (if Text.Trim(p.name) == [] then ["Product name is required"] else []) +
    (if p.price.None? then ["Selling price is required"]
     else if p.price.value < 0.01 then ["Selling price must be greater than 0"] else []) +
    (if p.purchasePrice < 0.0 then ["Purchase price cannot be negative"]
     else if !PurchasePriceAccepted(p.purchasePrice, p.price) then ["Purchase price should not exceed selling price"]
     else [])
  }

  /** The custom purchase-price validator: `value === 0 || value <= this.price`, where a
      comparison with a missing price is false. */
  predicate PurchasePriceAccepted(value: real, price: Option<real>) {
    value == 0.0 || (price.Some? && value <= price.value)
  }

  predicate Valid(p: Product) {
    Errors(p) == []
  }

  /** A valid product has a name, a selling price of at least 0.01 and a purchase price
      between 0 and the selling price, so its margin is never negative; and every product
      meeting those bounds is accepted. */
  lemma ValidSpec(p: Product)
    ensures Valid(p) <==>
      Text.Trim(p.name) != [] && p.price.Some? && p.price.value >= 0.01 &&
      0.0 <= p.purchasePrice <= p.price.value
    ensures Valid(p) ==> p.price.value - p.purchasePrice >= 0.0
  {
  }

  /** A purchase price of 0 passes the custom validator whatever the selling price, even
      a missing one; any other purchase price needs a selling price at least as high, so
      without a selling price a positive one is reported as exceeding it, while a
      negative one is reported only as negative. */
  lemma PurchasePriceRule(p: Product)
    ensures PurchasePriceAccepted(0.0, p.price)
    ensures p.purchasePrice != 0.0 ==>
      (PurchasePriceAccepted(p.purchasePrice, p.price) <==> p.price.Some? && p.purchasePrice <= p.price.value)
    ensures p.price.None? && p.purchasePrice > 0.0 ==> "Purchase price should not exceed selling price" in Errors(p)
    ensures p.purchasePrice < 0.0 ==>
      "Purchase price cannot be negative" in Errors(p) &&
      "Purchase price should not exceed selling price" !in Errors(p)
  {
  }
}

=== FILE: quote.dfy ===
/** The quote document: its schema bounds, `calculateTotals` and the `isConverted` /
    `isExpired` virtuals. */
module QuoteModel {
  import opened Common
  import opened LineItems

  const Draft := "draft"
  const Sent := "sent"
  const Viewed := "viewed"
  const Approved := "approved"
  const Rejected := "rejected"
  const Cancelled := "cancelled"

  /** The stored quote amounts (a quote has no paid amount and no balance). */
  datatype QuoteAmounts = QuoteAmounts(
    subtotal: real,
    itemTaxTotal: real,
    taxTotal: real,
    discountAmount: real,
    discountPercent: real,
    total: real)

  const NoQuoteAmounts := QuoteAmounts(0.0, 0.0, 0.0, 0.0, 0.0, 0.0)

  /** A quote. `number` is `quoteNumber` ('' while unnumbered); `urlKey` is the public
      key of the guest link; `invoice` is the reference set when the quote is converted. */
  datatype Quote = Quote(
    client: Id,
    series: Id,
    number: string,
    urlKey: string,
    status: string,
    password: string,
    created: Time,
    expires: Time,
    items: seq<LineItem>,
    amounts: QuoteAmounts,
    taxRates: seq<DocTaxRate>,
    notes: string,
    invoice: Option<Id>)

  predicate ValidStatus(s: string) {
    s == Draft || s == Sent || s == Viewed || s == Approved || s == Rejected || s == Cancelled
  }

  /** The schema validators: valid items and one of the six enumerated statuses. */
  predicate Valid(q: Quote) {
    ValidItems(q.items) && ValidStatus(q.status)
  }

  /** The quote as `calculateTotals` leaves it. */
  function Totals(q: Quote): Quote {
    q.(items := Priced(q.items),
       amounts := q.amounts.(
         subtotal := SubtotalOf(q.items),
         itemTaxTotal := ItemTaxOf(q.items),
         taxTotal := TaxRatesTotal(q.taxRates),
         total := Gross(q.items, q.taxRates, q.amounts.discountPercent, q.amounts.discountAmount)))
  }

  /** `quote.calculateTotals()`: the invoice computation without sign and without
      absolute value. */
  method CalculateTotals(q: Quote) returns (r: Quote)
    ensures r == Totals(q)
  {
    var items, subtotal, itemTaxTotal := PriceItems(q.items);
    var discounted := ApplyDiscount(subtotal, q.amounts.discountPercent, q.amounts.discountAmount);
    var globalTaxTotal := SumTaxRates(q.taxRates);
    var total := discounted + itemTaxTotal + globalTaxTotal;
    r := q.(items := items,
            amounts := q.amounts.(subtotal := subtotal, itemTaxTotal := itemTaxTotal,
                                  taxTotal := globalTaxTotal, total := total));
  }

  /** The quote total is the discounted subtotal plus item taxes plus tax-rate amounts,
      with nothing else written: the discounts and every other field stay as they were. */
  lemma TotalsSpec(q: Quote)
    ensures var r := Totals(q);
      r.amounts.subtotal == StoredSubtotalSum(r.items) &&
      r.amounts.total == r.amounts.subtotal - r.amounts.subtotal * PositivePart(q.amounts.discountPercent) / 100.0
                         - PositivePart(q.amounts.discountAmount) + r.amounts.itemTaxTotal + r.amounts.taxTotal &&
      r.amounts.discountPercent == q.amounts.discountPercent &&
      r.amounts.discountAmount == q.amounts.discountAmount &&
      r.(items := q.items, amounts := q.amounts) == q
  {
    StoredSubtotalsMatch(q.items);
    DiscountedSubtotalFormula(SubtotalOf(q.items), q.amounts.discountPercent, q.amounts.discountAmount);
  }

  /** Unlike an invoice's, a quote's total can be negative: a fixed discount larger than
      the subtotal is passed straight through. */
  lemma TotalCanBeNegative()
    ensures var q := Quote(0, 0, "", "", Draft, "", 0, 0, [], NoQuoteAmounts.(discountAmount := 5.0), [], "", None);
      Totals(q).amounts.total == -5.0
  {
  }

  /** Recalculating an already calculated quote changes nothing. */
  lemma TotalsIdempotent(q: Quote)
    ensures Totals(Totals(q)) == Totals(q)
  {
    PricedIdempotent(q.items);
  }

  /** The `isConverted` virtual: the invoice reference is set. */
  predicate IsConverted(q: Quote) {
    q.invoice.Some?
  }

  /** The `isExpired` virtual: never once approved or converted, otherwise once now is
      past the expiry date. */
  predicate IsExpired(q: Quote, now: Time) {
    if q.status == Approved || q.invoice.Some? then false else now > q.expires
  }

  /** A converted quote is never expired, and an unconverted one that is not approved
      expires exactly when now passes its expiry date. */
  lemma ExpiryRules(q: Quote, now: Time)
    ensures IsConverted(q) ==> !IsExpired(q, now)
    ensures !IsConverted(q) && q.status != Approved ==> (IsExpired(q, now) <==> now > q.expires)
  {
  }
}

=== FILE: quote_controller.dfy ===
/** The quote request handlers: create, update, delete, convert to an invoice, mark as
    sent and copy. As for invoices, the clock, the new guest key, the settings and the
    tax-rate table are parameters, and each handler is one atomic step. */
module QuoteController {
  import opened Common
  import opened LineItems
  import opened QuoteModel
  import InvoiceModel
  import SeriesModel
  import opened AppConfig
  import opened ItemRequests
  import TaxRateModel
  import opened Database

  /** The `amounts` object of a quote request body. */
  datatype QuoteAmountsInput = QuoteAmountsInput(discountPercent: Option<real>, discountAmount: Option<real>)

  /** The fields of a quote request body other than `items`; absent ones are `None`. */
  datatype QuoteFields = QuoteFields(
    client: Option<Id>,
    series: Option<Id>,
    number: Option<string>,
    status: Option<string>,
    password: Option<string>,
    created: Option<Time>,
    expires: Option<Time>,
    amounts: QuoteAmountsInput,
    taxRates: Option<seq<DocTaxRate>>,
    notes: Option<string>,
    urlKey: Option<string>,
    invoice: Option<Id>)

  const NoQuoteFields := QuoteFields(None, None, None, None, None, None, None, QuoteAmountsInput(None, None), None, None,
                                     None, None)

  /** The body of `createQuote`. */
  datatype CreateQuoteRequest = CreateQuoteRequest(client: Id, series: Id, items: seq<ItemInput>, rest: QuoteFields)

  /** The body of `updateQuote`. */
  datatype UpdateQuoteRequest = UpdateQuoteRequest(items: Option<seq<ItemInput>>, rest: QuoteFields)

  /** Writes the fields that were sent: `dates` and `amounts` merged field by field, every
      other key overwriting the stored value. */
  function ApplyQuoteFields(q: Quote, f: QuoteFields): (r: Quote)
    ensures f == NoQuoteFields ==> r == q
    ensures r.items == q.items
    ensures r.urlKey == f.urlKey.GetOr(q.urlKey)
    ensures f.invoice.Some? ==> r.invoice == f.invoice
    ensures f.invoice.None? ==> r.invoice == q.invoice
  {
    q.(client := f.client.GetOr(q.client),
       series := f.series.GetOr(q.series),
       number := f.number.GetOr(q.number),
       status := f.status.GetOr(q.status),
       password := f.password.GetOr(q.password),
       created := f.created.GetOr(q.created),
       expires := f.expires.GetOr(q.expires),
       amounts := q.amounts.(discountPercent := f.amounts.discountPercent.GetOr(q.amounts.discountPercent),
                             discountAmount := f.amounts.discountAmount.GetOr(q.amounts.discountAmount)),
       taxRates := f.taxRates.GetOr(q.taxRates),
       notes := f.notes.GetOr(q.notes),
       urlKey := f.urlKey.GetOr(q.urlKey),
       invoice := if f.invoice.Some? then f.invoice else q.invoice)
  }

  /** Whether `createQuote` numbers the quote: when drafts are numbered, or when the
      status sent is not literally 'draft' (an absent status counts). */
  predicate AllocatesQuoteNumber(generateForDraft: bool, status: Option<string>) {
    generateForDraft || status != Some(Draft)
  }

  /** The quote `createQuote` builds before `calculateTotals`: the fields sent over the
      schema defaults, the request's client and series, the allocated number, the
      processed items (keyed after `key`, the quote's own key) and the two dates. */
  function DraftedQuote(cfg: Config, rates: map<Id, TaxRateModel.TaxRate>, req: CreateQuoteRequest, now: Time,
                        urlKey: string, number: string, key: Id): Quote
  {
    var f := req.rest;
    var created := f.created.GetOr(now);
    Quote(req.client, req.series, number, f.urlKey.GetOr(urlKey), f.status.GetOr(Draft), f.password.GetOr(""), created,
          f.expires.GetOr(AddDays(created, cfg.quotesExpireAfter)),
          ProcessItems(req.items, key + 1, rates),
          NoQuoteAmounts.(discountPercent := f.amounts.discountPercent.GetOr(0.0),
                          discountAmount := f.amounts.discountAmount.GetOr(0.0)),
          f.taxRates.GetOr([]), f.notes.GetOr(""), f.invoice)
  }

  /** The quote `createQuote` saves. */
  function NewQuote(cfg: Config, rates: map<Id, TaxRateModel.TaxRate>, req: CreateQuoteRequest, now: Time,
                    urlKey: string, number: string, key: Id): Quote
  {
    Totals(DraftedQuote(cfg, rates, req, now, urlKey, number, key))
  }

  /** A new quote: created as sent or now, expiring as sent or the configured number of
      days later, a draft unless a status was sent, numbered as given, with the guest key
      sent or else the fresh one, and not converted unless a conversion reference was
      sent. */
  lemma NewQuoteDates(cfg: Config, rates: map<Id, TaxRateModel.TaxRate>, req: CreateQuoteRequest, now: Time,
                      urlKey: string, number: string, key: Id)
    ensures var q := NewQuote(cfg, rates, req, now, urlKey, number, key);
      q.created == req.rest.created.GetOr(now) &&
      (req.rest.expires.None? ==> q.expires == AddDays(q.created, cfg.quotesExpireAfter)) &&
      (req.rest.expires.Some? ==> q.expires == req.rest.expires.value) &&
      (req.rest.status.None? ==> q.status == Draft) &&
      (req.rest.invoice.None? ==> !IsConverted(q)) && q.number == number &&
      q.urlKey == req.rest.urlKey.GetOr(urlKey)
  {
  }

  /** The items of a new quote are the request's items, processed and priced. */
  lemma NewQuoteItems(cfg: Config, rates: map<Id, TaxRateModel.TaxRate>, req: CreateQuoteRequest, now: Time,
                      urlKey: string, number: string, key: Id)
    ensures var q := NewQuote(cfg, rates, req, now, urlKey, number, key);
      |q.items| == |req.items| &&
      forall i :: 0 <= i < |req.items| ==>
        q.items[i].id == key + 1 + i &&
        q.items[i].order == req.items[i].order.GetOr(i) &&
        q.items[i].taxRatePercent == LookupPercent(req.items[i].taxRate, rates) &&
        q.items[i].amounts == CalculateAmounts(q.items[i])
  {
    PricedProcessedItems(req.items, key + 1, rates);
  }

  /** `new Quote(...)` and `calculateTotals()`. */
  method BuildQuote(cfg: Config, rates: map<Id, TaxRateModel.TaxRate>, req: CreateQuoteRequest, now: Time,
                    urlKey: string, number: string, key: Id) returns (q: Quote)
    ensures q == NewQuote(cfg, rates, req, now, urlKey, number, key)
  {
    q := CalculateTotals(DraftedQuote(cfg, rates, req, now, urlKey, number, key));
  }

  /** The part of `createQuote` after the series is found: number (unless a draft is
      not to be numbered), fresh keys, totals, validation, save. */
  method StoreNewQuote(db: Db, cfg: Config, rates: map<Id, TaxRateModel.TaxRate>, req: CreateQuoteRequest,
                       now: Time, year: int, month: int, urlKey: string) returns (o: Outcome<Id>)
    requires db.Valid() && req.series in db.series && 1 <= month <= 12
    modifies db`quotes, db`series, db`nextKey
    ensures db.Valid()
    ensures
      var numbered := AllocatesQuoteNumber(cfg.generateQuoteNumberForDraft, req.rest.status);
      var number := if numbered then SeriesModel.GenerateNumber(old(db.series)[req.series], year, month) else "";
      var id := old(db.nextKey);
      var q := NewQuote(cfg, rates, req, now, urlKey, number, id);
      db.series == (if numbered then old(db.series)[req.series := SeriesModel.Incremented(old(db.series)[req.series])]
                    else old(db.series)) &&
      db.nextKey == id + 1 + |req.items| &&
      (Valid(q) ==> o == Ok(id) && db.quotes == old(db.quotes)[id := q]) &&
      (!Valid(q) ==> o == Fail(ValidationError) && db.quotes == old(db.quotes))
  {
    var numbered := AllocatesQuoteNumber(cfg.generateQuoteNumberForDraft, req.rest.status);
    var number := db.TakeNumberIf(numbered, req.series, year, month);
    var id := db.NewKeys(1 + |req.items|);
    var q := BuildQuote(cfg, rates, req, now, urlKey, number, id);
    o := db.SaveQuote(id, q);
  }

  /** `createQuote`: 400 for an unknown series, before anything is written. */
  method CreateQuote(db: Db, cfg: Config, rates: map<Id, TaxRateModel.TaxRate>, req: CreateQuoteRequest,
                     now: Time, year: int, month: int, urlKey: string) returns (o: Outcome<Id>)
    requires db.Valid() && 1 <= month <= 12
    modifies db`quotes, db`series, db`nextKey
    ensures db.Valid()
    ensures req.series !in old(db.series) ==> o == Fail(BadRequest) && unchanged(db)
    ensures req.series in old(db.series) ==>
      var numbered := AllocatesQuoteNumber(cfg.generateQuoteNumberForDraft, req.rest.status);
      var number := if numbered then SeriesModel.GenerateNumber(old(db.series)[req.series], year, month) else "";
      var id := old(db.nextKey);
      var q := NewQuote(cfg, rates, req, now, urlKey, number, id);
      db.series == (if numbered then old(db.series)[req.series := SeriesModel.Incremented(old(db.series)[req.series])]
                    else old(db.series)) &&
      db.nextKey == id + 1 + |req.items| &&
      (Valid(q) ==> o == Ok(id) && db.quotes == old(db.quotes)[id := q]) &&
      (!Valid(q) ==> o == Fail(ValidationError) && db.quotes == old(db.quotes))
  {
    if req.series !in db.series {
      return Fail(BadRequest);
    }
    o := StoreNewQuote(db, cfg, rates, req, now, year, month, urlKey);
  }

  /** The quote `updateQuote` saves: the items replaced when sent (keyed from `first`),
      the other fields written, the totals recalculated. */
  function UpdatedQuote(q: Quote, req: UpdateQuoteRequest, rates: map<Id, TaxRateModel.TaxRate>, first: Id): Quote {
    var withItems := if req.items.Some? then q.(items := ProcessItems(req.items.value, first, rates)) else q;
    Totals(ApplyQuoteFields(withItems, req.rest))
  }

  /** An update that sends nothing only recalculates; the fields not sent keep their
      values, the guest key and the conversion reference among them. */
  lemma UpdatedQuoteKeepsUnsentFields(q: Quote, req: UpdateQuoteRequest, rates: map<Id, TaxRateModel.TaxRate>, first: Id)
    ensures req == UpdateQuoteRequest(None, NoQuoteFields) ==> UpdatedQuote(q, req, rates, first) == Totals(q)
    ensures var r := UpdatedQuote(q, req, rates, first);
      (req.rest.status.None? ==> r.status == q.status) &&
      (req.rest.number.None? ==> r.number == q.number) &&
      (req.rest.expires.None? ==> r.expires == q.expires) &&
      (req.items.None? ==> |r.items| == |q.items|) &&
      (req.rest.urlKey.None? ==> r.urlKey == q.urlKey) &&
      (req.rest.invoice.None? ==> r.invoice == q.invoice)
  {
  }

  /** The number of fresh item keys an update needs. */
  function ItemCount(items: Option<seq<ItemInput>>): nat {
    if items.Some? then |items.value| else 0
  }

  /** `updateQuote`: 404 for an unknown quote, 403 for a converted one. */
  method UpdateQuote(db: Db, rates: map<Id, TaxRateModel.TaxRate>, id: Id, req: UpdateQuoteRequest) returns (o: Outcome<Id>)
    requires db.Valid()
    modifies db`quotes, db`nextKey
    ensures db.Valid()
    ensures id !in old(db.quotes) ==> o == Fail(NotFound) && unchanged(db)
    ensures id in old(db.quotes) && IsConverted(old(db.quotes)[id]) ==> o == Fail(Forbidden) && unchanged(db)
    ensures id in old(db.quotes) && !IsConverted(old(db.quotes)[id]) ==>
      var q := UpdatedQuote(old(db.quotes)[id], req, rates, old(db.nextKey));
      db.nextKey == old(db.nextKey) + ItemCount(req.items) &&
      (Valid(q) ==> o == Ok(id) && db.quotes == old(db.quotes)[id := q]) &&
      (!Valid(q) ==> o == Fail(ValidationError) && db.quotes == old(db.quotes))
  {
    if id !in db.quotes {
      return Fail(NotFound);
    }
    var q := db.quotes[id];
    if q.invoice.Some? {
      return Fail(Forbidden);
    }
    var first := db.NewKeys(ItemCount(req.items));
    if req.items.Some? {
      q := q.(items := ProcessItems(req.items.value, first, rates));
    }
    q := ApplyQuoteFields(q, req.rest);
    q := CalculateTotals(q);
    o := db.SaveQuote(id, q);
  }

  /** `deleteQuote`: 404 for an unknown quote, 400 for a converted one. */
  method DeleteQuote(db: Db, id: Id) returns (o: Outcome<Id>)
    requires db.Valid()
    modifies db`quotes
    ensures db.Valid()
    ensures id !in old(db.quotes) ==> o == Fail(NotFound) && unchanged(db)
    ensures id in old(db.quotes) && IsConverted(old(db.quotes)[id]) ==> o == Fail(BadRequest) && unchanged(db)
    ensures id in old(db.quotes) && !IsConverted(old(db.quotes)[id]) ==> o == Ok(id) && db.quotes == old(db.quotes) - {id}
  {
    if id !in db.quotes {
      return Fail(NotFound);
    }
    if db.quotes[id].invoice.Some? {
      return Fail(BadRequest);
    }
    db.quotes := db.quotes - {id};
    o := Ok(id);
  }

  /** An active invoice series marked as default. */
  predicate DefaultInvoiceSeries(s: SeriesModel.Series) {
    s.documentType == SeriesModel.ForInvoice && s.isDefault && s.isActive
  }

  /** An active series for invoices, or for both document types. */
  predicate InvoiceSeries(s: SeriesModel.Series) {
    (s.documentType == SeriesModel.ForInvoice || s.documentType == SeriesModel.ForBoth) && s.isActive
  }

  /** The series `convertToInvoice` numbers with: the one requested when it exists (with
      no check of its type or state), else an active default invoice series, else any
      active invoice or both-types series, else any active series, else none. Which of
      several matches `findOne` returns is not determined. */
  ghost predicate ChosenSeries(series: map<Id, SeriesModel.Series>, requested: Option<Id>, r: Option<Id>) {
    if requested.Some? && requested.value in series then r == requested
    else if exists k :: k in series && DefaultInvoiceSeries(series[k]) then
      r.Some? && r.value in series && DefaultInvoiceSeries(series[r.value])
    else if exists k :: k in series && InvoiceSeries(series[k]) then
      r.Some? && r.value in series && InvoiceSeries(series[r.value])
    else if exists k :: k in series && series[k].isActive then
      r.Some? && r.value in series && series[r.value].isActive
    else r.None?
  }

  /** The fallback chain only fails when there is no active series at all and the
      request named none that exists; a series it falls back to is always active, while
      one that was requested is used even when inactive or reserved for quotations. */
  lemma ChosenSeriesSpec(series: map<Id, SeriesModel.Series>, requested: Option<Id>, r: Option<Id>)
    requires ChosenSeries(series, requested, r)
    ensures r.Some? ==> r.value in series
    ensures r.None? <==> !(requested.Some? && requested.value in series) && forall k :: k in series ==> !series[k].isActive
    ensures r.Some? && r != requested ==> series[r.value].isActive
  {
    if r.None? && !(requested.Some? && requested.value in series) {
      forall k | k in series ensures !series[k].isActive {
        assert !InvoiceSeries(series[k]);
      }
    }
  }

  /** The four lookups of `convertToInvoice`, in order. */
  method ChooseInvoiceSeries(db: Db, requested: Option<Id>) returns (r: Option<Id>)
    ensures ChosenSeries(db.series, requested, r)
  {
    if requested.Some? && requested.value in db.series {
      return requested;
    }
    if k :| k in db.series && DefaultInvoiceSeries(db.series[k]) {
      return Some(k);
    }
    if k :| k in db.series && InvoiceSeries(db.series[k]) {
      return Some(k);
    }
    if k :| k in db.series && db.series[k].isActive {
      return Some(k);
    }
    r := None;
  }

  /** The invoice `convertToInvoice` creates from quote `quoteId`: a draft numbered from
      `series`, the quote's client, items (with fresh keys after `key`, the invoice's
      own) and tax-rate entries, the quote's amounts with nothing paid and the whole
      total owed, created now and due `due`. The totals are not recalculated. */
  function ConvertedInvoice(q: Quote, quoteId: Id, series: Id, number: string, now: Time, due: Time,
                            urlKey: string, key: Id): InvoiceModel.Invoice
  {
    InvoiceModel.Invoice(q.client, series, number, urlKey, InvoiceModel.Draft, false, "", now, due,
                         Reidentified(q.items, key + 1),
                         InvoiceModel.Amounts(q.amounts.subtotal, q.amounts.itemTaxTotal, q.amounts.taxTotal,
                                              q.amounts.discountAmount, q.amounts.discountPercent, q.amounts.total,
                                              0.0, q.amounts.total),
                         q.taxRates, "", None, 1, None, Some(quoteId))
  }

  /** The quote after conversion: approved, and pointing at its invoice. */
  function Accepted(q: Quote, invoiceId: Id): Quote {
    q.(invoice := Some(invoiceId), status := Approved)
  }

  /** Converting a valid quote gives a valid invoice that carries the quote's total,
      owes all of it, refers back to the quote and has the quote's items apart from their
      keys; the quote becomes a valid, converted, approved quote that never expires. */
  lemma ConversionSpec(q: Quote, quoteId: Id, series: Id, number: string, now: Time, due: Time, urlKey: string, key: Id)
    requires Valid(q)
    ensures var inv := ConvertedInvoice(q, quoteId, series, number, now, due, urlKey, key);
      InvoiceModel.Valid(inv) && inv.status == InvoiceModel.Draft && inv.quote == Some(quoteId) &&
      inv.amounts.total == q.amounts.total && inv.amounts.balance == q.amounts.total && inv.amounts.paid == 0.0 &&
      |inv.items| == |q.items| &&
      (forall i :: 0 <= i < |q.items| ==> inv.items[i].(id := q.items[i].id) == q.items[i]) &&
      inv.taxRates == q.taxRates
    ensures var a := Accepted(q, key);
      Valid(a) && IsConverted(a) && a.status == Approved && (forall t :: !IsExpired(a, t)) &&
      a.items == q.items && a.amounts == q.amounts
  {
  }

  /** The part of `convertToInvoice` after a series was found: number, fresh keys, the
      invoice saved, the quote updated. */
  method StoreConversion(db: Db, cfg: Config, q: Quote, quoteId: Id, series: Id, now: Time, year: int, month: int,
                         urlKey: string) returns (invoiceId: Id)
    requires db.Valid() && Valid(q) && quoteId in db.quotes && series in db.series && 1 <= month <= 12
    modifies db`invoices, db`quotes, db`series, db`nextKey
    ensures db.Valid()
    ensures invoiceId == old(db.nextKey)
    ensures db.series == old(db.series)[series := SeriesModel.Incremented(old(db.series)[series])]
    ensures db.nextKey == invoiceId + 1 + |q.items|
    ensures db.invoices == old(db.invoices)[invoiceId := ConvertedInvoice(q, quoteId, series,
              SeriesModel.GenerateNumber(old(db.series)[series], year, month), now, AddDays(now, cfg.invoicesDueAfter),
              urlKey, invoiceId)]
    ensures db.quotes == old(db.quotes)[quoteId := Accepted(q, invoiceId)]
  {
    var number := db.TakeNumber(series, year, month);
    var due := AddDays(now, cfg.invoicesDueAfter);
    invoiceId := db.NewKeys(1 + |q.items|);
    var inv := ConvertedInvoice(q, quoteId, series, number, now, due, urlKey, invoiceId);
    ConversionSpec(q, quoteId, series, number, now, due, urlKey, invoiceId);
    db.PutInvoice(invoiceId, inv);
    db.PutQuote(quoteId, Accepted(q, invoiceId));
  }

  /** `convertToInvoice`: 404 for an unknown quote, 400 for one already converted (before
      any series is looked at) and 400 when no series is found. `chosen` is the series
      the invoice is numbered from. */
  method ConvertToInvoice(db: Db, cfg: Config, id: Id, requested: Option<Id>, now: Time, year: int, month: int,
                          urlKey: string) returns (o: Outcome<Id>, chosen: Option<Id>)
    requires db.Valid() && 1 <= month <= 12
    modifies db`invoices, db`quotes, db`series, db`nextKey
    ensures db.Valid()
    ensures id !in old(db.quotes) ==> o == Fail(NotFound) && unchanged(db)
    ensures id in old(db.quotes) && IsConverted(old(db.quotes)[id]) ==> o == Fail(BadRequest) && unchanged(db)
    ensures id in old(db.quotes) && !IsConverted(old(db.quotes)[id]) ==> ChosenSeries(old(db.series), requested, chosen)
    ensures id in old(db.quotes) && !IsConverted(old(db.quotes)[id]) && chosen.None? ==>
      o == Fail(BadRequest) && unchanged(db)
    ensures id in old(db.quotes) && !IsConverted(old(db.quotes)[id]) && chosen.Some? ==>
      var q := old(db.quotes)[id];
      var invoiceId := old(db.nextKey);
      o == Ok(invoiceId) && chosen.value in old(db.series) &&
      db.series == old(db.series)[chosen.value := SeriesModel.Incremented(old(db.series)[chosen.value])] &&
      db.nextKey == invoiceId + 1 + |q.items| &&
      db.invoices == old(db.invoices)[invoiceId := ConvertedInvoice(q, id, chosen.value,
                       SeriesModel.GenerateNumber(old(db.series)[chosen.value], year, month), now,
                       AddDays(now, cfg.invoicesDueAfter), urlKey, invoiceId)] &&
      db.quotes == old(db.quotes)[id := Accepted(q, invoiceId)]
  {
    chosen := None;
    if id !in db.quotes {
      return Fail(NotFound), chosen;
    }
    var q := db.quotes[id];
    if q.invoice.Some? {
      return Fail(BadRequest), chosen;
    }
    chosen := ChooseInvoiceSeries(db, requested);
    if chosen.None? {
      return Fail(BadRequest), chosen;
    }
    ChosenSeriesSpec(db.series, requested, chosen);
    var invoiceId := StoreConversion(db, cfg, q, id, chosen.value, now, year, month, urlKey);
    o := Ok(invoiceId);
  }

  /** A quote after `markAsSent`, given the number it ends up with. */
  function QuoteSent(q: Quote, number: string): Quote {
    q.(number := number, status := Sent)
  }

  /** `markAsSent`: numbers the quote only when it has none (a missing series is then an
      exception with nothing written), and sets the status to sent whatever it was,
      even on a converted quote. */
  method MarkQuoteAsSent(db: Db, id: Id, year: int, month: int) returns (o: Outcome<Id>)
    requires db.Valid() && 1 <= month <= 12
    modifies db`quotes, db`series
    ensures db.Valid()
    ensures id !in old(db.quotes) ==> o == Fail(NotFound) && unchanged(db)
    ensures id in old(db.quotes) && old(db.quotes)[id].number == "" && old(db.quotes)[id].series !in old(db.series) ==>
      o == Fail(ServerError) && unchanged(db)
    ensures id in old(db.quotes) && old(db.quotes)[id].number == "" && old(db.quotes)[id].series in old(db.series) ==>
      var q := old(db.quotes)[id];
      o == Ok(id) &&
      db.series == old(db.series)[q.series := SeriesModel.Incremented(old(db.series)[q.series])] &&
      db.quotes == old(db.quotes)[id := QuoteSent(q, SeriesModel.GenerateNumber(old(db.series)[q.series], year, month))]
    ensures id in old(db.quotes) && old(db.quotes)[id].number != "" ==>
      o == Ok(id) && db.series == old(db.series) &&
      db.quotes == old(db.quotes)[id := QuoteSent(old(db.quotes)[id], old(db.quotes)[id].number)]
  {
    if id !in db.quotes {
      return Fail(NotFound);
    }
    var q := db.quotes[id];
    var number := q.number;
    if number == "" {
      if q.series !in db.series {
        return Fail(ServerError);
      }
      number := db.TakeNumber(q.series, year, month);
    }
    db.PutQuote(id, QuoteSent(q, number));
    o := Ok(id);
  }

  /** The copy `copyQuote` saves: a draft with the source's client, series, amounts (as
      stored, not recalculated), tax-rate entries and notes, its items with fresh keys
      after `key`, created now and expiring `expires`, not converted. */
  function CopiedQuote(src: Quote, number: string, now: Time, expires: Time, urlKey: string, key: Id): Quote {
    Quote(src.client, src.series, number, urlKey, Draft, "", now, expires,
          Reidentified(src.items, key + 1), src.amounts, src.taxRates, src.notes, None)
  }

  /** A copy of a valid quote is a valid unconverted draft with the same amounts and
      the same items apart from their keys. */
  lemma CopiedQuoteSpec(src: Quote, number: string, now: Time, expires: Time, urlKey: string, key: Id)
    requires Valid(src)
    ensures var c := CopiedQuote(src, number, now, expires, urlKey, key);
      Valid(c) && c.status == Draft && !IsConverted(c) && c.amounts == src.amounts &&
      |c.items| == |src.items| &&
      (forall i :: 0 <= i < |src.items| ==> c.items[i].(id := src.items[i].id) == src.items[i]) &&
      c.notes == src.notes && c.taxRates == src.taxRates
  {
  }

  /** The part of `copyQuote` after the lookups. */
  method StoreQuoteCopy(db: Db, cfg: Config, src: Quote, now: Time, year: int, month: int, urlKey: string) returns (newId: Id)
    requires db.Valid() && Valid(src) && 1 <= month <= 12
    requires cfg.generateQuoteNumberForDraft ==> src.series in db.series
    modifies db`quotes, db`series, db`nextKey
    ensures db.Valid()
    ensures
      var number := if cfg.generateQuoteNumberForDraft then SeriesModel.GenerateNumber(old(db.series)[src.series], year, month) else "";
      newId == old(db.nextKey) &&
      db.series == (if cfg.generateQuoteNumberForDraft
                    then old(db.series)[src.series := SeriesModel.Incremented(old(db.series)[src.series])]
                    else old(db.series)) &&
      db.nextKey == newId + 1 + |src.items| &&
      db.quotes == old(db.quotes)[newId := CopiedQuote(src, number, now, AddDays(now, cfg.quotesExpireAfter), urlKey, newId)]
  {
    var number := "";
    if cfg.generateQuoteNumberForDraft {
      number := db.TakeNumber(src.series, year, month);
    }
    var expires := AddDays(now, cfg.quotesExpireAfter);
    newId := db.NewKeys(1 + |src.items|);
    var copy := CopiedQuote(src, number, now, expires, urlKey, newId);
    CopiedQuoteSpec(src, number, now, expires, urlKey, newId);
    db.PutQuote(newId, copy);
  }

  /** `copyQuote`: 404 for an unknown quote; when the copy is to be numbered, a missing
      series is an exception with nothing written. */
  method CopyQuote(db: Db, cfg: Config, id: Id, now: Time, year: int, month: int, urlKey: string) returns (o: Outcome<Id>)
    requires db.Valid() && 1 <= month <= 12
    modifies db`quotes, db`series, db`nextKey
    ensures db.Valid()
    ensures id !in old(db.quotes) ==> o == Fail(NotFound) && unchanged(db)
    ensures id in old(db.quotes) && cfg.generateQuoteNumberForDraft && old(db.quotes)[id].series !in old(db.series) ==>
      o == Fail(ServerError) && unchanged(db)
    ensures id in old(db.quotes) && (!cfg.generateQuoteNumberForDraft || old(db.quotes)[id].series in old(db.series)) ==>
      var src := old(db.quotes)[id];
      var number := if cfg.generateQuoteNumberForDraft then SeriesModel.GenerateNumber(old(db.series)[src.series], year, month) else "";
      var newId := old(db.nextKey);
      o == Ok(newId) &&
      db.series == (if cfg.generateQuoteNumberForDraft
                    then old(db.series)[src.series := SeriesModel.Incremented(old(db.series)[src.series])]
                    else old(db.series)) &&
      db.nextKey == newId + 1 + |src.items| &&
      db.quotes == old(db.quotes)[newId := CopiedQuote(src, number, now, AddDays(now, cfg.quotesExpireAfter), urlKey, newId)]
  {
    if id !in db.quotes {
      return Fail(NotFound);
    }
    var src := db.quotes[id];
    if cfg.generateQuoteNumberForDraft && src.series !in db.series {
      return Fail(ServerError);
    }
    var newId := StoreQuoteCopy(db, cfg, src, now, year, month, urlKey);
    o := Ok(newId);
  }
}

=== FILE: requests.dfy ===
/** Line items as they arrive in a request body, and the three ways the handlers turn
    them into stored items: the `items.map` of create/update, the body of
    `addInvoiceItem`, and the `{ ...stored, ...update }` merge of `updateInvoiceItem`. */
module ItemRequests {
  import opened Common
  import opened LineItems
  import opened TaxRateModel

  /** A line item in a request body: every field may be absent. */
  datatype ItemInput = ItemInput(
    name: Option<string>,
    description: Option<string>,
    quantity: Option<real>,
    price: Option<real>,
    discountAmount: Option<real>,
    taxRate: Option<Id>,
    taxRatePercent: Option<real>,
    order: Option<int>)

  /** The percent snapshot `TaxRate.findById(item.taxRate)` yields: the rate's percent,
      or 0 when no rate is referenced or the referenced rate does not exist. */
  function LookupPercent(taxRate: Option<Id>, rates: map<Id, TaxRate>): (p: real)
    ensures taxRate.None? ==> p == 0.0
    ensures taxRate.Some? && taxRate.value !in rates ==> p == 0.0
    ensures taxRate.Some? && taxRate.value in rates ==> p == rates[taxRate.value].percent
  {
    if taxRate.Some? && taxRate.value in rates then rates[taxRate.value].percent else 0.0
  }

  /** The item Mongoose builds from an input: absent fields take the schema defaults
      (description '', quantity 1, discount 0). An absent name or price is represented by
      '' and 0, which the validators reject just as they reject a missing value. */
  function NewItem(input: ItemInput, id: Id, percent: real, order: int): LineItem {
    LineItem(id, input.name.GetOr(""), input.description.GetOr(""), input.quantity.GetOr(1.0),
             input.price.GetOr(0.0), input.discountAmount.GetOr(0.0), input.taxRate, percent, order,
             NoItemAmounts)
  }

  /** The `items.map` of `createInvoice`/`updateInvoice`/`createQuote`/`updateQuote`: each
      item gets the looked-up percent (overriding any percent sent) and `order ?? index`;
      the item ids are `firstId`, `firstId + 1`, and so on. */
  function ProcessItems(inputs: seq<ItemInput>, firstId: Id, rates: map<Id, TaxRate>): (r: seq<LineItem>)
    ensures |r| == |inputs|
  {
    seq(|inputs|, i requires 0 <= i < |inputs| =>
      NewItem(inputs[i], firstId + i, LookupPercent(inputs[i].taxRate, rates), inputs[i].order.GetOr(i)))
  }

  /** What the processed items are: one per input, in the same order, with fresh
      consecutive ids, the order defaulting to the index, the percent snapshot taken from
      the tax-rate table (0 without a known rate), and the sent fields otherwise kept. */
  lemma ProcessItemsSpec(inputs: seq<ItemInput>, firstId: Id, rates: map<Id, TaxRate>)
    ensures var r := ProcessItems(inputs, firstId, rates);
      |r| == |inputs| &&
      forall i :: 0 <= i < |inputs| ==>
        r[i].id == firstId + i &&
        (inputs[i].order.None? ==> r[i].order == i) &&
        (inputs[i].order.Some? ==> r[i].order == inputs[i].order.value) &&
        (inputs[i].taxRate.None? ==> r[i].taxRatePercent == 0.0) &&
        (inputs[i].taxRate.Some? && inputs[i].taxRate.value in rates ==>
           r[i].taxRatePercent == rates[inputs[i].taxRate.value].percent) &&
        (inputs[i].quantity.None? ==> r[i].quantity == 1.0) &&
        (inputs[i].price.Some? ==> r[i].price == inputs[i].price.value) &&
        r[i].taxRate == inputs[i].taxRate
  {
    var r := ProcessItems(inputs, firstId, rates);
    forall i | 0 <= i < |inputs|
      ensures r[i] == NewItem(inputs[i], firstId + i, LookupPercent(inputs[i].taxRate, rates), inputs[i].order.GetOr(i))
    {
    }
  }

  /** Processed and then priced items: one per input, with consecutive keys, the
      snapshot percent, the default order, and amounts as `calculateAmounts` computes
      them. */
  lemma PricedProcessedItems(inputs: seq<ItemInput>, first: Id, rates: map<Id, TaxRate>)
    ensures var r := Priced(ProcessItems(inputs, first, rates));
      |r| == |inputs| &&
      forall i :: 0 <= i < |inputs| ==>
        r[i].id == first + i &&
        r[i].order == inputs[i].order.GetOr(i) &&
        r[i].taxRatePercent == LookupPercent(inputs[i].taxRate, rates) &&
        r[i].amounts == CalculateAmounts(r[i])
  {
    var p := ProcessItems(inputs, first, rates);
    var r := Priced(p);
    forall i | 0 <= i < |inputs|
      ensures r[i].amounts == CalculateAmounts(r[i])
    {
      assert r[i] == p[i].(amounts := CalculateAmounts(p[i]));
    }
  }

  /** The item `addInvoiceItem` pushes: the looked-up percent when a rate is referenced,
      otherwise the percent sent (default 0); the order is the current item count. */
  function AddedItem(input: ItemInput, id: Id, count: nat, rates: map<Id, TaxRate>): (it: LineItem)
    ensures it.order == count && it.id == id
    ensures input.taxRate.Some? ==> it.taxRatePercent == LookupPercent(input.taxRate, rates)
    ensures input.taxRate.None? ==> it.taxRatePercent == input.taxRatePercent.GetOr(0.0)
  {
    var percent := if input.taxRate.Some? then LookupPercent(input.taxRate, rates) else input.taxRatePercent.GetOr(0.0);
    NewItem(input, id, percent, count)
  }

  /** `{ ...stored, ...update }`: every field sent overrides the stored one; a referenced
      rate refreshes the percent snapshot. The item keeps its id. */
  function MergeItem(stored: LineItem, update: ItemInput, rates: map<Id, TaxRate>): (it: LineItem)
    ensures it.id == stored.id && it.amounts == stored.amounts
    ensures update.taxRate.Some? ==> it.taxRatePercent == LookupPercent(update.taxRate, rates)
    ensures update.taxRate.None? && update.taxRatePercent.None? ==> it.taxRatePercent == stored.taxRatePercent
    ensures update == ItemInput(None, None, None, None, None, None, None, None) ==> it == stored
  {
    var percent := if update.taxRate.Some? then LookupPercent(update.taxRate, rates)
                   else update.taxRatePercent.GetOr(stored.taxRatePercent);
    stored.(name := update.name.GetOr(stored.name),
           description := update.description.GetOr(stored.description),
           quantity := update.quantity.GetOr(stored.quantity),
           price := update.price.GetOr(stored.price),
           discountAmount := update.discountAmount.GetOr(stored.discountAmount),
           taxRate := if update.taxRate.Some? then update.taxRate else stored.taxRate,
           taxRatePercent := percent,
           order := update.order.GetOr(stored.order))
  }

  /** The document's items with fresh ids: the `_id: undefined` of the copy, credit and
      convert handlers. */
  function Reidentified(items: seq<LineItem>, firstId: Id): (r: seq<LineItem>)
    ensures |r| == |items|
    ensures forall i :: 0 <= i < |items| ==> r[i] == items[i].(id := firstId + i)
  {
    seq(|items|, i requires 0 <= i < |items| => items[i].(id := firstId + i))
  }
}

=== FILE: series.dfy ===
/** The number series (`InvoiceGroup`): the identifier format, the counter, and the rule
    that a company has at most one default series per document type. */
module SeriesModel {
  import opened Common
  import opened Text

  const ForInvoice := "invoice"
  const ForQuotation := "quotation"
  const ForBoth := "both"

  const IdPlaceholder := "{{{id}}}"
  const YearPlaceholder := "{{{year}}}"
  const MonthPlaceholder := "{{{month}}}"

  /** A number series. `format` is `identifierFormat`. */
  datatype Series = Series(
    belongsTo: Id,
    name: string,
    documentType: string,
    format: string,
    nextId: int,
    leftPad: int,
    isDefault: bool,
    isActive: bool)

  /** The schema bounds: a known document type, `nextId` at least 1 and `leftPad`
      between 0 and 10. */
  predicate Valid(s: Series) {
    (s.documentType == ForInvoice || s.documentType == ForQuotation || s.documentType == ForBoth)
    && s.nextId >= 1 && 0 <= s.leftPad <= 10
  }

  /** The id text: `nextId` in decimal, left-padded with '0' to `leftPad` characters
      when `leftPad` is positive. */
  function IdText(s: Series): string {
    var id := IntText(s.nextId);
    if s.leftPad > 0 then PadStart(id, s.leftPad, '0') else id
  }

  /** The month text: `(getMonth() + 1).toString().padStart(2, '0')`. */
  function MonthText(month: int): string
    requires 1 <= month <= 12
  {
    PadStart(Decimal(month), 2, '0')
  }

  /** `generateNumber()`: the format with the first `{{{id}}}`, then the first
      `{{{year}}}`, then the first `{{{month}}}` replaced. The clock is the `year`
      (`getFullYear`) and `month` (1 to 12) parameters. */
  function GenerateNumber(s: Series, year: int, month: int): string
    requires 1 <= month <= 12
  {
    ReplaceFirst(ReplaceFirst(ReplaceFirst(s.format, IdPlaceholder, IdText(s)), YearPlaceholder, IntText(year)),
                 MonthPlaceholder, MonthText(month))
  }

  /** The id text is never truncated: it is at least `leftPad` long, ends with the
      decimal `nextId`, has only '0' in front of it, and reads back as `nextId`. */
  lemma IdTextSpec(s: Series)
    requires s.nextId >= 0
    ensures var t := IdText(s); var d := Decimal(s.nextId);
      |t| >= |d| && |t| >= s.leftPad &&
      t[|t| - |d|..] == d &&
      (forall i :: 0 <= i < |t| - |d| ==> t[i] == '0') &&
      (s.leftPad <= |d| ==> t == d) &&
      AllDigits(t) && DigitsValue(t) == s.nextId
  {
    var d := Decimal(s.nextId);
    var t := IdText(s);
    DecimalRoundTrip(s.nextId);
    assert IntText(s.nextId) == d;
    if s.leftPad > |d| {
      var z := Repeat('0', s.leftPad - |d|);
      assert t == z + d;
      assert t[|z|..] == d;
      assert forall i :: 0 <= i < |z| ==> t[i] == z[i];
      LeadingZerosKeepValue(s.leftPad - |d|, d);
    } else {
      assert t == d;
    }
  }

  /** The month is always two digits, from "01" to "12", and reads back as the month. */
  lemma MonthTextSpec(month: int)
    requires 1 <= month <= 12
    ensures |MonthText(month)| == 2 && AllDigits(MonthText(month))
    ensures DigitsValue(MonthText(month)) == month
  {
    TwoDigitsSpec(month);
    assert MonthText(month) == TwoDigits(month);
  }

  /** A year from 1000 to 9999 is written with exactly four digits. */
  lemma YearTextSpec(year: int)
    requires 1000 <= year <= 9999
    ensures |IntText(year)| == 4 && AllDigits(IntText(year)) && DigitsValue(IntText(year)) == year
  {
    assert Pow10(3) == 1000 && Pow10(4) == 10000;
    DecimalLength(year, 4);
    DecimalRoundTrip(year);
  }

  /** 'INV-{{{year}}}-{{{id}}}' with `leftPad` 4, `nextId` 7 in March 2025 gives
      'INV-2025-0007'. */
  lemma GenerateNumberExample()
    ensures GenerateNumber(Series(0, "Invoices", ForInvoice, "INV-{{{year}}}-{{{id}}}", 7, 4, true, true), 2025, 3)
         == "INV-2025-0007"
  {
    var s := Series(0, "Invoices", ForInvoice, "INV-{{{year}}}-{{{id}}}", 7, 4, true, true);
    assert IdText(s) == "0007";
    assert IntText(2025) == "2025";
    ExampleIdStep();
    ExampleYearStep();
    ExampleMonthStep(MonthText(3));
  }

  lemma ExampleIdStep()
    ensures ReplaceFirst("INV-{{{year}}}-{{{id}}}", "{{{id}}}", "0007") == "INV-{{{year}}}-0007"
  {
    assert "INV-{{{year}}}-" + "0007" + "" == "INV-{{{year}}}-0007";
    assert "INV-{{{year}}}-" + "{{{id}}}" + "" == "INV-{{{year}}}-{{{id}}}";
    ExampleIdNotBefore();
    ReplaceFirstAfter("INV-{{{year}}}-", "{{{id}}}", "", "0007");
  }

  lemma ExampleIdNotBefore()
    ensures NoneBetween("INV-{{{year}}}-" + "{{{id}}}" + "", "{{{id}}}", 0, 15)
  {
    var s := "INV-{{{year}}}-" + "{{{id}}}" + "";
    assert s == "INV-{{{year}}}-{{{id}}}";
    assert NoneBetween(s, "{{{id}}}", 10, 15);
    assert NoneBetween(s, "{{{id}}}", 5, 15);
  }

  lemma ExampleYearStep()
    ensures ReplaceFirst("INV-{{{year}}}-0007", "{{{year}}}", "2025") == "INV-2025-0007"
  {
    assert "INV-" + "2025" + "-0007" == "INV-2025-0007";
    assert "INV-" + "{{{year}}}" + "-0007" == "INV-{{{year}}}-0007";
    ExampleYearNotBefore();
    ReplaceFirstAfter("INV-", "{{{year}}}", "-0007", "2025");
  }

  lemma ExampleYearNotBefore()
    ensures NoneBetween("INV-" + "{{{year}}}" + "-0007", "{{{year}}}", 0, 4)
  {
    var s := "INV-" + "{{{year}}}" + "-0007";
    assert s == "INV-{{{year}}}-0007";
    assert NoneBetween(s, "{{{year}}}", 2, 4);
  }

  lemma ExampleMonthStep(m: string)
    ensures ReplaceFirst("INV-2025-0007", "{{{month}}}", m) == "INV-2025-0007"
  {
    assert NoneBetween("INV-2025-0007", "{{{month}}}", 5, 13);
    NoOccurrenceByMatching("INV-2025-0007", "{{{month}}}");
  }

  /** Only the first `{{{id}}}` is replaced: a repeated placeholder stays literal. */
  lemma GenerateNumberFirstOccurrenceOnly()
    ensures GenerateNumber(Series(0, "S", ForBoth, "{{{id}}}/{{{id}}}", 12, 0, false, true), 2025, 3)
         == "12/{{{id}}}"
  {
    var s := Series(0, "S", ForBoth, "{{{id}}}/{{{id}}}", 12, 0, false, true);
    assert IdText(s) == "12";
    RepeatIdStep();
    RepeatNoDateSteps(IntText(2025), MonthText(3));
  }

  lemma RepeatIdStep()
    ensures ReplaceFirst("{{{id}}}/{{{id}}}", "{{{id}}}", "12") == "12/{{{id}}}"
  {
    assert "{{{id}}}/{{{id}}}" == "{{{id}}}" + "/{{{id}}}";
    ReplaceFirstAtStart("{{{id}}}", "/{{{id}}}", "12");
    assert "12" + "/{{{id}}}" == "12/{{{id}}}";
  }

  lemma RepeatNoDateSteps(y: string, m: string)
    ensures ReplaceFirst("12/{{{id}}}", "{{{year}}}", y) == "12/{{{id}}}"
    ensures ReplaceFirst("12/{{{id}}}", "{{{month}}}", m) == "12/{{{id}}}"
  {
    assert NoneBetween("12/{{{id}}}", "{{{year}}}", 5, 11);
    NoOccurrenceByMatching("12/{{{id}}}", "{{{year}}}");
    assert NoneBetween("12/{{{id}}}", "{{{month}}}", 5, 11);
    NoOccurrenceByMatching("12/{{{id}}}", "{{{month}}}");
  }

  /** `incrementNextId()`'s change to the series itself. */
  function Incremented(s: Series): (r: Series)
    ensures r.nextId == s.nextId + 1 && r.(nextId := s.nextId) == s
  {
    s.(nextId := s.nextId + 1)
  }

  /** Two series compete for the default when they belong to the same company and are
      for the same document type. */
  predicate SameGroup(a: Series, b: Series) {
    a.belongsTo == b.belongsTo && a.documentType == b.documentType
  }

  /** The pre-save hook's `updateMany`: when the saved series `s` is a default, every
      other series of its company and document type that is a default stops being one. */
  function ClearOtherDefaults(table: map<Id, Series>, id: Id, s: Series): (r: map<Id, Series>)
    ensures r.Keys == table.Keys
    ensures forall k :: k in table ==>
      r[k] == if s.isDefault && k != id && SameGroup(table[k], s) && table[k].isDefault
              then table[k].(isDefault := false) else table[k]
  {
    map k | k in table :: if s.isDefault && k != id && SameGroup(table[k], s) && table[k].isDefault
                          then table[k].(isDefault := false) else table[k]
  }

  /** At most one default series per company and document type. */
  predicate OneDefaultPerGroup(table: map<Id, Series>) {
    forall j, k :: j in table && k in table && j != k && table[j].isDefault && table[k].isDefault ==>
      !SameGroup(table[j], table[k])
  }

  /** Every series of the table is valid and keyed below `bound`. */
  predicate AllValid(table: map<Id, Series>, bound: nat) {
    forall k :: k in table ==> k < bound && Valid(table[k])
  }

  /** Saving a valid series under a key already in the table keeps every series valid:
      the hook only clears default flags. */
  lemma SaveKeepsValid(table: map<Id, Series>, id: Id, s: Series, bound: nat)
    requires AllValid(table, bound) && id in table && Valid(s)
    ensures AllValid(ClearOtherDefaults(table, id, s)[id := s], bound)
  {
    var r := ClearOtherDefaults(table, id, s)[id := s];
    forall k | k in r
      ensures k < bound && Valid(r[k])
    {
      assert k in table;
    }
  }

  /** Saving a series through the hook preserves "at most one default per company and
      document type". */
  lemma SaveKeepsOneDefault(table: map<Id, Series>, id: Id, s: Series)
    requires OneDefaultPerGroup(table)
    ensures OneDefaultPerGroup(ClearOtherDefaults(table, id, s)[id := s])
  {
    var r := ClearOtherDefaults(table, id, s)[id := s];
    forall j, k | j in r && k in r && j != k && r[j].isDefault && r[k].isDefault
      ensures !SameGroup(r[j], r[k])
    {
      if j == id {
        assert !SameGroup(table[k], s);
      } else if k == id {
        assert !SameGroup(table[j], s);
      } else {
        assert r[j] == table[j] && r[k] == table[k];
      }
    }
  }

  /** Saving a default series makes it the only default of its group; series of other
      companies or document types, and non-defaults, are left alone. */
  lemma SaveDefaultIsSoleDefault(table: map<Id, Series>, id: Id, s: Series)
    requires s.isDefault
    ensures var r := ClearOtherDefaults(table, id, s)[id := s];
      (forall k :: k in r && k != id && SameGroup(r[k], s) ==> !r[k].isDefault) &&
      (forall k :: k in table && k != id && !SameGroup(table[k], s) ==> r[k] == table[k])
  {
  }

  /** Saving a series that is not a default changes no other series. */
  lemma SaveNonDefaultChangesNothingElse(table: map<Id, Series>, id: Id, s: Series)
    requires !s.isDefault
    ensures ClearOtherDefaults(table, id, s) == table
  {
  }

  /** Re-saving a series without changing its company, document type or default flag
      (as `incrementNextId` does) leaves every other series as it was, provided the table
      already had at most one default per group. */
  lemma ResaveChangesNothingElse(table: map<Id, Series>, id: Id, s: Series)
    requires OneDefaultPerGroup(table) && id in table
    requires SameGroup(table[id], s) && s.isDefault == table[id].isDefault
    ensures ClearOtherDefaults(table, id, s) == table
  {
    var r := ClearOtherDefaults(table, id, s);
    forall k | k in table ensures r[k] == table[k] {
      if k != id && s.isDefault && SameGroup(table[k], s) && table[k].isDefault {
        assert SameGroup(table[id], table[k]);
      }
    }
  }
}

=== FILE: setting.dfy ===
/** The application settings: a key/value store with one record per key, grouped by
    category, read one value at a time or as a whole object. */
module SettingModel {
  import opened Common

  /** A setting's `Mixed` value. */
  datatype Value = Null | Bool(b: bool) | Num(n: real) | Str(s: string)

  /** The categories the schema's enum lists; `general` is the default. */
  const Categories: set<string> := {"general", "invoice", "quote", "email", "pdf", "payment", "appearance", "advanced"}
  const DefaultCategory: string := "general"

  datatype Setting = Setting(key: string, value: Value, category: string)

  /** The `unique` index on `key`. */
  predicate UniqueKeys(rs: seq<Setting>) {
    forall i, j :: 0 <= i < j < |rs| ==> rs[i].key != rs[j].key
  }

  /** Every record's category is one of the enumerated ones. */
  predicate CategoriesListed(rs: seq<Setting>) {
    forall i :: 0 <= i < |rs| ==> rs[i].category in Categories
  }

  /** The position of the first record with the key (`findOne({ key })`). */
  function IndexOfKey(rs: seq<Setting>, key: string): (r: Option<nat>)
    ensures r.Some? ==> r.value < |rs| && rs[r.value].key == key
    ensures r.Some? ==> forall i :: 0 <= i < r.value ==> rs[i].key != key
    ensures r.None? <==> forall i :: 0 <= i < |rs| ==> rs[i].key != key
  {
    if |rs| == 0 then None
    else if rs[0].key == key then Some(0)
    else match IndexOfKey(rs[1..], key)
      case None => None
      case Some(i) => Some(i + 1)
  }

  /** The stored value for the key, if there is a record for it. */
  function Lookup(rs: seq<Setting>, key: string): (r: Option<Value>)
    ensures r.None? <==> forall i :: 0 <= i < |rs| ==> rs[i].key != key
    ensures UniqueKeys(rs) ==> forall i :: 0 <= i < |rs| && rs[i].key == key ==> r == Some(rs[i].value)
  {
    match IndexOfKey(rs, key)
    case None => None
    case Some(i) => Some(rs[i].value)
  }

  /** The records after `findOneAndUpdate({ key }, { key, value, category }, { upsert: true })`:
      the record with the key is overwritten in place, or a new one is added at the end. */
  function Upserted(rs: seq<Setting>, key: string, value: Value, category: string): seq<Setting> {
    match IndexOfKey(rs, key)
    case Some(i) => rs[i := Setting(key, value, category)]
    case None => rs + [Setting(key, value, category)]
  }

  /** After an upsert the key holds the new value and category, an existing key is
      overwritten rather than repeated, every other key keeps its record, and the keys
      stay unique; a listed category keeps every category listed. */
  lemma UpsertedSpec(rs: seq<Setting>, key: string, value: Value, category: string)
    requires UniqueKeys(rs)
    ensures var r := Upserted(rs, key, value, category);
      UniqueKeys(r) &&
      Lookup(r, key) == Some(value) &&
      (forall i :: 0 <= i < |r| && r[i].key == key ==> r[i].category == category) &&
      (forall k :: k != key ==> Lookup(r, k) == Lookup(rs, k)) &&
      |r| == (if Lookup(rs, key).Some? then |rs| else |rs| + 1) &&
      (CategoriesListed(rs) && category in Categories ==> CategoriesListed(r))
  {
    var r := Upserted(rs, key, value, category);
    match IndexOfKey(rs, key)
    case Some(i) =>
      assert r[i].key == key;
      forall k | k != key ensures Lookup(r, k) == Lookup(rs, k) {
        if Lookup(rs, k).Some? {
          var j := IndexOfKey(rs, k).value;
          assert r[j] == rs[j];
        } else {
          assert forall j :: 0 <= j < |r| ==> r[j].key != k by {
            forall j | 0 <= j < |r| ensures r[j].key != k {
              if j != i { assert r[j] == rs[j]; }
            }
          }
        }
      }
    case None =>
      assert r[|rs|].key == key;
      forall k | k != key ensures Lookup(r, k) == Lookup(rs, k) {
        if Lookup(rs, k).Some? {
          var j := IndexOfKey(rs, k).value;
          assert r[j] == rs[j];
        }
      }
  }

  /** The object the `forEach` builds: each record in turn sets its key, so a later
      record would win. */
  function AsObject(rs: seq<Setting>): map<string, Value> {
    if |rs| == 0 then map[] else AsObject(rs[..|rs| - 1])[rs[|rs| - 1].key := rs[|rs| - 1].value]
  }

  /** The object holds exactly the stored keys, and with unique keys each key maps to
      its own record's value. */
  lemma {:induction false} AsObjectSpec(rs: seq<Setting>)
    ensures AsObject(rs).Keys == set i | 0 <= i < |rs| :: rs[i].key
    ensures UniqueKeys(rs) ==> forall i :: 0 <= i < |rs| ==> AsObject(rs)[rs[i].key] == rs[i].value
  {
    if |rs| > 0 {
      var init := rs[..|rs| - 1];
      var last := rs[|rs| - 1];
      AsObjectSpec(init);
      assert forall i :: 0 <= i < |init| ==> init[i] == rs[i];
      assert (set i | 0 <= i < |rs| :: rs[i].key) == (set i | 0 <= i < |init| :: init[i].key) + {last.key};
      if UniqueKeys(rs) {
        assert UniqueKeys(init);
        forall i | 0 <= i < |rs|
          ensures AsObject(rs)[rs[i].key] == rs[i].value
        {
          if i < |init| {
            assert rs[i].key != last.key;
            assert AsObject(rs)[rs[i].key] == AsObject(init)[init[i].key];
          }
        }
      }
    }
  }

  /** With unique keys the object agrees with a lookup of every key. */
  lemma AsObjectLookup(rs: seq<Setting>, key: string)
    requires UniqueKeys(rs)
    ensures key in AsObject(rs) <==> Lookup(rs, key).Some?
    ensures key in AsObject(rs) ==> AsObject(rs)[key] == Lookup(rs, key).value
  {
    AsObjectSpec(rs);
    if Lookup(rs, key).Some? {
      var i := IndexOfKey(rs, key).value;
      assert rs[i].key in AsObject(rs).Keys;
    }
  }

  /** Dropping the first record keeps the keys unique, and no later record shares the
      first record's key. */
  lemma UniqueKeysTail(rs: seq<Setting>)
    requires |rs| > 0
    ensures UniqueKeys(rs) ==> UniqueKeys(rs[1..]) && forall s :: s in rs[1..] ==> s.key != rs[0].key
  {
    if UniqueKeys(rs) {
      forall s | s in rs[1..]
        ensures s.key != rs[0].key
      {
        var j :| 0 <= j < |rs[1..]| && rs[1..][j] == s;
        assert s == rs[j + 1];
      }
    }
  }

  /** The records of one category, in stored order (`find({ category })`). */
  function InCategory(rs: seq<Setting>, category: string): (r: seq<Setting>)
    ensures forall s :: s in r <==> s in rs && s.category == category
    ensures UniqueKeys(rs) ==> UniqueKeys(r)
  {
    if |rs| == 0 then []
    else
      var rest := InCategory(rs[1..], category);
      UniqueKeysTail(rs);
      if rs[0].category == category then [rs[0]] + rest else rest
  }

  /** The setting collection. */
  class SettingStore {
    var records: seq<Setting>

    predicate Valid()
      reads this
    {
      UniqueKeys(records)
    }

    constructor ()
      ensures Valid() && records == []
    {
      records := [];
    }

    /** `getValue(key, defaultValue)`: the stored value, or the default (null when the
        caller gives none) when no record has the key. */
    function GetValue(key: string, defaultValue: Option<Value>): (r: Value)
      reads this
      ensures (forall i :: 0 <= i < |records| ==> records[i].key != key) ==> r == defaultValue.GetOr(Null)
      ensures Valid() ==> forall i :: 0 <= i < |records| && records[i].key == key ==> r == records[i].value
    {
      match Lookup(records, key)
      case Some(v) => v
      case None => defaultValue.GetOr(Null)
    }

    /** `setValue(key, value, category)`: an upsert; the category defaults to general.
        The update runs no validators, so the category is stored as given. */
    method SetValue(key: string, value: Value, category: Option<string>) returns (saved: Setting)
      requires Valid()
      modifies this
      ensures Valid()
      ensures saved == Setting(key, value, category.GetOr(DefaultCategory))
      ensures records == Upserted(old(records), key, value, category.GetOr(DefaultCategory))
      ensures GetValue(key, None) == value
      ensures forall k :: k != key ==> GetValue(k, None) == old(GetValue(k, None))
    {
      var c := category.GetOr(DefaultCategory);
      UpsertedSpec(records, key, value, c);
      records := Upserted(records, key, value, c);
      saved := Setting(key, value, c);
    }

    /** `getAllAsObject`: every stored key mapped to its value. */
    method GetAllAsObject() returns (obj: map<string, Value>)
      ensures obj == AsObject(records)
    {
      obj := map[];
      var i := 0;
      while i < |records|
        invariant 0 <= i <= |records|
        invariant obj == AsObject(records[..i])
      {
        assert records[..i + 1][..i] == records[..i];
        obj := obj[records[i].key := records[i].value];
        i := i + 1;
      }
      assert records[..i] == records;
    }

    /** `getByCategory(category)`: the keys of that category mapped to their values. */
    method GetByCategory(category: string) returns (obj: map<string, Value>)
      ensures obj == AsObject(InCategory(records, category))
    {
      var matching := InCategory(records, category);
      obj := map[];
      var i := 0;
      while i < |matching|
        invariant 0 <= i <= |matching|
        invariant obj == AsObject(matching[..i])
      {
        assert matching[..i + 1][..i] == matching[..i];
        obj := obj[matching[i].key := matching[i].value];
        i := i + 1;
      }
      assert matching[..i] == matching;
    }
  }

  /** The category object holds exactly the keys of that category, each with its value. */
  lemma ByCategorySpec(rs: seq<Setting>, category: string)
    requires UniqueKeys(rs)
    ensures forall key :: key in AsObject(InCategory(rs, category)) <==>
      exists i :: 0 <= i < |rs| && rs[i].key == key && rs[i].category == category
    ensures forall i :: 0 <= i < |rs| && rs[i].category == category ==>
      AsObject(InCategory(rs, category))[rs[i].key] == rs[i].value
  {
    var m := InCategory(rs, category);
    AsObjectSpec(m);
    forall key ensures key in AsObject(m) <==> exists i :: 0 <= i < |rs| && rs[i].key == key && rs[i].category == category {
      if key in AsObject(m) {
        var j :| 0 <= j < |m| && m[j].key == key;
        assert m[j] in m;
        var i :| 0 <= i < |rs| && rs[i] == m[j];
      }
      if exists i :: 0 <= i < |rs| && rs[i].key == key && rs[i].category == category {
        var i :| 0 <= i < |rs| && rs[i].key == key && rs[i].category == category;
        assert rs[i] in rs;
        var j :| 0 <= j < |m| && m[j] == rs[i];
        assert key in AsObject(m).Keys;
      }
    }
    forall i | 0 <= i < |rs| && rs[i].category == category ensures AsObject(m)[rs[i].key] == rs[i].value {
      assert rs[i] in rs;
      var j :| 0 <= j < |m| && m[j] == rs[i];
    }
  }
}

=== FILE: task.dfy ===
/** Project tasks: the status codes with their labels, the price and status bounds and
    the overdue rule. */
module TaskModel {
  import opened Common
  import Text

  const NotStarted: int := 0
  const InProgress: int := 1
  const Complete: int := 2
  const Invoiced: int := 3
  const Cancelled: int := 4

  datatype Task = Task(name: string, price: real, finishDate: Option<Time>, status: int)

  /** The schema bounds: a name, a price not below 0 and one of the five status codes. */
  predicate Valid(t: Task) {
    Text.Trim(t.name) != [] && t.price >= 0.0 && NotStarted <= t.status <= Cancelled
  }

  /** The `isOverdue` virtual at time `now`. */
  function IsOverdue(t: Task, now: Time): bool {
    if t.status >= Complete then false
    else if t.finishDate.None? then false
    else now > t.finishDate.value
  }

  /** A finished, invoiced or cancelled task, or one without a finish date, is never
      overdue; any other task is overdue exactly when the finish date has passed, and then
      stays overdue as time goes on. */
  lemma IsOverdueSpec(t: Task, now: Time, later: Time)
    ensures t.status >= Complete ==> !IsOverdue(t, now)
    ensures t.finishDate.None? ==> !IsOverdue(t, now)
    ensures t.status < Complete && t.finishDate.Some? ==> (IsOverdue(t, now) <==> now > t.finishDate.value)
    ensures IsOverdue(t, now) && now <= later ==> IsOverdue(t, later)
  {
  }

  /** One entry of `statusLabels`. */
  datatype Label = Label(text: string, cssClass: string)

  /** `statusLabels[status]`, absent for a code outside the enum. */
  function StatusLabel(status: int): (r: Option<Label>)
    ensures r.Some? <==> NotStarted <= status <= Cancelled
  {
    if status == NotStarted then Some(Label("Not Started", "secondary"))
    else if status == InProgress then Some(Label("In Progress", "primary"))
    else if status == Complete then Some(Label("Complete", "success"))
    else if status == Invoiced then Some(Label("Invoiced", "info"))
    else if status == Cancelled then Some(Label("Cancelled", "danger"))
    else None
  }

  /** Every valid task has a label, and the five labels are distinct. */
  lemma StatusLabelsSpec(t: Task, s1: int, s2: int)
    ensures Valid(t) ==> StatusLabel(t.status).Some?
    ensures StatusLabel(s1).Some? && StatusLabel(s2).Some? && s1 != s2 ==>
      StatusLabel(s1).value.text != StatusLabel(s2).value.text &&
      StatusLabel(s1).value.cssClass != StatusLabel(s2).value.cssClass
  {
    if StatusLabel(s1).Some? && StatusLabel(s2).Some? && s1 != s2 {
      var l1, l2 := StatusLabel(s1).value, StatusLabel(s2).value;
      assert l1.text[0] != l2.text[0] || |l1.text| != |l2.text|;
      assert l1.cssClass[0] != l2.cssClass[0] || |l1.cssClass| != |l2.cssClass|;
    }
  }
}

=== FILE: tax_rate.dfy ===
/** Tax rates: the percent bounds and the rule that a company has at most one default
    rate, kept by the pre-save hook. */
module TaxRateModel {
  import opened Common
  import Text

  datatype TaxRate = TaxRate(belongsTo: Id, name: string, percent: real, isDefault: bool, isActive: bool)

  /** The schema validators: a name that is not blank once trimmed, and a percent
      between 0 and 100. */
  predicate ValidRate(r: TaxRate) {
    Text.Trim(r.name) != [] && 0.0 <= r.percent <= 100.0
  }

  /** The record as stored: the `trim` setter applied to the name. */
  function Stored(r: TaxRate): (s: TaxRate)
    ensures s.name == Text.Trim(r.name) && s.(name := r.name) == r
    ensures ValidRate(r) ==> ValidRate(s)
  {
    Text.TrimIdempotent(r.name);
    r.(name := Text.Trim(r.name))
  }

  /** The pre-save hook's `updateMany`: when the saved rate is a default, every other
      rate of the same company gets `isDefault` false. */
  function ClearOtherDefaults(table: map<Id, TaxRate>, id: Id, r: TaxRate): (t: map<Id, TaxRate>)
    ensures t.Keys == table.Keys
    ensures forall k :: k in table ==>
      t[k] == if r.isDefault && k != id && table[k].belongsTo == r.belongsTo then table[k].(isDefault := false) else table[k]
  {
    map k | k in table :: if r.isDefault && k != id && table[k].belongsTo == r.belongsTo
                          then table[k].(isDefault := false) else table[k]
  }

  /** The table after a successful save of `r` under `id`. */
  function Saved(table: map<Id, TaxRate>, id: Id, r: TaxRate): map<Id, TaxRate> {
    ClearOtherDefaults(table, id, r)[id := Stored(r)]
  }

  predicate OneDefaultPerCompany(table: map<Id, TaxRate>) {
    forall j, k :: j in table && k in table && j != k && table[j].isDefault && table[k].isDefault ==>
      table[j].belongsTo != table[k].belongsTo
  }

  /** Saving keeps at most one default rate per company. */
  lemma SaveKeepsOneDefault(table: map<Id, TaxRate>, id: Id, r: TaxRate)
    requires OneDefaultPerCompany(table)
    ensures OneDefaultPerCompany(Saved(table, id, r))
  {
    var t := Saved(table, id, r);
    forall j, k | j in t && k in t && j != k && t[j].isDefault && t[k].isDefault
      ensures t[j].belongsTo != t[k].belongsTo
    {
      if j != id && k != id {
        assert t[j] == table[j] && t[k] == table[k];
      }
    }
  }

  /** Saving a default rate stores it as a default and leaves it the only default of its
      company. */
  lemma SaveDefaultIsSoleDefault(table: map<Id, TaxRate>, id: Id, r: TaxRate)
    requires r.isDefault
    ensures var t := Saved(table, id, r);
      t.Keys == table.Keys + {id} && t[id] == Stored(r) && t[id].isDefault &&
      forall k :: k in t && k != id && t[k].belongsTo == r.belongsTo ==> !t[k].isDefault
  {
    var c := ClearOtherDefaults(table, id, r);
    var t := Saved(table, id, r);
    assert t == c[id := Stored(r)];
    assert t[id] == Stored(r) && t[id].isDefault;
    forall k | k in t && k != id && t[k].belongsTo == r.belongsTo
      ensures !t[k].isDefault
    {
      assert t[k] == c[k];
    }
  }

  /** A save changes no other rate beyond its `isDefault` flag, and leaves the rates of
      other companies exactly as they were. */
  lemma SaveOnlyClearsDefaults(table: map<Id, TaxRate>, id: Id, r: TaxRate)
    ensures var t := Saved(table, id, r);
      (forall k :: k in table && k != id && table[k].belongsTo != r.belongsTo ==> t[k] == table[k]) &&
      (forall k :: k in table && k != id ==> t[k] == table[k].(isDefault := t[k].isDefault))
  {
    var c := ClearOtherDefaults(table, id, r);
    var t := Saved(table, id, r);
    forall k | k in table && k != id
      ensures t[k] == c[k]
    {
    }
  }

  /** Saving a rate that is not a default changes no other record. */
  lemma SaveNonDefaultChangesNothingElse(table: map<Id, TaxRate>, id: Id, r: TaxRate)
    requires !r.isDefault
    ensures forall k :: k in table && k != id ==> Saved(table, id, r)[k] == table[k]
  {
  }

  /** The tax-rate collection. */
  class TaxRateStore {
    var rates: map<Id, TaxRate>

    ghost predicate Valid()
      reads this
    {
      OneDefaultPerCompany(rates) && forall k :: k in rates ==> ValidRate(rates[k])
    }

    constructor()
      ensures Valid() && rates == map[]
    {
      rates := map[];
    }

    /** `taxRate.save()`: validation first (nothing is written when it fails), then the
        pre-save hook clears the other defaults of the company one record at a time,
        then the record itself is written. */
    method Save(id: Id, r: TaxRate) returns (o: Outcome<Id>)
      requires Valid()
      modifies this
      ensures Valid()
      ensures !ValidRate(r) ==> o == Fail(ValidationError) && rates == old(rates)
      ensures ValidRate(r) ==> o == Ok(id) && rates == Saved(old(rates), id, r)
    {
      if !ValidRate(r) {
        return Fail(ValidationError);
      }
      ghost var start := rates;
      ClearDefaults(id, r);
      rates := rates[id := Stored(r)];
      SaveKeepsOneDefault(start, id, r);
      o := Ok(id);
    }

    /** The hook's `updateMany`, one matching record at a time. */
    method ClearDefaults(id: Id, r: TaxRate)
      modifies this
      ensures rates == ClearOtherDefaults(old(rates), id, r)
    {
      if !r.isDefault {
        return;
      }
      ghost var start := rates;
      ghost var target := ClearOtherDefaults(rates, id, r);
      var todo := rates.Keys;
      while todo != {}
        invariant todo <= start.Keys && rates.Keys == start.Keys == target.Keys
        invariant forall k :: k in start ==> rates[k] == if k in todo then start[k] else target[k]
        decreases |todo|
      {
        var k :| k in todo;
        assert rates[k] == start[k];
        if k != id && rates[k].belongsTo == r.belongsTo {
          rates := rates[k := rates[k].(isDefault := false)];
        }
        todo := todo - {k};
      }
    }
  }
}

=== FILE: text.dfy ===
/** The JavaScript string operations the billing code relies on, on `seq<char>`:
    `Number.prototype.toString`, `padStart`, `replace` with a string pattern (first
    occurrence), `replace` with a global pattern, `trim`, and ASCII case mapping. */
module Text {
  import opened Common

  predicate IsDigit(c: char) {
    '0' <= c <= '9'
  }

  predicate AllDigits(s: string) {
    forall i :: 0 <= i < |s| ==> IsDigit(s[i])
  }

  function DigitChar(d: nat): (c: char)
    requires d < 10
    ensures IsDigit(c)
  {
    "0123456789"[d]
  }

  function DigitValue(c: char): nat
    requires IsDigit(c)
  {
    c as int - '0' as int
  }

  /** `n.toString()` for a non-negative integer: its decimal digits, most significant first. */
  function Decimal(n: nat): (s: string)
    ensures |s| >= 1 && AllDigits(s)
    decreases n
  {
    if n < 10 then [DigitChar(n)] else Decimal(n / 10) + [DigitChar(n % 10)]
  }

  /** The number a string of decimal digits denotes (an independent reading of `Decimal`). */
  function DigitsValue(s: string): nat
    requires AllDigits(s)
  {
    if s == [] then 0 else DigitsValue(s[..|s| - 1]) * 10 + DigitValue(s[|s| - 1])
  }

  lemma DigitCharValue(d: nat)
    requires d < 10
    ensures DigitValue(DigitChar(d)) == d
  {
  }

  /** `Decimal` loses nothing: reading its digits back gives the number. */
  lemma {:induction false} DecimalRoundTrip(n: nat)
    ensures DigitsValue(Decimal(n)) == n
    decreases n
  {
    var s := Decimal(n);
    if n < 10 {
      DigitCharValue(n);
    } else {
      DecimalRoundTrip(n / 10);
      DigitCharValue(n % 10);
      assert s[..|s| - 1] == Decimal(n / 10);
    }
  }

  /** `Decimal` writes no leading zero (except for the number zero itself). */
  lemma {:induction false} DecimalNoLeadingZero(n: nat)
    ensures Decimal(n)[0] == '0' <==> n == 0
    decreases n
  {
    if n >= 10 {
      DecimalNoLeadingZero(n / 10);
    }
  }

  /** A number from 10^(k-1) up to (excluding) 10^k has exactly k decimal digits. */
  lemma {:induction false} DecimalLength(n: nat, k: nat)
    requires k >= 1 && Pow10(k - 1) <= n < Pow10(k)
    ensures |Decimal(n)| == k
    decreases k
  {
    if k > 1 {
      assert n >= 10;
      DecimalLength(n / 10, k - 1);
    }
  }

  function Pow10(k: nat): nat {
    if k == 0 then 1 else 10 * Pow10(k - 1)
  }

  /** `c` repeated `n` times. */
  function Repeat(c: char, n: nat): (r: string)
    ensures |r| == n && forall i :: 0 <= i < n ==> r[i] == c
  {
    seq(n, _ => c)
  }

  /** `s.padStart(width, c)`: `s` unchanged when it already has at least `width`
      characters, otherwise `c` repeated in front of it up to `width` characters. */
  function PadStart(s: string, width: int, c: char): (r: string)
    ensures |r| == if width > |s| then width else |s|
    ensures r[|r| - |s|..] == s
    ensures forall i :: 0 <= i < |r| - |s| ==> r[i] == c
  {
    if width <= |s| then s else Repeat(c, width - |s|) + s
  }

  /** `n.toString()` for any integer. */
  function IntText(n: int): (r: string)
    ensures n >= 0 ==> r == Decimal(n)
  {
    if n < 0 then "-" + Decimal(-n) else Decimal(n)
  }

  /** Zeros in front of a digit string do not change the number it denotes. */
  lemma {:induction false} LeadingZerosKeepValue(k: nat, s: string)
    requires AllDigits(s)
    ensures AllDigits(Repeat('0', k) + s)
    ensures DigitsValue(Repeat('0', k) + s) == DigitsValue(s)
    decreases |s|
  {
    var z := Repeat('0', k);
    if s == [] {
      assert z + s == z;
      ZerosValue(k);
    } else {
      var init := s[..|s| - 1];
      LeadingZerosKeepValue(k, init);
      assert (z + s)[..|z + s| - 1] == z + init;
    }
  }

  lemma {:induction false} ZerosValue(k: nat)
    ensures AllDigits(Repeat('0', k)) && DigitsValue(Repeat('0', k)) == 0
    decreases k
  {
    if k > 0 {
      ZerosValue(k - 1);
      assert Repeat('0', k)[..k - 1] == Repeat('0', k - 1);
    }
  }

  /** `n.toString().padStart(2, '0')` for a number below 100. */
  function TwoDigits(n: nat): string
    requires n < 100
  {
    PadStart(Decimal(n), 2, '0')
  }

  /** Two digits, always, reading back as the number. */
  lemma TwoDigitsSpec(n: nat)
    requires n < 100
    ensures |TwoDigits(n)| == 2 && AllDigits(TwoDigits(n))
    ensures DigitsValue(TwoDigits(n)) == n
  {
    DecimalRoundTrip(n);
    var d := Decimal(n);
    if n < 10 {
      assert TwoDigits(n) == Repeat('0', 1) + d;
      LeadingZerosKeepValue(1, d);
    } else {
      DecimalLength(n, 2);
    }
  }

  /** `pat` occurs in `s` starting at index `k`. */
  predicate OccursAt(s: string, pat: string, k: int) {
    0 <= k && k + |pat| <= |s| && s[k..k + |pat|] == pat
  }

  /** The first index at or after `from` where `pat` occurs in `s` (`s.indexOf(pat, from)`). */
  function IndexOfFrom(s: string, pat: string, from: nat): (r: Option<nat>)
    ensures r.Some? ==> from <= r.value && OccursAt(s, pat, r.value)
    ensures r.Some? ==> forall k :: from <= k < r.value ==> !OccursAt(s, pat, k)
    ensures r.None? ==> forall k :: from <= k ==> !OccursAt(s, pat, k)
    decreases |s| - from
  {
    if from + |pat| > |s| then None
    else if s[from..from + |pat|] == pat then Some(from)
    else IndexOfFrom(s, pat, from + 1)
  }

  /** `i` is the first index at which `pat` occurs in `s`. */
  predicate FirstOccurrence(s: string, pat: string, i: int) {
    OccursAt(s, pat, i) && forall k :: 0 <= k < i ==> !OccursAt(s, pat, k)
  }

  /** `pat[j..]` matches `s` from index `k + j` on: a character-by-character reading of
      `OccursAt` that the verifier can evaluate on literal strings. */
  predicate MatchFrom(s: string, pat: string, k: nat, j: nat)
    decreases |pat| - j
  {
    if j >= |pat| then k + |pat| <= |s| else k + j < |s| && s[k + j] == pat[j] && MatchFrom(s, pat, k, j + 1)
  }

  lemma {:induction false} MatchFromSlice(s: string, pat: string, k: nat, j: nat)
    requires j <= |pat|
    ensures MatchFrom(s, pat, k, j) <==> k + |pat| <= |s| && s[k + j..k + |pat|] == pat[j..]
    decreases |pat| - j
  {
    if j < |pat| {
      MatchFromSlice(s, pat, k, j + 1);
      if k + |pat| <= |s| {
        assert s[k + j..k + |pat|] == [s[k + j]] + s[k + j + 1..k + |pat|];
        assert pat[j..] == [pat[j]] + pat[j + 1..];
      }
    }
  }

  /** `MatchFrom` from the start of the pattern is exactly an occurrence. */
  lemma MatchFromOccurs(s: string, pat: string, k: nat)
    ensures MatchFrom(s, pat, k, 0) <==> OccursAt(s, pat, k)
  {
    MatchFromSlice(s, pat, k, 0);
  }

  /** `pat` does not occur at any index from `k` up to (excluding) `n`. */
  predicate NoneBetween(s: string, pat: string, k: nat, n: nat)
    decreases n - k
  {
    k >= n || (!MatchFrom(s, pat, k, 0) && NoneBetween(s, pat, k + 1, n))
  }

  lemma {:induction false} NoneBetweenSound(s: string, pat: string, k: nat, n: nat)
    requires NoneBetween(s, pat, k, n)
    ensures forall m :: k <= m < n ==> !OccursAt(s, pat, m)
    decreases n - k
  {
    if k < n {
      MatchFromOccurs(s, pat, k);
      NoneBetweenSound(s, pat, k + 1, n);
    }
  }

  /** A decidable test for a first occurrence, for literal strings. */
  lemma FirstOccurrenceByMatching(s: string, pat: string, i: nat)
    requires MatchFrom(s, pat, i, 0) && NoneBetween(s, pat, 0, i)
    ensures FirstOccurrence(s, pat, i)
  {
    MatchFromOccurs(s, pat, i);
    NoneBetweenSound(s, pat, 0, i);
  }

  /** A decidable test for the absence of a non-empty pattern, for literal strings. */
  lemma NoOccurrenceByMatching(s: string, pat: string)
    requires |pat| > 0 && NoneBetween(s, pat, 0, |s|)
    ensures forall k :: !OccursAt(s, pat, k)
  {
    NoneBetweenSound(s, pat, 0, |s|);
  }

  /** `s.replace(pat, rep)` with a string pattern: only the first occurrence of `pat`
      is replaced; without an occurrence the string is unchanged. */
  function ReplaceFirst(s: string, pat: string, rep: string): (r: string)
    ensures (forall k :: !OccursAt(s, pat, k)) ==> r == s
    ensures forall i :: FirstOccurrence(s, pat, i) ==> r == s[..i] + rep + s[i + |pat|..]
  {
    match IndexOfFrom(s, pat, 0)
    case None => s
    case Some(i) => s[..i] + rep + s[i + |pat|..]
  }

  /** A slice of a concatenation that lies wholly inside its right-hand part. */
  lemma SliceOfRight(a: string, b: string, lo: int, hi: int)
    requires |a| <= lo <= hi <= |a| + |b|
    ensures (a + b)[lo..hi] == b[lo - |a|..hi - |a|]
  {
  }

  /** Replacing the text up to the end of the occurrence at `i` shifts a later
      occurrence at `j` by the change in length. */
  lemma LaterOccurrenceShifts(s: string, pat: string, rep: string, i: int, j: int, r: string)
    requires OccursAt(s, pat, i) && j >= i + |pat| && OccursAt(s, pat, j)
    requires r == s[..i] + rep + s[i + |pat|..]
    ensures OccursAt(r, pat, j - |pat| + |rep|)
  {
    var a := s[..i] + rep;
    var b := s[i + |pat|..];
    var j' := j - |pat| + |rep|;
    assert r == a + b;
    SliceOfRight(a, b, j', j' + |pat|);
    assert b[j - i - |pat|..j - i] == s[j..j + |pat|];
  }

  /** The first-occurrence replacement spelled out on a split string. */
  lemma ReplaceFirstSplit(p: string, pat: string, q: string, rep: string)
    requires FirstOccurrence(p + pat + q, pat, |p|)
    ensures ReplaceFirst(p + pat + q, pat, rep) == p + rep + q
  {
    var s := p + pat + q;
    assert s[..|p|] == p;
    assert s[|p| + |pat|..] == q;
  }

  /** A string that starts with `pat` has its first occurrence at the start. */
  lemma ReplaceFirstAtStart(pat: string, q: string, rep: string)
    ensures ReplaceFirst(pat + q, pat, rep) == rep + q
  {
    assert (pat + q)[..|pat|] == pat;
    assert ("" + pat + q) == pat + q;
    ReplaceFirstSplit("", pat, q, rep);
    assert "" + rep + q == rep + q;
  }

  /** A first occurrence after a prefix that holds none, found by matching. */
  lemma ReplaceFirstAfter(p: string, pat: string, q: string, rep: string)
    requires NoneBetween(p + pat + q, pat, 0, |p|)
    ensures ReplaceFirst(p + pat + q, pat, rep) == p + rep + q
  {
    var s := p + pat + q;
    assert s[|p|..|p| + |pat|] == pat;
    MatchFromOccurs(s, pat, |p|);
    FirstOccurrenceByMatching(s, pat, |p|);
    ReplaceFirstSplit(p, pat, q, rep);
  }

  /** Only the first occurrence is replaced: a later, non-overlapping repeat of `pat`
      stays literally in the result, shifted by the change in length. */
  lemma ReplaceFirstKeepsLaterOccurrence(s: string, pat: string, rep: string, i: int, j: int)
    requires FirstOccurrence(s, pat, i)
    requires j >= i + |pat| && OccursAt(s, pat, j)
    ensures OccursAt(ReplaceFirst(s, pat, rep), pat, j - |pat| + |rep|)
  {
    LaterOccurrenceShifts(s, pat, rep, i, j, ReplaceFirst(s, pat, rep));
  }

  /** `s.replace(new RegExp(pat, 'g'), rep)` for a pattern with no special characters:
      every occurrence of `pat`, scanning left to right without overlap, becomes `rep`. */
  function ReplaceAll(s: string, pat: string, rep: string): (r: string)
    requires |pat| > 0
    decreases |s|
  {
    if |s| < |pat| then s
    else if s[..|pat|] == pat then rep + ReplaceAll(s[|pat|..], pat, rep)
    else [s[0]] + ReplaceAll(s[1..], pat, rep)
  }

  /** Dropping the first character shifts every occurrence one place to the left. */
  lemma OccursShift(s: string, pat: string, k: int)
    requires |s| > 0 && k >= 0
    ensures OccursAt(s[1..], pat, k) <==> OccursAt(s, pat, k + 1)
  {
    if k + |pat| <= |s| - 1 {
      assert s[1..][k..k + |pat|] == s[k + 1..k + 1 + |pat|];
    }
  }

  /** Text in which `pat` never occurs is left as it is. */
  lemma {:induction false} ReplaceAllNoOccurrence(s: string, pat: string, rep: string)
    requires |pat| > 0
    requires forall k :: !OccursAt(s, pat, k)
    ensures ReplaceAll(s, pat, rep) == s
    decreases |s|
  {
    if |s| >= |pat| {
      assert !OccursAt(s, pat, 0);
      assert s[..|pat|] != pat;
      forall k ensures !OccursAt(s[1..], pat, k) {
        if k >= 0 {
          OccursShift(s, pat, k);
        }
      }
      ReplaceAllNoOccurrence(s[1..], pat, rep);
      assert s == [s[0]] + s[1..];
    }
  }

  /** A first occurrence after a non-empty prefix is not at the start, and is still
      the first one once the prefix loses its first character. */
  lemma FirstOccurrenceTail(p: string, pat: string, q: string)
    requires p != [] && FirstOccurrence(p + pat + q, pat, |p|)
    ensures (p + pat + q)[..|pat|] != pat
    ensures (p + pat + q)[1..] == p[1..] + pat + q
    ensures FirstOccurrence(p[1..] + pat + q, pat, |p| - 1)
  {
    var s := p + pat + q;
    var s' := p[1..] + pat + q;
    assert !OccursAt(s, pat, 0);
    assert s[1..] == s';
    forall k | 0 <= k <= |p[1..]| ensures OccursAt(s', pat, k) <==> OccursAt(s, pat, k + 1) {
      OccursShift(s, pat, k);
    }
  }

  /** Where `pat` does not start the text, its first character is kept as it is. */
  lemma ReplaceAllSkip(s: string, pat: string, rep: string)
    requires |pat| > 0 && |s| >= |pat| && s[..|pat|] != pat
    ensures ReplaceAll(s, pat, rep) == [s[0]] + ReplaceAll(s[1..], pat, rep)
  {
  }

  lemma ConsAppend(p: string, a: string, b: string)
    requires p != []
    ensures [p[0]] + (p[1..] + a + b) == p + a + b
  {
    assert p == [p[0]] + p[1..];
  }

  /** Global replacement, step by step: the text before the first occurrence is kept,
      the occurrence becomes `rep`, and replacement resumes after it. */
  lemma {:induction false} ReplaceAllFirstOccurrence(p: string, pat: string, q: string, rep: string)
    requires |pat| > 0
    requires FirstOccurrence(p + pat + q, pat, |p|)
    ensures ReplaceAll(p + pat + q, pat, rep) == p + rep + ReplaceAll(q, pat, rep)
    decreases |p|
  {
    var s := p + pat + q;
    if p == [] {
      assert s[..|pat|] == pat && s[|pat|..] == q;
    } else {
      FirstOccurrenceTail(p, pat, q);
      var tail := ReplaceAll(p[1..] + pat + q, pat, rep);
      ReplaceAllSkip(s, pat, rep);
      ReplaceAllFirstOccurrence(p[1..], pat, q, rep);
      var rest := ReplaceAll(q, pat, rep);
      assert s[0] == p[0];
      assert ReplaceAll(s, pat, rep) == [p[0]] + (p[1..] + rep + rest);
      ConsAppend(p, rep, rest);
    }
  }

  /** The characters `String.prototype.trim` removes: ECMA-262's WhiteSpace and
      LineTerminator code points (tab, vertical tab, form
      feed, space, no-break space, the byte order mark, the other Unicode space
      separators, line feed, carriage return, and the line and paragraph separators). */
  predicate IsSpace(c: char) {
    c == '\t' || c == '\n' || c == '\U{000B}' || c == '\U{000C}' || c == '\r' || c == ' ' ||
    c == '\U{00A0}' || c == '\U{1680}' || ('\U{2000}' <= c <= '\U{200A}') ||
    c == '\U{2028}' || c == '\U{2029}' || c == '\U{202F}' || c == '\U{205F}' ||
    c == '\U{3000}' || c == '\U{FEFF}'
  }

  function TrimStart(s: string): string {
    if s != [] && IsSpace(s[0]) then TrimStart(s[1..]) else s
  }

  function TrimEnd(s: string): string {
    if s != [] && IsSpace(s[|s| - 1]) then TrimEnd(s[..|s| - 1]) else s
  }

  /** Trimming the start leaves a suffix that does not start with whitespace, and
      everything cut off is whitespace. */
  lemma {:induction false} TrimStartSpec(s: string)
    ensures var r := TrimStart(s);
      |r| <= |s| && r == s[|s| - |r|..] && (r != [] ==> !IsSpace(r[0])) &&
      forall i :: 0 <= i < |s| - |r| ==> IsSpace(s[i])
  {
    if s != [] && IsSpace(s[0]) {
      TrimStartSpec(s[1..]);
      assert forall i :: 1 <= i < |s| ==> s[i] == s[1..][i - 1];
    }
  }

  /** Trimming the end leaves a prefix that does not end with whitespace, and
      everything cut off is whitespace. */
  lemma {:induction false} TrimEndSpec(s: string)
    ensures var r := TrimEnd(s);
      |r| <= |s| && r == s[..|r|] && (r != [] ==> !IsSpace(r[|r| - 1])) &&
      forall i :: |r| <= i < |s| ==> IsSpace(s[i])
  {
    if s != [] && IsSpace(s[|s| - 1]) {
      TrimEndSpec(s[..|s| - 1]);
    }
  }

  /** `s.trim()`: `s` without its leading and trailing whitespace. */
  function Trim(s: string): (r: string)
  {
    TrimEnd(TrimStart(s))
  }

  /** The trimmed text is a slice of the original that neither starts nor ends with
      whitespace, and everything cut off is whitespace. */
  lemma TrimSpec(s: string)
    ensures exists a, b :: 0 <= a <= b <= |s| && Trim(s) == s[a..b]
    ensures Trim(s) != [] ==> !IsSpace(Trim(s)[0]) && !IsSpace(Trim(s)[|Trim(s)| - 1])
    ensures Trim(s) == [] <==> forall i :: 0 <= i < |s| ==> IsSpace(s[i])
  {
    var t := TrimStart(s);
    var r := TrimEnd(t);
    TrimStartSpec(s);
    TrimEndSpec(t);
    var a := |s| - |t|;
    assert r == s[a..a + |r|];
  }

  /** Trimming twice is trimming once, so a stored trimmed value is its own trim. */
  lemma TrimIdempotent(s: string)
    ensures Trim(Trim(s)) == Trim(s)
  {
    var t := Trim(s);
    TrimSpec(s);
    if t != [] {
      assert TrimStart(t) == t;
      assert TrimEnd(t) == t;
    }
  }

  /** ASCII `toLowerCase` of one character; other characters are unchanged. */
  function ToLowerChar(c: char): (r: char)
  {
    if 'A' <= c <= 'Z' then (c as int + 32) as char else c
  }

  /** ASCII `toUpperCase` of one character; other characters are unchanged. */
  function ToUpperChar(c: char): (r: char)
  {
    if 'a' <= c <= 'z' then (c as int - 32) as char else c
  }

  function ToLower(s: string): (r: string)
    ensures |r| == |s| && forall i :: 0 <= i < |s| ==> r[i] == ToLowerChar(s[i])
  {
    seq(|s|, i requires 0 <= i < |s| => ToLowerChar(s[i]))
  }

  /** Upper-casing undoes lower-casing on the ASCII letters, and neither touches digits. */
  lemma CaseMappingRoundTrip(c: char)
    ensures 'a' <= c <= 'z' ==> ToLowerChar(ToUpperChar(c)) == c
    ensures 'A' <= c <= 'Z' ==> ToUpperChar(ToLowerChar(c)) == c
    ensures IsDigit(c) ==> ToLowerChar(c) == c && ToUpperChar(c) == c
  {
  }
}
